=== FILE: README.md ===
# TypeCoercion dispatch engine in Dafny

This project models the coercion engine of the `QueryBuilder.Core.Coercion` library. `TypeCoercion.TryCoerce(value, targetType, options)` converts a boxed CLR value to a requested type without throwing. It works in five steps:

1. A `JsonElement` is unwrapped into the CLR value it denotes, and that value is coerced again.
2. `null` follows the null rule: it is allowed for reference types and `Nullable<T>`, and is ConversionFailed otherwise.
3. `Nullable<T>` is stripped to get the effective type.
4. A value that already has the effective type is returned unchanged.
5. Anything else goes to the ordered list of coercers in `TypeCoercionOptions`:
   - an enum type goes to the enum coercer alone;
   - any other type is scanned in order until a coercer succeeds, or fails with a code other than `UnsupportedSourceType`;
   - an exhausted list is ConversionFailed.

`Coerce` throws a `TypeCoercionException` built from the failure.

The project has these modules:

| module | contents |
|---|---|
| `Wrappers` | the option type |
| `ErrorCodes` | the six-code `CoercionErrorCode` enum |
| `Faults` | exception kinds and `TypeCoercionException` |
| `ClrTypes` | type tags (including `Nullable<T>`), boxed values, JSON elements, `Nullable.GetUnderlyingType`, `IsInstanceOfType` |
| `Text` | `Char.IsWhiteSpace` and `Trim`, ASCII case folding, integer text in invariant `NumberStyles.Integer`, the "D" form of a Guid (section 4 of RFC 9562) |
| `Results` | `CoercionResult` and `CoercionResult<T>` |
| `Platform` | the .NET conversions the coercers call |
| `Classification` | `GetErrorCode` and `CreateFailureFromException` |
| `Coercers` | one function per built-in coercer, plus the `ITypeCoercer` call as a function of a coercer-kind datatype |
| `CoercionSpec` | the pure meaning of `TryCoerce`, the dispatch, the JSON handling and `Coerce` |
| `Options` | the mutable `TypeCoercionOptions` class |
| `TypeCoercion` | the imperative entry points, proved equal to `CoercionSpec` |
| `Properties`, `JsonProperties` | lemmas about the pipeline, including the library's own test cases |

The `Platform` conversions split into two groups:
- **Written out:** `Convert.ChangeType`, `Convert.ToBoolean`, `Convert.ToChar`, the integral conversions with their range checks, `bool.Parse`, `Guid.Parse` for the "D" form, and `Convert.ToString` of the built-in scalars.
- **Supplied by the caller in a `Library` record:** culture-dependent date and time parsing, floating-point and decimal conversions, other Guid forms, `ToString` overrides, the `JsonElement.TryGet*` readings of reals, `JsonSerializer.Deserialize`, and custom coercers.

## Model

| member | source | states |
|---|---|---|
| ErrorCodes.Ordinal | TypeCoercion/CoercionErrorCode.cs:6-25 | each code's underlying integer is below 6, and it is 0 exactly for None |
| ErrorCodes.FromOrdinal | TypeCoercion/CoercionErrorCode.cs:6-25 | the cast from int picks the code with that ordinal |
| ErrorCodes.ZeroCode | TypeCoercion/CoercionErrorCode.cs:8-9 | zero-initialised storage holds None |
| ErrorCodes.OrdinalRoundTrip | TypeCoercion/CoercionErrorCode.cs:6-25 | ordinals identify the six codes |
| ErrorCodes.DeclarationOrder | TypeCoercion/CoercionErrorCode.cs:6-25 | the codes are numbered in declaration order: None, UnsupportedSourceType, InvalidFormat, Overflow, ConversionFailed, InvalidEnumMember |
| Faults.NewTypeCoercionException | TypeCoercion/TypeCoercionException.cs:15-16 | the message and the code are those given, with no inner exception |
| Faults.NewTypeCoercionExceptionWithInner | TypeCoercion/TypeCoercionException.cs:24-25 | the message and the code are those given, and the inner exception is kept |
| Faults.AsInvalidOperation | TypeCoercion/TypeCoercionException.cs:8 | seen through its base class, the exception is an InvalidOperationException with the same message |
| ClrTypes.UnderlyingType | TypeCoercion/TypeCoercion.cs:95 | `Nullable.GetUnderlyingType` gives a type exactly for `Nullable<T>` |
| ClrTypes.EffectiveType | TypeCoercion/TypeCoercion.cs:95 | a type that is not `Nullable<T>` is its own effective type |
| ClrTypes.TypeOf | TypeCoercion/TypeCoercion.cs:97 | a boxed value's runtime type is never `Nullable<T>` |
| ClrTypes.NoInstanceOfNullable | TypeCoercion/TypeCoercion.cs:94-98 | no value is an instance of a `Nullable<T>`, which is why the identity test uses the effective type |
| Text.TrimBy | TypeCoercion/Coercers/EnumTypeCoercer.cs:22 | the result keeps no trimmed character at either end, and is empty exactly when every character is trimmed |
| Text.TrimByUntouched | TypeCoercion/Coercers/EnumTypeCoercer.cs:22 | text whose ends are not trimmed is unchanged |
| Text.Trim | TypeCoercion/Coercers/EnumTypeCoercer.cs:22 | `String.Trim` leaves no white space at either end |
| Text.TrimEmptyIffWhiteSpace | TypeCoercion/Coercers/EnumTypeCoercer.cs:22-23 | trimmed text is empty exactly when `IsNullOrWhiteSpace` holds |
| Text.FormatInteger | TypeCoercion/Coercers/StringTypeCoercer.cs:12 | integer text is non-empty, has no surrounding white space, and starts with a minus exactly for negatives |
| Text.FormatNatValue | TypeCoercion/Coercers/StringTypeCoercer.cs:12 | the digits written for n have the value n |
| Text.DropTrailingNuls | TypeCoercion/Coercers/NumericTypeCoercer.cs:14 | the result is a prefix of the text that does not end in NUL, and everything cut off is NUL |
| Text.IntegerSyntax | TypeCoercion/Coercers/EnumTypeCoercer.cs:30 | the `NumberStyles.Integer` grammar: white space, an optional sign, digits, white space, then any run of NULs at the very end; text read as an integer contains a digit |
| Text.TrailingNulIgnored | TypeCoercion/Coercers/NumericTypeCoercer.cs:14 | a NUL at the end of the text does not change how it reads |
| Text.NulTerminatedRoundTrip | TypeCoercion/Coercers/NumericTypeCoercer.cs:14 | an integer's text followed by a NUL reads back as the integer |
| Text.NulThenWhiteRefused | TypeCoercion/Coercers/NumericTypeCoercer.cs:14 | white space after a NUL is refused: "12\0 " is not integer text |
| Text.FormatIntegerRoundTrip | TypeCoercion/Coercers/NumericTypeCoercer.cs:14 | what `ToString` writes for an integer, the integer parser reads back as the same integer |
| Text.FormatGuid | TypeCoercion/Coercers/GuidTypeCoercer.cs:15 | `Guid.ToString()` is 36 characters with hyphens at exactly the four 8-4-4-4-12 positions |
| Text.ParseGuidD | TypeCoercion/Coercers/GuidTypeCoercer.cs:15 | the "D" reader accepts exactly 36-character hyphenated hexadecimal text |
| Text.GuidRoundTrip | TypeCoercion/Coercers/GuidTypeCoercer.cs:14-15 | parsing a Guid's "D" text gives the Guid back |
| Text.FormatGuidInjective | TypeCoercion/Coercers/GuidTypeCoercer.cs:14-15 | two Guids with the same text are equal |
| Results.CoercionResult.Value | TypeCoercion/CoercionResult.cs:15 | a failure's value is null |
| Results.CoercionResult.Error | TypeCoercion/CoercionResult.cs:18 | a success's error is the empty string |
| Results.CoercionResult.ErrorCode | TypeCoercion/CoercionResult.cs:21 | a success's code is None |
| Results.CoercionResult.OriginalException | TypeCoercion/CoercionResult.cs:24 | a success carries no exception |
| Results.Ok | TypeCoercion/CoercionResult.cs:38 | Success, the given value, an empty error, code None and no exception |
| Results.Fail | TypeCoercion/CoercionResult.cs:44 | a failure with a null value, the given error and code, and no exception |
| Results.FailWith | TypeCoercion/CoercionResult.cs:51-52 | as `Fail`, but keeping the given exception |
| Results.DefaultResult | TypeCoercion/CoercionResult.cs:26-33 | `default(CoercionResult)` is a failure with a null value and no exception whose code is None, so failure does not force a code |
| Results.EqualsIgnoresException | TypeCoercion/CoercionResult.cs:51-59 | `Fail(e, c, ex)` equals `Fail(e, c)` though the two differ in their exception |
| Results.EqualsIsEquivalence | TypeCoercion/CoercionResult.cs:55-71 | `Equals` is reflexive, symmetric and transitive, and `!=` is the negation of `==` |
| Results.EqualsHashAlike | TypeCoercion/CoercionResult.cs:65 | equal results hash alike, since the hash combines exactly the compared properties |
| Results.EqualsDeterminesResult | TypeCoercion/CoercionResult.cs:55-59 | equality forgets only the exception: equal results with the same exception are identical |
| Results.TypedResult.Value | TypeCoercion/CoercionResultOfT.cs:8 | a failed typed result's value is `default(T)` |
| Results.TypedResult.Error | TypeCoercion/CoercionResultOfT.cs:9 | a success's error is empty |
| Results.TypedResult.ErrorCode | TypeCoercion/CoercionResultOfT.cs:10 | a success's code is None |
| Results.TypedResult.OriginalException | TypeCoercion/CoercionResultOfT.cs:11 | a success carries no exception |
| Results.TypedOk | TypeCoercion/CoercionResultOfT.cs:22 | Success, the given value, an empty error, code None and no exception |
| Results.TypedFail | TypeCoercion/CoercionResultOfT.cs:24-25 | a failure keeping the given error, code and optional exception |
| Results.Widen | TypeCoercion/CoercionResultOfT.cs:27-31 | the implicit conversion keeps Success, the boxed value, Error, ErrorCode and the exception |
| Results.WidenPreservesEquals | TypeCoercion/CoercionResultOfT.cs:27-37 | with injective boxing, typed results are equal exactly when their widenings are |
| Results.TypedEquals | TypeCoercion/CoercionResultOfT.cs:33-37 | two successes are equal exactly when their values are, two failures exactly when their messages and codes are, whatever `default(T)` is and whatever exceptions they carry |
| Results.TypedEqualsIgnoresException | TypeCoercion/CoercionResultOfT.cs:33-37 | a typed failure with an exception equals the one without it, though the two differ |
| Results.TypedEqualsIsEquivalence | TypeCoercion/CoercionResultOfT.cs:33-45 | typed `Equals` is reflexive, symmetric and transitive, and `!=` is the negation of `==` |
| Results.TypedEqualsHashAlike | TypeCoercion/CoercionResultOfT.cs:41 | equal typed results hash alike, since the hash combines exactly the compared properties |
| Results.TypedEqualsDeterminesResult | TypeCoercion/CoercionResultOfT.cs:33-37 | typed equality forgets only the exception: equal results with the same exception are identical |
| Platform.ConvertToString | TypeCoercion/Coercers/StringTypeCoercer.cs:12 | a string is its own text, an integer is its decimal text, a Guid its "D" text, and only JSON and user objects can give null |
| Platform.DisplayText | TypeCoercion/TypeCoercion.cs:285 | `ToString()` of a string is that string |
| Platform.ParseBool | TypeCoercion/Coercers/BoolTypeCoercer.cs:19-20 | `bool.Parse` gives true exactly for "True" and false exactly for "False", in any case and ignoring surrounding white space and NULs, and otherwise raises a FormatException |
| Platform.BareWordUntrimmed | TypeCoercion/Coercers/BoolTypeCoercer.cs:20 | a letter word needs no trimming before `bool.Parse` compares it |
| Platform.ParseGuid | TypeCoercion/Coercers/GuidTypeCoercer.cs:15 | "D" text, once trimmed, is parsed as the Guid it shows, and any failure is a FormatException |
| Platform.CheckRange | TypeCoercion/Coercers/NumericTypeCoercer.cs:14 | an integer converts to an integral kind exactly when it is in range, and otherwise raises an OverflowException |
| Platform.ParseInteger | TypeCoercion/Coercers/NumericTypeCoercer.cs:14 | integer text in range parses to its value, out-of-range integer text raises Overflow, and anything else raises Format |
| Platform.ToBoolean | TypeCoercion/Coercers/BoolTypeCoercer.cs:22 | strings go through `bool.Parse`, a number is true exactly when it is non-zero, chars and DateTimes raise InvalidCast, and only Format or InvalidCast faults occur |
| Platform.ToChar | TypeCoercion/Coercers/FallbackTypeCoercer.cs:11 | a string converts to a char exactly when it is one UTF-16 code unit |
| Platform.ToInteger | TypeCoercion/Coercers/NumericTypeCoercer.cs:14 | the result is always in range; strings are parsed and integers range-checked; a float or double converts when its half-even rounding is in range, to a value within one half of it, and `uint` also takes any value in (-1.0, 0.0), as 0; the only faults are Format, Overflow and InvalidCast |
| Platform.UInt32TruncatesNearZero | TypeCoercion/Coercers/NumericTypeCoercer.cs:14 | a double in (-1.0, -0.5) converts to `uint` as 0, but overflows `byte`, `ushort` and `ulong` and is -1 as an `int` |
| Platform.ToDecimal | TypeCoercion/Coercers/NumericTypeCoercer.cs:14 | an integer converts to `decimal` exactly |
| Platform.ToFloating | TypeCoercion/Coercers/NumericTypeCoercer.cs:14 | chars and DateTimes are refused, and a value already of the width is kept |
| Platform.ToDateTime | TypeCoercion/Coercers/FallbackTypeCoercer.cs:11 | a DateTime converts to itself |
| Platform.ChangeType | TypeCoercion/Coercers/FallbackTypeCoercer.cs:11 | the result is an instance of the target type and is well formed, a value already of the type is kept, a non-convertible value converts only to its own type, and integral targets follow `ToInteger` |
| Platform.RoundHalfEven | TypeCoercion/Coercers/NumericTypeCoercer.cs:14 | rounding lands within one half of the number |
| Classification.GetErrorCode | TypeCoercion/TypeCoercion.cs:295-302 | Format and JSON faults are InvalidFormat, Overflow is Overflow, NotSupported is UnsupportedSourceType, and all else is ConversionFailed; each holds in both directions |
| Classification.Preview | TypeCoercion/TypeCoercion.cs:285-287 | a display text of at most 50 characters is kept, and a longer one becomes its first 50 followed by "..." |
| Classification.PreviewOfString | TypeCoercion/TypeCoercion.cs:285-287 | a shown string is at most 53 characters long and begins with the first 50 of the value |
| Classification.CreateFailureFromException | TypeCoercion/TypeCoercion.cs:283-293 | a failure with the classified code (never None), the exception kept, and a message "Cannot convert '…" ending in the exception's message |
| Coercers.TryCoerce | TypeCoercion/ITypeCoercer.cs:18 | a coercer declines every effective type it does not own; a built-in one returns null or a value of the effective type, and never a failure with code None |
| Coercers.FromAttempt | TypeCoercion/Coercers/FallbackTypeCoercer.cs:9-16 | a conversion that returns is `Ok` of its value, and one that throws is the classified failure against the declared type |
| Coercers.CoerceString | TypeCoercion/Coercers/StringTypeCoercer.cs:7-13 | a non-string target is UnsupportedSourceType; a string target always succeeds, with the culture text, or null when `ToString` gives null; an integer becomes its decimal text |
| Coercers.CoerceBool | TypeCoercion/Coercers/BoolTypeCoercer.cs:12-28 | a non-bool target is UnsupportedSourceType; success happens exactly when `Convert.ToBoolean` succeeds, with its value; unparsable text is InvalidFormat; a number n gives n != 0 |
| Coercers.CoerceGuid | TypeCoercion/Coercers/GuidTypeCoercer.cs:7-23 | a non-Guid target is UnsupportedSourceType; "D" text parses to its Guid; failed text is InvalidFormat; a non-string is the fallback's result with the same arguments |
| Coercers.LookupName | TypeCoercion/Coercers/EnumTypeCoercer.cs:37 | the member found has the name ignoring case; when none is found, no member has it |
| Coercers.EnumTryParse | TypeCoercion/Coercers/EnumTypeCoercer.cs:37 | non-integer text succeeds exactly when some member has the name ignoring case, and then gives that member's value; integer text gives only in-range values |
| Coercers.CoerceEnum | TypeCoercion/Coercers/EnumTypeCoercer.cs:8-43 | a non-enum target is UnsupportedSourceType; a non-string is declined with "Enum values must be string names only"; a string is judged on its trimmed text; only a string can succeed |
| Coercers.CoerceEnumName | TypeCoercion/Coercers/EnumTypeCoercer.cs:22-42 | blank text and 64-bit integer text are InvalidEnumMember; otherwise success happens exactly when `Enum.TryParse` finds the name, giving that member; every failure is InvalidEnumMember |
| Coercers.EnumResult | TypeCoercion/Coercers/EnumTypeCoercer.cs:38 | a parsed enum value is boxed as the enum type |
| Coercers.CoerceDateTime | TypeCoercion/Coercers/DateTimeTypeCoercer.cs:8-34 | a non-DateTime target is UnsupportedSourceType; text is parsed with the culture (InvalidFormat, no exception, when it fails); a DateTimeOffset gives its `.DateTime`; a DateOnly gives its midnight; other sources are declined |
| Coercers.OffsetResult | TypeCoercion/Coercers/DateTimeOffsetTypeCoercer.cs:22-32 | a constructed offset is `Ok`, and a thrown fault is classified |
| Coercers.CoerceDateTimeOffset | TypeCoercion/Coercers/DateTimeOffsetTypeCoercer.cs:8-34 | a non-DateTimeOffset target is UnsupportedSourceType; text is parsed with the culture; a DateTime is wrapped as `new DateTimeOffset(dateTime)`; a DateOnly is wrapped at its midnight; other sources are declined |
| Coercers.CoerceDateOnly | TypeCoercion/Coercers/DateOnlyTypeCoercer.cs:8-28 | a non-DateOnly target is UnsupportedSourceType; text is parsed, with parse faults classified; a DateTime or a DateTimeOffset's clock reading gives its date; anything else goes to the fallback |
| Coercers.CoerceTimeOnly | TypeCoercion/Coercers/TimeOnlyTypeCoercer.cs:8-24 | a non-TimeOnly target is UnsupportedSourceType; text is parsed, with faults classified against the declared type; a non-string is the fallback's result |
| Coercers.CoerceTimeSpan | TypeCoercion/Coercers/TimeSpanTypeCoercer.cs:8-24 | a non-TimeSpan target is UnsupportedSourceType; text is parsed, with faults classified against the declared type; a non-string is the fallback's result |
| Coercers.CoerceNumeric | TypeCoercion/Coercers/NumericTypeCoercer.cs:7-20 | a type outside the eleven numeric types is UnsupportedSourceType; otherwise `Convert.ChangeType` decides; integral targets succeed exactly when the integer conversion does, with Overflow for out-of-range integer text and InvalidFormat for non-integer text |
| Coercers.CoerceFallback | TypeCoercion/Coercers/FallbackTypeCoercer.cs:7-17 | there is no type guard; a success is an instance of the effective type; a non-convertible value succeeds only for its own type, and fails otherwise with ConversionFailed |
| CoercionSpec.NullableTargets | TypeCoercion/TypeCoercion.cs:259-260 | null is allowed exactly for object, string, classes and `Nullable<T>` |
| CoercionSpec.ComplexTypes | TypeCoercion/TypeCoercion.cs:262-281 | the complex types are exactly classes, structs, `JsonElement` and `Nullable<T>`, not object, primitives, enums, string, decimal, the date and time types or Guid |
| CoercionSpec.NullResult | TypeCoercion/TypeCoercion.cs:84-92 | null gives `Ok(null)` for a nullable target and ConversionFailed otherwise |
| CoercionSpec.TryCoerce | TypeCoercion/TypeCoercion.cs:74-117 | null follows the null rule; a value already of the effective type (not a JSON element headed elsewhere) is returned unchanged; any other non-JSON value goes to dispatch on the effective type |
| CoercionSpec.JsonIntegerIsIntegerText | TypeCoercion/TypeCoercion.cs:187-209 | a JSON integer literal reads as the same integer the text parser would give |
| CoercionSpec.JsonIntegerSyntax | TypeCoercion/TypeCoercion.cs:220 | a JSON integer's raw text has no surrounding white space |
| CoercionSpec.JsonIntegerFor | TypeCoercion/TypeCoercion.cs:187-209 | the `TryGet…` readers agree with the literal's value; the signed ones read every integer literal, and the unsigned ones read exactly those without a minus, never a negative number |
| CoercionSpec.JsonNumberValue | TypeCoercion/TypeCoercion.cs:185-218 | an extracted number has exactly the effective type and is in range; an integral extraction succeeds exactly when the literal is an integer that fits the width and, for an unsigned type, has no minus, and it is that integer; non-numeric types extract nothing |
| CoercionSpec.TryDeserializeComplexJson | TypeCoercion/TypeCoercion.cs:223-257 | a non-complex type is UnsupportedSourceType; for a complex type, a deserialised object is the result, a null result follows the null rule on the declared type, and a thrown fault is classified |
| CoercionSpec.NoCoercerFound | TypeCoercion/TypeCoercion.cs:148-150 | exhaustion is a ConversionFailed failure |
| CoercionSpec.Dispatch | TypeCoercion/TypeCoercion.cs:119-151 | an enum type with an enum coercer in the list gets that coercer's result unchanged; anything else gets the scan |
| CoercionSpec.Scan | TypeCoercion/TypeCoercion.cs:132-150 | the scan never returns UnsupportedSourceType, and a list whose every coercer is passed over gives NoCoercerFound |
| CoercionSpec.Coerce | TypeCoercion/TypeCoercion.cs:156-165 | it returns a value exactly when `TryCoerce` succeeds, and that value; otherwise it throws with the same Error and ErrorCode, with the original exception as inner exception exactly when there is one |
| CoercionSpec.DefaultCoercers | TypeCoercion/TypeCoercion.cs:29-57 | the built-in list has eleven built-in coercers and ends with the fallback |
| Options.TypeCoercionOptions.constructor | TypeCoercion/TypeCoercionOptions.cs:15-20 | a new options object has an empty coercer list and the invariant culture |
| Options.TypeCoercionOptions.Add | TypeCoercion/TypeCoercionOptions.cs:15 | `Coercers.Add` appends and leaves the culture alone |
| Options.TypeCoercionOptions.Insert | TypeCoercion/TypeCoercionOptions.cs:15 | `Coercers.Insert(i, c)` puts c at position i when 0 <= i <= Count, and otherwise changes nothing (an ArgumentOutOfRangeException) |
| Options.TypeCoercionOptions.SetCulture | TypeCoercion/TypeCoercionOptions.cs:20 | the culture can be reassigned, and the list is untouched |
| TypeCoercion.DispatchToCoercer | TypeCoercion/TypeCoercion.cs:119-151 | the two loops over the options' list compute `CoercionSpec.Dispatch` |
| TypeCoercion.ScanCoercers | TypeCoercion/TypeCoercion.cs:132-150 | the scan loop computes `CoercionSpec.Scan`; its invariant is that the scan of the whole list equals the scan of the coercers from the index on |
| TypeCoercion.TryCoerce | TypeCoercion/TypeCoercion.cs:74-117 | computes `CoercionSpec.TryCoerce` on the options' current list and culture |
| TypeCoercion.TryCoerceJsonElement | TypeCoercion/TypeCoercion.cs:167-181 | the switch on the value kind computes `CoercionSpec.TryCoerceJsonElement` |
| TypeCoercion.TryCoerceJsonNumber | TypeCoercion/TypeCoercion.cs:183-221 | the width-by-width extraction computes `CoercionSpec.TryCoerceJsonNumber` |
| TypeCoercion.Coerce | TypeCoercion/TypeCoercion.cs:156-165 | computes `CoercionSpec.Coerce` |
| TypeCoercion.RegisterBuiltIns | TypeCoercion/TypeCoercion.cs:34-56 | the static constructor's `Add` calls append exactly the built-in list, in order, with one fallback shared by four coercers |
| TypeCoercion.Statics.constructor | TypeCoercion/TypeCoercionOptions.cs:25 | `TypeCoercionOptions.Default`'s own static initialiser: a fresh options object with no coercers and the invariant culture, before `TypeCoercion`'s static constructor has run |
| TypeCoercion.Statics.EnsureInitialised | TypeCoercion/TypeCoercion.cs:29-57 | `TypeCoercion`'s static constructor runs once: on first use the built-in list is appended after whatever `Default` already holds; later uses leave the list unchanged; the culture is never touched |
| TypeCoercion.TryCoerceDefault | TypeCoercion/TypeCoercion.cs:62-63 | the two-argument overload first triggers static initialisation (appending the built-ins on first use) and then behaves as `TryCoerce` with the shared `Default` in its resulting state |
| TypeCoercion.CoerceDefault | TypeCoercion/TypeCoercion.cs:68-69 | the two-argument `Coerce` first triggers static initialisation and then behaves as `Coerce` with the shared `Default` in its resulting state |
| Properties.ScanSkipsPassedOver | TypeCoercion/TypeCoercion.cs:132-146 | coercers the scan passes over can be dropped from the front of the list |
| Properties.ScanPassesFirst | TypeCoercion/TypeCoercion.cs:135-145 | a first coercer that is passed over leaves the rest of the list to decide |
| Properties.ScanFirstDecides | TypeCoercion/TypeCoercion.cs:132-146 | the first coercer not passed over decides the scan: its success or its other failure is returned |
| Properties.EmptyListFindsNothing | TypeCoercion/TypeCoercion.cs:148-150 | an empty list gives NoCoercerFound, which is ConversionFailed |
| Properties.CustomFirstWins | TypeCoercion.Tests/EdgeCaseCoercionTests.cs:41-65 | a custom coercer inserted at index 0 that does not decline wins, whatever follows it |
| Properties.CustomCoercerAlone | TypeCoercion.Tests/EdgeCaseCoercionTests.cs:41-65 | a list holding only a custom coercer returns its result, or NoCoercerFound when it declines |
| Properties.EnumRouting | TypeCoercion/TypeCoercion.cs:121-129 | an enum type gets the enum coercer's result even when it declines |
| Properties.EnumWithoutEnumCoercer | TypeCoercion/TypeCoercion.cs:121-146 | with no enum coercer, an enum type is scanned like any other and cannot come back declined |
| Properties.DispatchDeclinesOnlyForEnums | TypeCoercion/TypeCoercion.cs:119-151 | dispatch returns UnsupportedSourceType only through enum routing |
| Properties.NonOwnersPassedOver | TypeCoercion/TypeCoercion.cs:132-146 | coercers that do not own the effective type are passed over |
| Properties.FirstOwnerDecides | TypeCoercion/TypeCoercion.cs:132-146 | for a non-enum type, the first owning coercer's non-declining result is the dispatch result |
| Properties.OwnerDecides | TypeCoercion/TypeCoercion.cs:74-146 | for a non-JSON value not already of the type, the first owning coercer's non-declining result is `TryCoerce`'s result |
| Properties.InterfaceRoutes | TypeCoercion/ITypeCoercer.cs:18 | the interface call runs each coercer's own `TryCoerce` |
| Properties.NumericTypeShape | TypeCoercion/TypeCoercion.cs:14-22 | the numeric types are exactly the integral kinds, float, double and decimal |
| Properties.DefaultLayout | TypeCoercion/TypeCoercion.cs:40-56 | the built-in list, position by position |
| Properties.DefaultHasEnumCoercer | TypeCoercion/TypeCoercion.cs:43 | the built-in list contains the enum coercer |
| Properties.DefaultNumericDispatch | TypeCoercion/TypeCoercion.cs:40-56 | with the built-in list, a numeric type reaches the numeric coercer, ahead of the fallback |
| Properties.NumericOnIntegers | TypeCoercion/Coercers/NumericTypeCoercer.cs:9-19 | on an integral type the numeric coercer never declines; it succeeds exactly when the integer conversion does, and otherwise reports the classified fault with the exception kept |
| Properties.DefaultIntegerTarget | TypeCoercion/Coercers/NumericTypeCoercer.cs:14-19 | with the built-in list, an integral target gives `Convert.ChangeType`'s answer: the integer when it fits, else the classified fault with the exception kept (long.MaxValue to int fails) |
| Properties.DefaultIntegerText | TypeCoercion.Tests/TypeCoercionTests.cs:40-47 | text for an integral or nullable integral target succeeds exactly for in-range integer text, is Overflow exactly for out-of-range integer text, and InvalidFormat exactly for other text |
| Properties.IntegerTextAccepted | TypeCoercion.Tests/EdgeCaseCoercionTests.cs:72-76 | any in-range integer text coerces to that integer |
| Properties.IntegerTextOverflows | TypeCoercion/Coercers/NumericTypeCoercer.cs:14-19 | any out-of-range integer text is Overflow |
| Properties.ExtremeTextFits | TypeCoercion.Tests/EdgeCaseCoercionTests.cs:88-89 | the text of a kind's MinValue or MaxValue coerces to that value |
| Properties.TextOverflows | TypeCoercion.Tests/EdgeCaseCoercionTests.cs:93-94 | the text of an integer outside a kind, such as long.MaxValue for int or int.MinValue for uint, is Overflow |
| Properties.StringToInt | TypeCoercion.Tests/TypeCoercionTests.cs:69-73 | "123" to int is 123 |
| Properties.Text123 | TypeCoercion.Tests/TypeCoercionTests.cs:69-73 | "123" is integer text for 123 |
| Properties.NinesText | TypeCoercion.Tests/TypeCoercionTests.cs:92-99 | a run of n nines is integer text for 10^n - 1 |
| Properties.NinesOverflow | TypeCoercion.Tests/TypeCoercionTests.cs:92-99 | a run of nines too large for a kind is Overflow |
| Properties.StringToIntOverflow | TypeCoercion.Tests/TypeCoercionTests.cs:92-99 | "99999999999999999999" to int is Overflow |
| Properties.StringToIntInvalid | TypeCoercion.Tests/TypeCoercionTests.cs:83-90 | "not-a-number" to int is InvalidFormat |
| Properties.LetterInitialNotInteger | TypeCoercion.Tests/TypeCoercionTests.cs:83-90 | text starting with a letter is not integer text |
| Properties.IntegerToString | TypeCoercion/Coercers/StringTypeCoercer.cs:12 | an integer to string is its decimal text, which reads back as the same integer |
| Properties.IntToString | TypeCoercion.Tests/TypeCoercionTests.cs:139-146 | 42 to string is "42" |
| Properties.IntToDecimal | TypeCoercion.Tests/TypeCoercionTests.cs:75-81 | 42 to decimal is exactly 42 |
| Properties.DefaultStringTarget | TypeCoercion/Coercers/StringTypeCoercer.cs:12 | any non-string value bound for string reaches the first coercer and always succeeds with its culture text |
| Properties.DefaultBoolTarget | TypeCoercion/Coercers/BoolTypeCoercer.cs:14-26 | a non-bool value bound for bool succeeds exactly when `Convert.ToBoolean` does, with its value; failing text is InvalidFormat |
| Properties.DefaultBoolDispatch | TypeCoercion/TypeCoercion.cs:40-41 | with the built-in list, a non-bool value bound for bool is the bool coercer's result |
| Properties.BoolDispatchAt | TypeCoercion/TypeCoercion.cs:132-146 | a list starting with the string and bool coercers hands bool targets to the second |
| Properties.BoolCoercerDecides | TypeCoercion/Coercers/BoolTypeCoercer.cs:17-26 | the bool coercer never declines bool |
| Properties.BoolWord | TypeCoercion.Tests/TypeCoercionTests.cs:103-115 | "true", "True", "TRUE" give true and "false", "False" give false, as does any other casing |
| Properties.OtherToBool | TypeCoercion.Tests/TypeCoercionTests.cs:128-135 | "not-a-bool" is InvalidFormat |
| Properties.NumberToBool | TypeCoercion.Tests/TypeCoercionTests.cs:117-126 | the int 1 gives true and 0 gives false |
| Properties.TypeOfTags | TypeCoercion/TypeCoercion.cs:97 | the runtime type is string, bool, Guid, char or integral exactly for values of that kind |
| Properties.GuidCoercerReadsCanonical | TypeCoercion/Coercers/GuidTypeCoercer.cs:14-15 | the Guid coercer reads a Guid's "D" text back to the Guid |
| Properties.DefaultGuidRoundTrip | TypeCoercion.Tests/TypeCoercionTests.cs:214-219 | with the built-in list, `g.ToString()` coerced to Guid is g |
| Properties.GuidOwnerAt | TypeCoercion/TypeCoercion.cs:40-42 | text bound for Guid passes the string and bool coercers and reaches the Guid coercer |
| Properties.GuidCoercerRefuses | TypeCoercion/Coercers/GuidTypeCoercer.cs:14-21 | text that is no Guid is InvalidFormat, and the FormatException is kept |
| Properties.DefaultCoerceBadGuid | TypeCoercion.Tests/TypeCoercionTests.cs:419-436 | `Coerce` of text that is no Guid throws with InvalidFormat, and the FormatException is the inner exception |
| Properties.DefaultInstanceToInteger | TypeCoercion.Tests/TypeCoercionTests.cs:289-297 | a plain object to int is ConversionFailed |
| Properties.DefaultCharTarget | TypeCoercion.Tests/TypeCoercionTests.cs:279-287 | char has no coercer of its own: text reaches the fallback, which accepts exactly a one-unit string and otherwise reports InvalidFormat |
| Properties.FallbackReadsChar | TypeCoercion/Coercers/FallbackTypeCoercer.cs:11-15 | the fallback converts text to char exactly when it is one code unit |
| Properties.StringToChar | TypeCoercion.Tests/TypeCoercionTests.cs:279-287 | "A" to char is 'A' |
| Properties.EnumReaches | TypeCoercion/TypeCoercion.cs:97-127 | a value that needs converting to an enum type goes to the enum coercer alone |
| Properties.EnumNameResolution | TypeCoercion/Coercers/EnumTypeCoercer.cs:22-42 | non-blank, non-integer text succeeds exactly when `Enum.TryParse` finds its trimmed text, and is otherwise InvalidEnumMember |
| Properties.TrimmedNotBlank | TypeCoercion/Coercers/EnumTypeCoercer.cs:22-23 | text that is not blank is not blank after trimming |
| Properties.NameCandidate | TypeCoercion/Coercers/EnumTypeCoercer.cs:37-42 | trimmed text that is not blank and not integer text is judged by `Enum.TryParse` |
| Properties.EnumIntegerTextRefused | TypeCoercion/Coercers/EnumTypeCoercer.cs:30-35 | integer text in the 64-bit range is InvalidEnumMember with the names-only message, even when a member has that value |
| Properties.EnumNonTextDeclined | TypeCoercion/Coercers/EnumTypeCoercer.cs:15-19 | a value that is not text is UnsupportedSourceType with the names-only message, and dispatch returns that |
| Properties.LookupFirst | TypeCoercion/Coercers/EnumTypeCoercer.cs:37 | the first member matching a name is the one found |
| Properties.PlainNameResolves | TypeCoercion/Coercers/EnumTypeCoercer.cs:22-38 | text that needs no trimming and is a member's name gives that member |
| Properties.LetterWordPlain | TypeCoercion/Coercers/EnumTypeCoercer.cs:22-30 | a letter word is its own trimmed text, is not blank and is not integer text |
| Properties.LetterWordNotInteger | TypeCoercion/Coercers/EnumTypeCoercer.cs:30 | a letter word is not integer text |
| Properties.DayOfWeekName | TypeCoercion.Tests/TypeCoercionTests.cs:239-246 | a letter word naming a DayOfWeek member, in any case, gives that member |
| Properties.DayOfWeekTuesday | TypeCoercion.Tests/TypeCoercionTests.cs:239-246 | "tuesday" is Tuesday |
| Properties.DayOfWeekFriday | TypeCoercion.Tests/TypeCoercionTests.cs:239-246 | "FRIDAY" is Friday |
| Properties.DayOfWeekMonday | TypeCoercion.Tests/TypeCoercionTests.cs:239-246 | "Monday" is Monday |
| Properties.NullableDayOfWeekTuesday | TypeCoercion.Tests/TypeCoercionTests.cs:58-65 | "Tuesday" to the nullable `DayOfWeek?` is Tuesday |
| Properties.DayOfWeekNumericText | TypeCoercion.Tests/TypeCoercionTests.cs:248-256 | "1" is InvalidEnumMember for DayOfWeek |
| Properties.NumericTextAt | TypeCoercion/Coercers/EnumTypeCoercer.cs:30-35 | the text "1" is refused for any enum |
| Properties.OneIsIntegerText | TypeCoercion/Coercers/EnumTypeCoercer.cs:22-30 | "1" trims to itself and is integer text for 1 |
| Properties.DayOfWeekNumber | TypeCoercion.Tests/TypeCoercionTests.cs:258-266 | the number 1 is UnsupportedSourceType for DayOfWeek, with the names-only message |
| Properties.DayOfWeekUnknown | TypeCoercion.Tests/TypeCoercionTests.cs:268-275 | "NotADay" is InvalidEnumMember |
| Properties.NoDayCalled | TypeCoercion.Tests/TypeCoercionTests.cs:268-275 | no DayOfWeek member is called "NotADay" in any case |
| JsonProperties.JsonScalarsUnwrap | TypeCoercion/TypeCoercion.cs:167-181 | a JSON string is coerced as its text, true and false as the booleans, null by the null rule, and an undefined element is UnsupportedSourceType |
| JsonProperties.JsonElementTargetKeepsElement | TypeCoercion/TypeCoercion.cs:79-98 | a JsonElement asked for as a JsonElement is returned as it is |
| JsonProperties.JsonNumberExtraction | TypeCoercion/TypeCoercion.cs:183-221 | a number extracted at the target's width is the result, untouched by the coercers; otherwise the raw text is coerced |
| JsonProperties.JsonIntegerFits | TypeCoercion/TypeCoercion.cs:187-220 | a JSON integer that fits the target's width is that integer, whatever the coercers; the exception is a negative zero bound for an unsigned type, which is coerced as its text |
| JsonProperties.JsonIntegerFitsDefault | TypeCoercion/TypeCoercion.cs:187-220 | on the built-in list every JSON integer that fits the target, negative zero included, comes back as that integer |
| JsonProperties.JsonIntegerOverflows | TypeCoercion/TypeCoercion.cs:220 | a JSON integer too wide for the target falls back to its text, which is Overflow |
| JsonProperties.JsonNumberToDecimal | TypeCoercion.Tests/TypeCoercionTests.cs:311-320 | a JSON number bound for decimal is its decimal reading |
| JsonProperties.JsonObjectsAndArrays | TypeCoercion/TypeCoercion.cs:223-251 | objects and arrays go to the deserializer only for complex types, are otherwise UnsupportedSourceType, and a deserialised object is the result |
| JsonProperties.JsonIntegerTextRoundTrip | TypeCoercion/TypeCoercion.cs:187-209 | an integer's decimal text is a JSON integer literal of the same value |
| JsonProperties.NegativeRoundTrip | TypeCoercion/TypeCoercion.cs:187-209 | the same, for negative integers |
| JsonProperties.NaturalRoundTrip | TypeCoercion/TypeCoercion.cs:187-209 | the same, for natural numbers |
| JsonProperties.NaturalJsonInteger | TypeCoercion/TypeCoercion.cs:187-209 | a run of digits is a JSON integer of its value |
| JsonProperties.NegativeJsonInteger | TypeCoercion/TypeCoercion.cs:187-209 | a minus followed by digits is the negated value |
| JsonProperties.NegativeLiteral | TypeCoercion/TypeCoercion.cs:187-209 | a literal starting with a minus reads as the negated digits |
| JsonProperties.JsonNumberToInteger | TypeCoercion.Tests/TypeCoercionTests.cs:322-335 | any integer in the target's width, written as a JSON number, comes back as that integer |
| JsonProperties.JsonNumberToByte | TypeCoercion.Tests/TypeCoercionTests.cs:322-335 | the JSON number 42 to byte is 42 |
| JsonProperties.JsonStringToInt | TypeCoercion.Tests/TypeCoercionTests.cs:300-309 | the JSON string "123" to int is 123 |
| JsonProperties.JsonTrueToBool | TypeCoercion.Tests/TypeCoercionTests.cs:337-346 | JSON true to bool is true |
| JsonProperties.JsonNullToInt | TypeCoercion.Tests/TypeCoercionTests.cs:348-368 | JSON null is null for int? and ConversionFailed for int |
| JsonProperties.JsonCompositesToPrimitives | TypeCoercion.Tests/TypeCoercionTests.cs:395-415 | a JSON object bound for int and a JSON array bound for string are UnsupportedSourceType |

## Left out

- Argument checks: `ArgumentNullException.ThrowIfNull` on the target type and the options is not modelled. Types and options are never null here.
- The `Library` parameter: culture-dependent parsing of DateTime, DateTimeOffset, DateOnly, TimeOnly and TimeSpan comes from it, so the tests that parse concrete date and time text are not restated.
- The `Library` parameter also supplies these; only their outcome shape (value, null or fault) is modelled:
  - `new DateTimeOffset(dateTime)` with its time-zone rules;
  - float, double and decimal conversions;
  - the JSON readings of reals;
  - `JsonSerializer.Deserialize`;
  - `ToString` overrides of user types.

  The floating-point edge cases are therefore not modelled. Float, double and decimal values are reals, so decimal precision is not modelled, and NaN and infinite source values cannot be represented at all (for example `Convert.ToBoolean(double.NaN)` is true and `Convert.ToInt32(double.NaN)` is Overflow).
- Culture: formatting and integer parsing use the invariant culture's signs and digits. Other cultures reach only the library functions.
- Platform.ParseGuid: Guid text forms other than "D" (N, B, P and X) come from the `Library` parameter.
- Coercers.EnumTryParse: comma-separated flag lists and integer text outside the 64-bit range are not modelled. The coercer refuses 64-bit integer text before `Enum.TryParse` sees it.
- Case-insensitive comparison (`Text.EqualsIgnoreCase`) folds ASCII letters only; other letters compare exactly.
- Classification.Preview: the display text is measured and cut in Unicode scalar values, whereas .NET's `Length` and `[..50]` count UTF-16 code units. A text with characters outside the Basic Multilingual Plane is therefore cut later than in .NET, or not at all, and is never split inside a surrogate pair.
- Coercers.LookupName: takes the first member in declaration order whose name matches ignoring case. `Enum.TryParse` walks the names sorted by value, so for an enum with aliased or case-colliding names the member found may differ.
- Platform.CharText: a lone surrogate char is shown as U+FFFD, since Dafny strings hold Unicode scalar values.
- Results.DefaultResult: the `Error` of `default(CoercionResult)` is null in C#; the model gives it as the empty string.
- Custom coercers are modelled by their result, as a function of the value, the two types and the culture. They are assumed not to throw and not to mutate the options. Call counts of a mocked coercer are not modelled.
- ClrTypes.IsInstanceOfType: inheritance between user types and interface implementation are not modelled. A value is an instance of object or of its own runtime type.
- Options.TypeCoercionOptions: `IList` operations other than `Add` and `Insert` (Remove, Clear, the indexer) are not modelled.
- The shared `Default` is documented as thread-safe but is backed by a plain list. Concurrent mutation is not modelled.
- There is no "fast numeric parsing" mode: `NumericTypeCoercer` only calls `Convert.ChangeType`, which reports Overflow, and the model follows that code.
- `TypeCoercion.IsNumericType` is called by the numeric coercer but is not defined in TypeCoercion/TypeCoercion.cs. It is modelled as membership in `NumericTypes` (lines 14-22).
- Message text: messages are modelled where the code builds them, but only their leading and trailing parts are stated. The messages of .NET's own exceptions are a parameter of each fault.
- The generic `TryCoerce<T>`/`Coerce<T>` entry points and the extension methods are not part of this model. Neither is the benchmark project.
- The AutoFixture test uses random inputs. Its Guid and integer cases are covered by the all-inputs lemmas DefaultGuidRoundTrip and IntegerTextAccepted, and its decimal case is identity.

=== FILE: classification.dfy ===
/**
 * How a caught exception becomes a failed result: `GetErrorCode` and
 * `CreateFailureFromException` of TypeCoercion/TypeCoercion.cs.
 */
module Classification {
  import opened Wrappers
  import opened ClrTypes
  import ErrorCodes
  import opened Faults
  import opened Results
  import opened Platform

  /** `GetErrorCode`: format and JSON faults are InvalidFormat, overflow is Overflow, not-supported is UnsupportedSourceType, all else ConversionFailed. */
  function GetErrorCode(f: Fault): (c: ErrorCodes.CoercionErrorCode)
    ensures c == ErrorCodes.InvalidFormat <==> f.kind == FormatFault || f.kind == JsonFault
    ensures c == ErrorCodes.Overflow <==> f.kind == OverflowFault
    ensures c == ErrorCodes.UnsupportedSourceType <==> f.kind == NotSupportedFault
    ensures c == ErrorCodes.ConversionFailed <==>
              !(f.kind in {FormatFault, JsonFault, OverflowFault, NotSupportedFault})
  {
    match f.kind
    case FormatFault => ErrorCodes.InvalidFormat
    case JsonFault => ErrorCodes.InvalidFormat
    case OverflowFault => ErrorCodes.Overflow
    case NotSupportedFault => ErrorCodes.UnsupportedSourceType
    case _ => ErrorCodes.ConversionFailed
  }

  /** The display limit of the value shown in a failure message. */
  const PreviewLength: nat := 50

  /** Cuts a display text longer than 50 characters to its first 50 followed by "...". */
  function Preview(display: Option<string>): (p: Option<string>)
    ensures p.None? <==> display.None?
    ensures display.Some? && |display.value| <= PreviewLength ==> p == display
    ensures display.Some? && |display.value| > PreviewLength ==>
              |p.value| == PreviewLength + 3 && p.value[..PreviewLength] == display.value[..PreviewLength]
              && p.value[PreviewLength..] == "..."
  {
    match display
    case Some(s) => if |s| > PreviewLength then Some(s[..PreviewLength] + "...") else display
    case None => None
  }

  /** A null string interpolates as the empty string. */
  function Interpolated(s: Option<string>): string
  {
    match s
    case Some(t) => t
    case None => ""
  }

  /** Whether `s` ends with `suffix`. */
  predicate EndsWith(s: string, suffix: string)
  {
    |suffix| <= |s| && s[|s| - |suffix|..] == suffix
  }

  /**
   * `CreateFailureFromException(value, targetType, ex)`: a failure naming the value (cut to 50
   * characters), its type and the target, ending with the exception's message, coded by
   * `GetErrorCode` and carrying the exception.
   */
  function CreateFailureFromException(v: Obj, target: TypeTag, f: Fault, lib: Library): (r: CoercionResult)
    ensures !r.Success() && r.Value() == None
    ensures r.ErrorCode() == GetErrorCode(f) && r.ErrorCode() != ErrorCodes.None
    ensures r.OriginalException() == Some(f)
    ensures Text.StartsWith(r.Error(), "Cannot convert '") && EndsWith(r.Error(), f.message)
  {
    var shown := Interpolated(Preview(DisplayText(v, lib)));
    var msg := "Cannot convert '" + shown + "' (" + TypeName(TypeOf(v)) + ") to type '" + TypeName(target) + "': " + f.message;
    assert msg[|msg| - |f.message|..] == f.message;
    FailWith(msg, GetErrorCode(f), f)
  }

  /** The shown text of a string value never exceeds 53 characters, and keeps the first 50 of it. */
  lemma PreviewOfString(s: string)
    ensures |Preview(Some(s)).value| <= PreviewLength + 3
    ensures Text.StartsWith(s, Preview(Some(s)).value[..if |s| < PreviewLength then |s| else PreviewLength])
  {
  }
}

=== FILE: clr_types.dfy ===
/**
 * The runtime types and boxed values the coercion engine works on. Reflection over
 * `System.Type` (`IsValueType`, `IsPrimitive`, `IsEnum`, `Nullable.GetUnderlyingType`,
 * `IsInstanceOfType`) becomes a closed set of type tags with explicit predicates.
 */
module ClrTypes {
  import opened Wrappers

  /** The eight integral types. */
  datatype IntKind = Byte | SByte | Int16 | UInt16 | Int32 | UInt32 | Int64 | UInt64

  function MinValue(k: IntKind): int
  {
    match k
    case Byte => 0
    case SByte => -0x80
    case Int16 => -0x8000
    case UInt16 => 0
    case Int32 => -0x8000_0000
    case UInt32 => 0
    case Int64 => -0x8000_0000_0000_0000
    case UInt64 => 0
  }

  function MaxValue(k: IntKind): int
  {
    match k
    case Byte => 0xFF
    case SByte => 0x7F
    case Int16 => 0x7FFF
    case UInt16 => 0xFFFF
    case Int32 => 0x7FFF_FFFF
    case UInt32 => 0xFFFF_FFFF
    case Int64 => 0x7FFF_FFFF_FFFF_FFFF
    case UInt64 => 0xFFFF_FFFF_FFFF_FFFF
  }

  predicate InRange(n: int, k: IntKind)
  {
    MinValue(k) <= n <= MaxValue(k)
  }

  predicate IsSigned(k: IntKind)
  {
    MinValue(k) < 0
  }

  /** A member of an enum declaration: its name and its underlying value. */
  datatype EnumMember = EnumMember(name: string, value: int)

  /** An enum declaration: its name, underlying integral type and members in declaration order. */
  datatype EnumDecl = EnumDecl(name: string, underlying: IntKind, members: seq<EnumMember>)

  /** User-defined types: `object` itself, a class or a struct. */
  datatype UserType = PlainObject | UserClass(name: string) | UserStruct(name: string)

  /** A `System.Type`. */
  datatype TypeTag =
    | ObjectT
    | StringT
    | BoolT
    | CharT
    | IntT(kind: IntKind)
    | SingleT
    | DoubleT
    | DecimalT
    | GuidT
    | DateTimeT
    | DateTimeOffsetT
    | DateOnlyT
    | TimeOnlyT
    | TimeSpanT
    | EnumT(decl: EnumDecl)
    | JsonElementT
    | ClassT(name: string)
    | StructT(name: string)
    | NullableT(underlying: TypeTag)   // Nullable<T>

  /** `Type.IsValueType`: everything except `object`, `string` and classes. */
  predicate IsValueType(t: TypeTag)
  {
    !(t == ObjectT || t == StringT || t.ClassT?)
  }

  /** `Type.IsPrimitive`: bool, char, the integral types and the two floating types (not decimal). */
  predicate IsPrimitive(t: TypeTag)
  {
    t == BoolT || t == CharT || t.IntT? || t == SingleT || t == DoubleT
  }

  predicate IsEnum(t: TypeTag)
  {
    t.EnumT?
  }

  /** `Nullable.GetUnderlyingType`. */
  function UnderlyingType(t: TypeTag): (u: Option<TypeTag>)
    ensures u.Some? <==> t.NullableT?
  {
    if t.NullableT? then Some(t.underlying) else None
  }

  /** `Nullable.GetUnderlyingType(t) ?? t`: the effective type a coercer is asked for. */
  function EffectiveType(t: TypeTag): (e: TypeTag)
    ensures !t.NullableT? ==> e == t
  {
    match UnderlyingType(t)
    case Some(u) => u
    case None => t
  }

  /** The `NumericTypes` array of `TypeCoercion`, in its order. */
  const NumericTypes: seq<TypeTag> :=
    [IntT(Byte), IntT(SByte), IntT(Int16), IntT(UInt16), IntT(Int32), IntT(UInt32),
     IntT(Int64), IntT(UInt64), SingleT, DoubleT, DecimalT]

  /** `TypeCoercion.IsNumericType`: membership in `NumericTypes`. */
  predicate IsNumericType(t: TypeTag)
  {
    t in NumericTypes
  }

  /** `Type.Name`. */
  function TypeName(t: TypeTag): string
  {
    match t
    case ObjectT => "Object"
    case StringT => "String"
    case BoolT => "Boolean"
    case CharT => "Char"
    case IntT(k) => IntKindName(k)
    case SingleT => "Single"
    case DoubleT => "Double"
    case DecimalT => "Decimal"
    case GuidT => "Guid"
    case DateTimeT => "DateTime"
    case DateTimeOffsetT => "DateTimeOffset"
    case DateOnlyT => "DateOnly"
    case TimeOnlyT => "TimeOnly"
    case TimeSpanT => "TimeSpan"
    case EnumT(d) => d.name
    case JsonElementT => "JsonElement"
    case ClassT(n) => n
    case StructT(n) => n
    case NullableT(_) => "Nullable`1"
  }

  function IntKindName(k: IntKind): string
  {
    match k
    case Byte => "Byte"
    case SByte => "SByte"
    case Int16 => "Int16"
    case UInt16 => "UInt16"
    case Int32 => "Int32"
    case UInt32 => "UInt32"
    case Int64 => "Int64"
    case UInt64 => "UInt64"
  }

  // ---------------------------------------------------------------------------
  // Temporal and identifier values

  datatype DateTimeKind = Unspecified | Utc | Local

  /** One tick is 100 ns; a day has 864 000 000 000 ticks. */
  const TicksPerDay: nat := 864_000_000_000

  /** A `DateTime`: ticks since 0001-01-01 00:00 and a kind. */
  datatype DateTime = DateTime(ticks: int, kind: DateTimeKind)

  /** A `DateTimeOffset`: the local clock reading in ticks and the offset from UTC in minutes. */
  datatype DateTimeOffset = DateTimeOffset(clockTicks: int, offsetMinutes: int)

  /** A `DateOnly`: days since 0001-01-01. */
  datatype DateOnly = DateOnly(dayNumber: int)

  /** A `TimeOnly`: ticks since midnight. */
  datatype TimeOnly = TimeOnly(ticks: int)

  /** A `TimeSpan`: a signed number of ticks. */
  datatype TimeSpan = TimeSpan(ticks: int)

  type Nibble = n: int | 0 <= n < 16

  /** A `Guid`, as its 32 hexadecimal digits in the order its text form shows them. */
  type GuidDigits = s: seq<Nibble> | |s| == 32 witness seq(32, i => 0)

  datatype Guid = Guid(digits: GuidDigits)

  /** `DateTimeOffset.DateTime`: the clock reading, with kind Unspecified. */
  function ClockDateTime(dto: DateTimeOffset): (dt: DateTime)
    ensures dt.ticks == dto.clockTicks && dt.kind == Unspecified
  {
    DateTime(dto.clockTicks, Unspecified)
  }

  /** `DateOnly.ToDateTime(TimeOnly.MinValue)`: the date at midnight. */
  function AtMidnight(d: DateOnly): (dt: DateTime)
    ensures dt.ticks % TicksPerDay == 0 && dt.ticks / TicksPerDay == d.dayNumber
    ensures dt.kind == Unspecified
  {
    DateTime(d.dayNumber * TicksPerDay, Unspecified)
  }

  /** `DateOnly.FromDateTime`: the day the instant falls on, the time of day dropped. */
  function DateOf(dt: DateTime): (d: DateOnly)
    ensures d.dayNumber * TicksPerDay <= dt.ticks < (d.dayNumber + 1) * TicksPerDay
  {
    DateOnly(dt.ticks / TicksPerDay)
  }

  // ---------------------------------------------------------------------------
  // JSON elements

  /**
   * A `JsonElement`, by value kind. `Undefined` is the kind of `default(JsonElement)`.
   * Numbers keep their raw text; objects and arrays are known by their raw text only.
   */
  datatype JsonElement =
    | JUndefined
    | JNull
    | JTrue
    | JFalse
    | JNumber(raw: string)
    | JString(text: string)
    | JObject(raw: string)
    | JArray(raw: string)

  // ---------------------------------------------------------------------------
  // Boxed values

  /** A non-null `object`: a boxed value or a reference to an instance. */
  datatype Obj =
    | StrV(s: string)
    | BoolV(b: bool)
    | CharV(unit: int)                         // a UTF-16 code unit
    | IntV(kind: IntKind, n: int)
    | SingleV(x: real)
    | DoubleV(x: real)
    | DecimalV(d: real)
    | GuidV(g: Guid)
    | DateTimeV(dt: DateTime)
    | DateTimeOffsetV(dto: DateTimeOffset)
    | DateOnlyV(date: DateOnly)
    | TimeOnlyV(time: TimeOnly)
    | TimeSpanV(span: TimeSpan)
    | EnumV(decl: EnumDecl, n: int)
    | JsonV(json: JsonElement)
    | InstanceV(userType: UserType, id: nat)   // identity of a reference, or a struct's value

  /** Values a CLR type can hold: integers within their width, chars within the UTF-16 code unit range. */
  predicate WellFormed(v: Obj)
  {
    match v
    case IntV(k, n) => InRange(n, k)
    case EnumV(d, n) => InRange(n, d.underlying)
    case CharV(u) => 0 <= u < 0x1_0000
    case _ => true
  }

  /** `object.GetType()`. */
  function TypeOf(v: Obj): (t: TypeTag)
    ensures !t.NullableT?
  {
    match v
    case StrV(_) => StringT
    case BoolV(_) => BoolT
    case CharV(_) => CharT
    case IntV(k, _) => IntT(k)
    case SingleV(_) => SingleT
    case DoubleV(_) => DoubleT
    case DecimalV(_) => DecimalT
    case GuidV(_) => GuidT
    case DateTimeV(_) => DateTimeT
    case DateTimeOffsetV(_) => DateTimeOffsetT
    case DateOnlyV(_) => DateOnlyT
    case TimeOnlyV(_) => TimeOnlyT
    case TimeSpanV(_) => TimeSpanT
    case EnumV(d, _) => EnumT(d)
    case JsonV(_) => JsonElementT
    case InstanceV(u, _) =>
      match u
      case PlainObject => ObjectT
      case UserClass(n) => ClassT(n)
      case UserStruct(n) => StructT(n)
  }

  /**
   * `Type.IsInstanceOfType`: every value is an `object`; otherwise the runtime type must be
   * the type itself (user-type inheritance and interfaces are not modelled).
   */
  predicate IsInstanceOfType(t: TypeTag, v: Obj)
  {
    t == ObjectT || TypeOf(v) == t
  }

  /** A boxed value is never an instance of `Nullable<T>`: boxing unwraps it. */
  lemma NoInstanceOfNullable(t: TypeTag, v: Obj)
    requires t.NullableT?
    ensures !IsInstanceOfType(t, v)
  {
  }

  /** The culture used for parsing and formatting; the invariant culture has the empty name. */
  datatype Culture = Culture(name: string)

  const InvariantCulture: Culture := Culture("")
}

=== FILE: coercers.dfy ===
/**
 * The built-in coercers of TypeCoercion/Coercers/ and the `ITypeCoercer.TryCoerce`
 * interface they implement (TypeCoercion/ITypeCoercer.cs). A coercer is a value: the
 * delegating ones hold the coercer they fall back on, and a user-supplied coercer is known
 * by an identity whose behaviour the `Library` supplies.
 */
module Coercers {
  import opened Wrappers
  import opened ClrTypes
  import opened Text
  import ErrorCodes
  import opened Faults
  import opened Results
  import opened Platform
  import opened Classification

  datatype Coercer =
    | StringTypeCoercer
    | BoolTypeCoercer
    | GuidTypeCoercer(fallback: Coercer)
    | EnumTypeCoercer
    | DateTimeTypeCoercer
    | DateTimeOffsetTypeCoercer
    | DateOnlyTypeCoercer(fallback: Coercer)
    | TimeOnlyTypeCoercer(fallback: Coercer)
    | TimeSpanTypeCoercer(fallback: Coercer)
    | NumericTypeCoercer
    | FallbackTypeCoercer
    | CustomCoercer(id: nat)

  // Messages of the declining and format failures.
  const NotString: string := "Type is not string."
  const NotBool: string := "Type is not bool."
  const NotGuid: string := "Type is not Guid."
  const NotEnum: string := "Type provided must be an Enum."
  const NotDateTime: string := "Type is not DateTime."
  const NotDateTimeOffset: string := "Type is not DateTimeOffset."
  const NotDateOnly: string := "Type is not DateOnly."
  const NotTimeOnly: string := "Type is not TimeOnly."
  const NotTimeSpan: string := "Type is not TimeSpan."
  const NotNumeric: string := "Type is not numeric."
  const InvalidDateTimeText: string := "The provided string is not a valid DateTime."
  const InvalidDateTimeOffsetText: string := "The provided string is not a valid DateTimeOffset."

  /** A coercer built only from the library's own coercers. */
  predicate BuiltIn(c: Coercer)
  {
    match c
    case CustomCoercer(_) => false
    case GuidTypeCoercer(fb) => BuiltIn(fb)
    case DateOnlyTypeCoercer(fb) => BuiltIn(fb)
    case TimeOnlyTypeCoercer(fb) => BuiltIn(fb)
    case TimeSpanTypeCoercer(fb) => BuiltIn(fb)
    case _ => true
  }

  /** The effective types a coercer does not decline outright. */
  predicate Owns(c: Coercer, eff: TypeTag)
  {
    match c
    case StringTypeCoercer => eff == StringT
    case BoolTypeCoercer => eff == BoolT
    case GuidTypeCoercer(_) => eff == GuidT
    case EnumTypeCoercer => IsEnum(eff)
    case DateTimeTypeCoercer => eff == DateTimeT
    case DateTimeOffsetTypeCoercer => eff == DateTimeOffsetT
    case DateOnlyTypeCoercer(_) => eff == DateOnlyT
    case TimeOnlyTypeCoercer(_) => eff == TimeOnlyT
    case TimeSpanTypeCoercer(_) => eff == TimeSpanT
    case NumericTypeCoercer => IsNumericType(eff)
    case FallbackTypeCoercer => true
    case CustomCoercer(_) => true
  }

  /** A failure that tells the dispatcher to try the next coercer. */
  predicate Declines(r: CoercionResult)
  {
    !r.Success() && r.ErrorCode() == ErrorCodes.UnsupportedSourceType
  }

  /** A successful result holds null or a value of the effective type. */
  predicate Fits(r: CoercionResult, eff: TypeTag)
  {
    r.Success() && r.Value().Some? ==> IsInstanceOfType(eff, r.Value().value)
  }

  /**
   * `ITypeCoercer.TryCoerce(value, effectiveType, declaredType, options)`; of the options a
   * coercer reads only the culture. A coercer declines every type it does not own; a built-in
   * one succeeds only with a value of the effective type, and never fails with code None.
   */
  function TryCoerce(c: Coercer, value: Obj, eff: TypeTag, decl: TypeTag, culture: Culture, lib: Library): (r: CoercionResult)
    ensures !Owns(c, eff) ==> Declines(r)
    ensures BuiltIn(c) ==> Fits(r, eff)
    ensures BuiltIn(c) && !r.Success() ==> r.ErrorCode() != ErrorCodes.None
    decreases c, 1
  {
    match c
    case StringTypeCoercer => CoerceString(value, eff, culture, lib)
    case BoolTypeCoercer => CoerceBool(value, eff, decl, lib)
    case GuidTypeCoercer(fb) => CoerceGuid(fb, value, eff, decl, culture, lib)
    case EnumTypeCoercer => CoerceEnum(value, eff, lib)
    case DateTimeTypeCoercer => CoerceDateTime(value, eff, culture, lib)
    case DateTimeOffsetTypeCoercer => CoerceDateTimeOffset(value, eff, decl, culture, lib)
    case DateOnlyTypeCoercer(fb) => CoerceDateOnly(fb, value, eff, decl, culture, lib)
    case TimeOnlyTypeCoercer(fb) => CoerceTimeOnly(fb, value, eff, decl, culture, lib)
    case TimeSpanTypeCoercer(fb) => CoerceTimeSpan(fb, value, eff, decl, culture, lib)
    case NumericTypeCoercer => CoerceNumeric(value, eff, decl, culture, lib)
    case FallbackTypeCoercer => CoerceFallback(value, eff, decl, culture, lib)
    case CustomCoercer(id) => lib.custom(id, value, eff, decl, culture)
  }

  /** Lifts a conversion outcome into a result: the value, or the classified exception. */
  function FromAttempt(a: Attempt<Obj>, value: Obj, decl: TypeTag, lib: Library): (r: CoercionResult)
    ensures a.Done? ==> r == Ok(Some(a.value))
    ensures a.Raised? ==> r == CreateFailureFromException(value, decl, a.fault, lib)
  {
    match a
    case Done(v) => Ok(Some(v))
    case Raised(f) => CreateFailureFromException(value, decl, f, lib)
  }

  // ---------------------------------------------------------------------------

  /** StringTypeCoercer: any value converts to its culture-formatted text (null when `ToString()` yields null). */
  function CoerceString(value: Obj, eff: TypeTag, culture: Culture, lib: Library): (r: CoercionResult)
    ensures eff != StringT ==> r == Fail(NotString, ErrorCodes.UnsupportedSourceType)
    ensures eff == StringT ==> r.Success()
    ensures eff == StringT && ConvertToString(value, culture, lib).Some? ==>
              r.Value() == Some(StrV(ConvertToString(value, culture, lib).value))
    ensures eff == StringT && ConvertToString(value, culture, lib).None? ==> r.Value() == None
    ensures eff == StringT && value.IntV? ==> r.Value() == Some(StrV(FormatInteger(value.n)))
    ensures Fits(r, eff) && (!r.Success() ==> r.ErrorCode() != ErrorCodes.None)
  {
    if eff != StringT then Fail(NotString, ErrorCodes.UnsupportedSourceType)
    else
      match ConvertToString(value, culture, lib)
      case Some(s) => Ok(Some(StrV(s)))
      case None => Ok(None)
  }

  /** BoolTypeCoercer: strings through `bool.Parse`, other values through `Convert.ToBoolean`. */
  function CoerceBool(value: Obj, eff: TypeTag, decl: TypeTag, lib: Library): (r: CoercionResult)
    ensures eff != BoolT ==> r == Fail(NotBool, ErrorCodes.UnsupportedSourceType)
    ensures eff == BoolT ==> (r.Success() <==> ToBoolean(value).Done?)
    ensures eff == BoolT && r.Success() ==> r.Value() == Some(BoolV(ToBoolean(value).value))
    ensures eff == BoolT && value.StrV? && !r.Success() ==> r.ErrorCode() == ErrorCodes.InvalidFormat
    ensures eff == BoolT && value.IntV? ==> r == Ok(Some(BoolV(value.n != 0)))
    ensures Fits(r, eff) && (!r.Success() ==> r.ErrorCode() != ErrorCodes.None)
  {
    if eff != BoolT then Fail(NotBool, ErrorCodes.UnsupportedSourceType)
    else
      match ToBoolean(value)
      case Done(b) => Ok(Some(BoolV(b)))
      case Raised(f) => CreateFailureFromException(value, decl, f, lib)
  }

  /** GuidTypeCoercer: strings through `Guid.Parse`, everything else to the fallback. */
  function CoerceGuid(fallback: Coercer, value: Obj, eff: TypeTag, decl: TypeTag, culture: Culture, lib: Library): (r: CoercionResult)
    ensures eff != GuidT ==> r == Fail(NotGuid, ErrorCodes.UnsupportedSourceType)
    ensures eff == GuidT && value.StrV? && IsGuidText(Trim(value.s)) ==>
              r == Ok(Some(GuidV(ParseGuidD(Trim(value.s)).value)))
    ensures eff == GuidT && value.StrV? && !r.Success() ==> r.ErrorCode() == ErrorCodes.InvalidFormat
    ensures eff == GuidT && !value.StrV? ==> r == TryCoerce(fallback, value, eff, decl, culture, lib)
    ensures BuiltIn(fallback) ==> Fits(r, eff)
    ensures BuiltIn(fallback) && !r.Success() ==> r.ErrorCode() != ErrorCodes.None
    decreases fallback, 2
  {
    if eff != GuidT then Fail(NotGuid, ErrorCodes.UnsupportedSourceType)
    else if value.StrV? then
      match ParseGuid(value.s, lib)
      case Done(g) => Ok(Some(GuidV(g)))
      case Raised(f) => CreateFailureFromException(value, decl, f, lib)
    else TryCoerce(fallback, value, eff, decl, culture, lib)
  }

  // ---------------------------------------------------------------------------
  // Enums

  /** The text every refusal of a non-name enum input starts with. */
  const NamesOnly: string := "Enum values must be string names only."

  /** The first member whose name equals `name` ignoring letter case. */
  function LookupName(members: seq<EnumMember>, name: string): (r: Option<EnumMember>)
    ensures r.Some? ==> r.value in members && EqualsIgnoreCase(r.value.name, name)
    ensures r.None? ==> forall m :: m in members ==> !EqualsIgnoreCase(m.name, name)
  {
    if |members| == 0 then None
    else if EqualsIgnoreCase(members[0].name, name) then Some(members[0])
    else LookupName(members[1..], name)
  }

  /**
   * `Enum.TryParse(type, text, ignoreCase: true, out _)` on trimmed text: integer text in the
   * range of the underlying type is taken as a value; otherwise the text must name a member.
   */
  function EnumTryParse(decl: EnumDecl, text: string): (r: Option<int>)
    ensures IntegerSyntax(text).None? ==>
              (r.Some? <==> exists m :: m in decl.members && EqualsIgnoreCase(m.name, text))
    ensures IntegerSyntax(text).None? && r.Some? ==>
              exists m :: m in decl.members && EqualsIgnoreCase(m.name, text) && m.value == r.value
    ensures IntegerSyntax(text).Some? ==> r.Some? ==> InRange(r.value, decl.underlying)
  {
    match IntegerSyntax(text)
    case Some(n) => if InRange(n, decl.underlying) then Some(n) else None
    case None =>
      match LookupName(decl.members, text)
      case Some(m) => Some(m.value)
      case None => None
  }

  /**
   * EnumTypeCoercer: only a string naming a member is accepted. Other values are declined,
   * blank text and integer text (anything `long.TryParse` accepts) are InvalidEnumMember, and
   * so is a name no member has.
   */
  function CoerceEnum(value: Obj, eff: TypeTag, lib: Library): (r: CoercionResult)
    ensures !IsEnum(eff) ==> r == Fail(NotEnum, ErrorCodes.UnsupportedSourceType)
    ensures IsEnum(eff) && !value.StrV? ==> Declines(r) && StartsWith(r.Error(), NamesOnly)
    ensures IsEnum(eff) && value.StrV? ==> r == CoerceEnumName(Trim(value.s), eff)
    ensures r.Success() ==> IsEnum(eff) && value.StrV?
    ensures Fits(r, eff) && (!r.Success() ==> r.ErrorCode() != ErrorCodes.None)
  {
    if !IsEnum(eff) then Fail(NotEnum, ErrorCodes.UnsupportedSourceType)
    else if !value.StrV? then
      Fail(NotNameMessage(Interpolated(DisplayText(value, lib)), TypeName(TypeOf(value)), TypeName(eff)),
           ErrorCodes.UnsupportedSourceType)
    else CoerceEnumName(Trim(value.s), eff)
  }

  /** The string branch of EnumTypeCoercer, on the trimmed text. */
  function CoerceEnumName(candidate: string, eff: TypeTag): (r: CoercionResult)
    requires IsEnum(eff)
    ensures IsNullOrWhiteSpace(candidate) ==> !r.Success() && r.ErrorCode() == ErrorCodes.InvalidEnumMember
    ensures IntegerSyntax(candidate).Some? && InRange(IntegerSyntax(candidate).value, Int64) ==>
              !r.Success() && r.ErrorCode() == ErrorCodes.InvalidEnumMember && StartsWith(r.Error(), NamesOnly)
    ensures !IsNullOrWhiteSpace(candidate) && !(IntegerSyntax(candidate).Some? && InRange(IntegerSyntax(candidate).value, Int64)) ==>
              (r.Success() <==> EnumTryParse(eff.decl, candidate).Some?)
    ensures r.Success() ==> EnumTryParse(eff.decl, candidate).Some?
    ensures r.Success() ==> r.Value() == Some(EnumV(eff.decl, EnumTryParse(eff.decl, candidate).value))
    ensures Fits(r, eff)
    ensures !r.Success() ==> r.ErrorCode() == ErrorCodes.InvalidEnumMember
  {
    if IsNullOrWhiteSpace(candidate) then
      Fail(EmptyNameMessage(TypeName(eff)), ErrorCodes.InvalidEnumMember)
    else if IntegerSyntax(candidate).Some? && InRange(IntegerSyntax(candidate).value, Int64) then
      Fail(NumericNameMessage(candidate, TypeName(eff)), ErrorCodes.InvalidEnumMember)
    else
      match EnumTryParse(eff.decl, candidate)
      case Some(n) => EnumResult(eff, n)
      case None => Fail(UnknownNameMessage(candidate, TypeName(eff)), ErrorCodes.InvalidEnumMember)
  }

  /** A parsed enum value, boxed as its enum type. */
  function EnumResult(eff: TypeTag, n: int): (r: CoercionResult)
    requires IsEnum(eff)
    ensures r == Ok(Some(EnumV(eff.decl, n))) && Fits(r, eff)
  {
    Ok(Some(EnumV(eff.decl, n)))
  }

  function NotNameMessage(shown: string, sourceType: string, enumType: string): (m: string)
    ensures StartsWith(m, NamesOnly)
  {
    NamesOnly + " Received '" + shown + "' (" + sourceType + ") for enum type '" + enumType + "'."
  }

  function EmptyNameMessage(enumType: string): (m: string)
    ensures StartsWith(m, NamesOnly)
  {
    NamesOnly + " Received empty value for enum type '" + enumType + "'."
  }

  function NumericNameMessage(candidate: string, enumType: string): (m: string)
    ensures StartsWith(m, NamesOnly)
  {
    NamesOnly + " Numeric value '" + candidate + "' is not allowed for enum type '" + enumType + "'."
  }

  function UnknownNameMessage(candidate: string, enumType: string): string
  {
    "'" + candidate + "' is not a valid member of enum type '" + enumType + "'."
  }

  // ---------------------------------------------------------------------------
  // Dates and times

  const DateTimeSources: string :=
    "Cannot convert the provided value to DateTime. Supported source types: string, DateTimeOffset, DateOnly."
  const DateTimeOffsetSources: string :=
    "Cannot convert the provided value to DateTimeOffset. Supported source types: string, DateTime, DateOnly."

  /** DateTimeTypeCoercer: parses strings, takes a DateTimeOffset's clock reading, a DateOnly's midnight; declines the rest. */
  function CoerceDateTime(value: Obj, eff: TypeTag, culture: Culture, lib: Library): (r: CoercionResult)
    ensures eff != DateTimeT ==> r == Fail(NotDateTime, ErrorCodes.UnsupportedSourceType)
    ensures eff == DateTimeT && value.StrV? ==>
              match lib.parseDateTime(value.s, culture)
              case Some(dt) => r == Ok(Some(DateTimeV(dt)))
              case None => !r.Success() && r.ErrorCode() == ErrorCodes.InvalidFormat
    ensures eff == DateTimeT && value.DateTimeOffsetV? ==> r == Ok(Some(DateTimeV(ClockDateTime(value.dto))))
    ensures eff == DateTimeT && value.DateOnlyV? ==> r == Ok(Some(DateTimeV(AtMidnight(value.date))))
    ensures eff == DateTimeT && !(value.StrV? || value.DateTimeOffsetV? || value.DateOnlyV?) ==> Declines(r)
    ensures Fits(r, eff) && (!r.Success() ==> r.ErrorCode() != ErrorCodes.None)
  {
    if eff != DateTimeT then Fail(NotDateTime, ErrorCodes.UnsupportedSourceType)
    else
      match value
      case StrV(s) =>
        (match lib.parseDateTime(s, culture)
         case Some(dt) => Ok(Some(DateTimeV(dt)))
         case None => Fail(InvalidDateTimeText, ErrorCodes.InvalidFormat))
      case DateTimeOffsetV(dto) => Ok(Some(DateTimeV(ClockDateTime(dto))))
      case DateOnlyV(d) => Ok(Some(DateTimeV(AtMidnight(d))))
      case _ =>
        Fail(DateTimeSources, ErrorCodes.UnsupportedSourceType)
  }

  /** `new DateTimeOffset(dateTime)` as a result. */
  function OffsetResult(a: Attempt<DateTimeOffset>, value: Obj, decl: TypeTag, lib: Library): (r: CoercionResult)
    ensures a.Done? ==> r == Ok(Some(DateTimeOffsetV(a.value)))
    ensures a.Raised? ==> r == CreateFailureFromException(value, decl, a.fault, lib)
  {
    match a
    case Done(dto) => Ok(Some(DateTimeOffsetV(dto)))
    case Raised(f) => CreateFailureFromException(value, decl, f, lib)
  }

  /** DateTimeOffsetTypeCoercer: parses strings, places a DateTime or a DateOnly's midnight in its zone; declines the rest. */
  function CoerceDateTimeOffset(value: Obj, eff: TypeTag, decl: TypeTag, culture: Culture, lib: Library): (r: CoercionResult)
    ensures eff != DateTimeOffsetT ==> r == Fail(NotDateTimeOffset, ErrorCodes.UnsupportedSourceType)
    ensures eff == DateTimeOffsetT && value.StrV? ==>
              match lib.parseDateTimeOffset(value.s, culture)
              case Some(dto) => r == Ok(Some(DateTimeOffsetV(dto)))
              case None => !r.Success() && r.ErrorCode() == ErrorCodes.InvalidFormat
    ensures eff == DateTimeOffsetT && value.DateTimeV? ==> r == OffsetResult(lib.toDateTimeOffset(value.dt), value, decl, lib)
    ensures eff == DateTimeOffsetT && value.DateOnlyV? ==>
              r == OffsetResult(lib.toDateTimeOffset(AtMidnight(value.date)), value, decl, lib)
    ensures eff == DateTimeOffsetT && !(value.StrV? || value.DateTimeV? || value.DateOnlyV?) ==> Declines(r)
    ensures Fits(r, eff) && (!r.Success() ==> r.ErrorCode() != ErrorCodes.None)
  {
    if eff != DateTimeOffsetT then Fail(NotDateTimeOffset, ErrorCodes.UnsupportedSourceType)
    else
      match value
      case StrV(s) =>
        (match lib.parseDateTimeOffset(s, culture)
         case Some(dto) => Ok(Some(DateTimeOffsetV(dto)))
         case None => Fail(InvalidDateTimeOffsetText, ErrorCodes.InvalidFormat))
      case DateTimeV(dt) => OffsetResult(lib.toDateTimeOffset(dt), value, decl, lib)
      case DateOnlyV(d) => OffsetResult(lib.toDateTimeOffset(AtMidnight(d)), value, decl, lib)
      case _ =>
        Fail(DateTimeOffsetSources, ErrorCodes.UnsupportedSourceType)
  }

  /** DateOnlyTypeCoercer: parses strings, takes the date of a DateTime or of a DateTimeOffset's clock reading, else the fallback. */
  function CoerceDateOnly(fallback: Coercer, value: Obj, eff: TypeTag, decl: TypeTag, culture: Culture, lib: Library): (r: CoercionResult)
    ensures eff != DateOnlyT ==> r == Fail(NotDateOnly, ErrorCodes.UnsupportedSourceType)
    ensures eff == DateOnlyT && value.StrV? ==>
              match lib.parseDateOnly(value.s, culture)
              case Done(d) => r == Ok(Some(DateOnlyV(d)))
              case Raised(f) => r == CreateFailureFromException(value, decl, f, lib)
    ensures eff == DateOnlyT && value.DateTimeV? ==> r == Ok(Some(DateOnlyV(DateOf(value.dt))))
    ensures eff == DateOnlyT && value.DateTimeOffsetV? ==> r == Ok(Some(DateOnlyV(DateOf(ClockDateTime(value.dto)))))
    ensures eff == DateOnlyT && !(value.StrV? || value.DateTimeV? || value.DateTimeOffsetV?) ==>
              r == TryCoerce(fallback, value, eff, decl, culture, lib)
    ensures BuiltIn(fallback) ==> Fits(r, eff)
    ensures BuiltIn(fallback) && !r.Success() ==> r.ErrorCode() != ErrorCodes.None
    decreases fallback, 2
  {
    if eff != DateOnlyT then Fail(NotDateOnly, ErrorCodes.UnsupportedSourceType)
    else
      match value
      case StrV(s) =>
        (match lib.parseDateOnly(s, culture)
         case Done(d) => Ok(Some(DateOnlyV(d)))
         case Raised(f) => CreateFailureFromException(value, decl, f, lib))
      case DateTimeV(dt) => Ok(Some(DateOnlyV(DateOf(dt))))
      case DateTimeOffsetV(dto) => Ok(Some(DateOnlyV(DateOf(ClockDateTime(dto)))))
      case _ => TryCoerce(fallback, value, eff, decl, culture, lib)
  }

  /** TimeOnlyTypeCoercer: parses strings, everything else to the fallback. */
  function CoerceTimeOnly(fallback: Coercer, value: Obj, eff: TypeTag, decl: TypeTag, culture: Culture, lib: Library): (r: CoercionResult)
    ensures eff != TimeOnlyT ==> r == Fail(NotTimeOnly, ErrorCodes.UnsupportedSourceType)
    ensures eff == TimeOnlyT && value.StrV? ==>
              match lib.parseTimeOnly(value.s, culture)
              case Done(t) => r == Ok(Some(TimeOnlyV(t)))
              case Raised(f) => r == CreateFailureFromException(value, decl, f, lib)
    ensures eff == TimeOnlyT && !value.StrV? ==> r == TryCoerce(fallback, value, eff, decl, culture, lib)
    ensures BuiltIn(fallback) ==> Fits(r, eff)
    ensures BuiltIn(fallback) && !r.Success() ==> r.ErrorCode() != ErrorCodes.None
    decreases fallback, 2
  {
    if eff != TimeOnlyT then Fail(NotTimeOnly, ErrorCodes.UnsupportedSourceType)
    else if value.StrV? then
      match lib.parseTimeOnly(value.s, culture)
      case Done(t) => Ok(Some(TimeOnlyV(t)))
      case Raised(f) => CreateFailureFromException(value, decl, f, lib)
    else TryCoerce(fallback, value, eff, decl, culture, lib)
  }

  /** TimeSpanTypeCoercer: parses strings, everything else to the fallback. */
  function CoerceTimeSpan(fallback: Coercer, value: Obj, eff: TypeTag, decl: TypeTag, culture: Culture, lib: Library): (r: CoercionResult)
    ensures eff != TimeSpanT ==> r == Fail(NotTimeSpan, ErrorCodes.UnsupportedSourceType)
    ensures eff == TimeSpanT && value.StrV? ==>
              match lib.parseTimeSpan(value.s, culture)
              case Done(t) => r == Ok(Some(TimeSpanV(t)))
              case Raised(f) => r == CreateFailureFromException(value, decl, f, lib)
    ensures eff == TimeSpanT && !value.StrV? ==> r == TryCoerce(fallback, value, eff, decl, culture, lib)
    ensures BuiltIn(fallback) ==> Fits(r, eff)
    ensures BuiltIn(fallback) && !r.Success() ==> r.ErrorCode() != ErrorCodes.None
    decreases fallback, 2
  {
    if eff != TimeSpanT then Fail(NotTimeSpan, ErrorCodes.UnsupportedSourceType)
    else if value.StrV? then
      match lib.parseTimeSpan(value.s, culture)
      case Done(t) => Ok(Some(TimeSpanV(t)))
      case Raised(f) => CreateFailureFromException(value, decl, f, lib)
    else TryCoerce(fallback, value, eff, decl, culture, lib)
  }

  // ---------------------------------------------------------------------------
  // Numbers and everything else

  /** NumericTypeCoercer: `Convert.ChangeType` to one of the eleven numeric types. */
  function CoerceNumeric(value: Obj, eff: TypeTag, decl: TypeTag, culture: Culture, lib: Library): (r: CoercionResult)
    ensures !IsNumericType(eff) ==> r == Fail(NotNumeric, ErrorCodes.UnsupportedSourceType)
    ensures IsNumericType(eff) ==> r == FromAttempt(ChangeType(value, eff, culture, lib), value, decl, lib)
    ensures eff.IntT? ==> (r.Success() <==> ToInteger(value, eff.kind).Done?)
    ensures eff.IntT? && value.StrV? && IntegerSyntax(value.s).Some? && !InRange(IntegerSyntax(value.s).value, eff.kind) ==>
              !r.Success() && r.ErrorCode() == ErrorCodes.Overflow
    ensures eff.IntT? && value.StrV? && IntegerSyntax(value.s).None? ==>
              !r.Success() && r.ErrorCode() == ErrorCodes.InvalidFormat
    ensures Fits(r, eff) && (!r.Success() ==> r.ErrorCode() != ErrorCodes.None)
  {
    if !IsNumericType(eff) then Fail(NotNumeric, ErrorCodes.UnsupportedSourceType)
    else FromAttempt(ChangeType(value, eff, culture, lib), value, decl, lib)
  }

  /** FallbackTypeCoercer: `Convert.ChangeType` to whatever the effective type is. */
  function CoerceFallback(value: Obj, eff: TypeTag, decl: TypeTag, culture: Culture, lib: Library): (r: CoercionResult)
    ensures r == FromAttempt(ChangeType(value, eff, culture, lib), value, decl, lib)
    ensures r.Success() ==> r.Value().Some? && IsInstanceOfType(eff, r.Value().value)
    ensures !IsConvertible(value) ==> (r.Success() <==> TypeOf(value) == eff)
    ensures !IsConvertible(value) && !r.Success() ==> r.ErrorCode() == ErrorCodes.ConversionFailed
  {
    FromAttempt(ChangeType(value, eff, culture, lib), value, decl, lib)
  }
}

=== FILE: coercion_spec.dfy ===
/**
 * The coercion pipeline of TypeCoercion/TypeCoercion.cs as functions: JSON unwrapping, the
 * null rule, the identity short-cut, dispatch to the ordered coercer list, and the throwing
 * variant. The imperative entry points are proved equal to these.
 */
module CoercionSpec {
  import opened Wrappers
  import opened ClrTypes
  import opened Text
  import ErrorCodes
  import opened Faults
  import opened Results
  import opened Platform
  import opened Classification
  import opened Coercers

  /** `IsNullableTargetType`: reference types and `Nullable<T>` accept null. */
  predicate IsNullableTargetType(t: TypeTag)
  {
    !IsValueType(t) || UnderlyingType(t).Some?
  }

  lemma NullableTargets(t: TypeTag)
    ensures IsNullableTargetType(t) <==> t == ObjectT || t == StringT || t.ClassT? || t.NullableT?
  {
  }

  /**
   * `IsComplexType`: everything but `object`, the primitives, enums, `string`, `decimal`,
   * the date and time types and `Guid` — what is left are user classes and structs,
   * `JsonElement` and nullable wrappers.
   */
  predicate IsComplexType(t: TypeTag)
  {
    if t == ObjectT then false
    else if IsPrimitive(t) || IsEnum(t) then false
    else if t in {StringT, DecimalT, DateTimeT, DateTimeOffsetT, DateOnlyT, TimeOnlyT, TimeSpanT, GuidT} then false
    else true
  }

  lemma ComplexTypes(t: TypeTag)
    ensures IsComplexType(t) <==> t.ClassT? || t.StructT? || t == JsonElementT || t.NullableT?
  {
  }

  function NullMessage(target: TypeTag): string
  {
    "Cannot convert null to non-nullable type '" + TypeName(target) + "'."
  }

  /** The null rule: null for a nullable target, a ConversionFailed failure otherwise. */
  function NullResult(target: TypeTag): (r: CoercionResult)
    ensures IsNullableTargetType(target) ==> r == Ok(None)
    ensures !IsNullableTargetType(target) ==> !r.Success() && r.ErrorCode() == ErrorCodes.ConversionFailed
  {
    if IsNullableTargetType(target) then Ok(None) else Fail(NullMessage(target), ErrorCodes.ConversionFailed)
  }

  /** `JsonValueKind.ToString()`. */
  function JsonKindName(j: JsonElement): string
  {
    match j
    case JUndefined => "Undefined"
    case JNull => "Null"
    case JTrue => "True"
    case JFalse => "False"
    case JNumber(_) => "Number"
    case JString(_) => "String"
    case JObject(_) => "Object"
    case JArray(_) => "Array"
  }

  /** Values that are JSON elements are unwrapped once; nothing they unwrap to is one. */
  function JsonRank(value: Option<Obj>): nat
  {
    if value.Some? && value.value.JsonV? then 1 else 0
  }

  /**
   * `TryCoerce(value, targetType, options)`: a JSON element is unwrapped unless the target is
   * `JsonElement` itself; null follows the null rule; a value already of the effective type
   * is returned unchanged; anything else goes to the coercers.
   */
  function TryCoerce(value: Option<Obj>, target: TypeTag, cs: seq<Coercer>, culture: Culture, lib: Library): (r: CoercionResult)
    ensures value.None? ==> r == NullResult(target)
    ensures value.Some? && !(value.value.JsonV? && target != JsonElementT) && IsInstanceOfType(EffectiveType(target), value.value)
            ==> r == Ok(value)
    ensures value.Some? && !value.value.JsonV? && !IsInstanceOfType(EffectiveType(target), value.value)
            ==> r == Dispatch(value.value, EffectiveType(target), target, cs, culture, lib)
    decreases JsonRank(value), 2
  {
    match value
    case Some(v) =>
      if v.JsonV? && target != JsonElementT then TryCoerceJsonElement(v.json, target, cs, culture, lib)
      else
        var eff := EffectiveType(target);
        if IsInstanceOfType(eff, v) then Ok(value)
        else Dispatch(v, eff, target, cs, culture, lib)
    case None => NullResult(target)
  }

  /** `TryCoerceJsonElement`: each value kind becomes the CLR value it denotes and is coerced again. */
  function TryCoerceJsonElement(j: JsonElement, target: TypeTag, cs: seq<Coercer>, culture: Culture, lib: Library): (r: CoercionResult)
    decreases 1, 1
  {
    match j
    case JString(text) => TryCoerce(Some(StrV(text)), target, cs, culture, lib)
    case JNumber(raw) => TryCoerceJsonNumber(raw, target, cs, culture, lib)
    case JTrue => TryCoerce(Some(BoolV(true)), target, cs, culture, lib)
    case JFalse => TryCoerce(Some(BoolV(false)), target, cs, culture, lib)
    case JNull => TryCoerce(None, target, cs, culture, lib)
    case JObject(_) => TryDeserializeComplexJson(j, target, lib)
    case JArray(_) => TryDeserializeComplexJson(j, target, lib)
    case JUndefined =>
      Fail(JsonKindMessage(j, target), ErrorCodes.UnsupportedSourceType)
  }

  function JsonKindMessage(j: JsonElement, target: TypeTag): string
  {
    "Cannot convert JSON value kind '" + JsonKindName(j) + "' to type '" + TypeName(target) + "'."
  }

  /** `Utf8Parser`'s reading of a JSON number as an integer: an optional minus and decimal digits, nothing else. */
  function JsonIntegerText(raw: string): (r: Option<int>)
    ensures r.Some? ==> |raw| > 0
  {
    if |raw| > 1 && raw[0] == '-' && AllDigits(raw[1..]) then Some(-(DigitsValue(raw[1..]) as int))
    else if |raw| > 0 && AllDigits(raw) then Some(DigitsValue(raw))
    else None
  }

  /** A JSON integer literal is integer text of the same value: the literal's reading never disagrees with the text's. */
  lemma JsonIntegerIsIntegerText(raw: string)
    ensures JsonIntegerText(raw).Some? ==> IntegerSyntax(raw) == JsonIntegerText(raw)
  {
    if JsonIntegerText(raw).Some? {
      JsonIntegerSyntax(raw);
    }
  }

  lemma JsonIntegerSyntax(raw: string)
    requires |raw| > 0 && (AllDigits(raw) || (raw[0] == '-' && |raw| > 1 && AllDigits(raw[1..])))
    ensures TrimBy(raw, IsNumberWhite) == raw
  {
    if !AllDigits(raw) {
      assert raw[|raw| - 1] == raw[1..][|raw| - 2];
    }
    TrimByUntouched(raw, IsNumberWhite);
  }

  /**
   * The integer the `TryGet…` accessor for kind `k` reads: the signed readers take an optional
   * minus, the unsigned ones (`TryGetByte`, `TryGetUInt16`, `TryGetUInt32`, `TryGetUInt64`)
   * digits only, so they refuse even "-0".
   */
  function JsonIntegerFor(raw: string, k: IntKind): (r: Option<int>)
    ensures r.Some? ==> JsonIntegerText(raw) == r
    ensures JsonIntegerText(raw).Some? && (IsSigned(k) || raw[0] != '-') ==> r == JsonIntegerText(raw)
    ensures r.Some? && !IsSigned(k) ==> r.value >= 0
  {
    if !IsSigned(k) && |raw| > 0 && raw[0] == '-' then None else JsonIntegerText(raw)
  }

  /**
   * The typed extraction `TryCoerceJsonNumber` attempts for the effective type: the integral
   * `TryGet…` accessors read an integer literal that fits; decimal, double and single are the
   * library's; other types attempt nothing.
   */
  function JsonNumberValue(raw: string, eff: TypeTag, lib: Library): (r: Option<Obj>)
    ensures r.Some? ==> TypeOf(r.value) == eff && WellFormed(r.value)
    ensures eff.IntT? ==>
              (r.Some? <==> JsonIntegerText(raw).Some? && InRange(JsonIntegerText(raw).value, eff.kind)
                            && (IsSigned(eff.kind) || raw[0] != '-'))
    ensures eff.IntT? && r.Some? ==> r.value == IntV(eff.kind, JsonIntegerText(raw).value)
    ensures !IsNumericType(eff) ==> r.None?
  {
    match eff
    case IntT(k) =>
      (match JsonIntegerFor(raw, k)
       case Some(n) => if InRange(n, k) then Some(IntV(k, n)) else None
       case None => None)
    case DecimalT => (match lib.jsonReal(raw, eff) case Some(x) => Some(DecimalV(x)) case None => None)
    case DoubleT => (match lib.jsonReal(raw, eff) case Some(x) => Some(DoubleV(x)) case None => None)
    case SingleT => (match lib.jsonReal(raw, eff) case Some(x) => Some(SingleV(x)) case None => None)
    case _ => None
  }

  /** `TryCoerceJsonNumber`: the typed value when the extraction succeeds, else the raw text. */
  function TryCoerceJsonNumber(raw: string, target: TypeTag, cs: seq<Coercer>, culture: Culture, lib: Library): (r: CoercionResult)
    decreases 1, 0
  {
    match JsonNumberValue(raw, EffectiveType(target), lib)
    case Some(v) => TryCoerce(Some(v), target, cs, culture, lib)
    case None => TryCoerce(Some(StrV(raw)), target, cs, culture, lib)
  }

  function JsonLowerKind(j: JsonElement): string
  {
    if j.JObject? then "object" else "array"
  }

  /**
   * `TryDeserializeComplexJson`: objects and arrays go to the deserializer only for complex
   * effective types; a null outcome follows the null rule on the declared type, and a thrown
   * exception is classified on the raw text.
   */
  function TryDeserializeComplexJson(j: JsonElement, target: TypeTag, lib: Library): (r: CoercionResult)
    requires j.JObject? || j.JArray?
    ensures !IsComplexType(EffectiveType(target)) ==> Declines(r)
    ensures IsComplexType(EffectiveType(target)) ==>
              match lib.deserialize(j.raw, EffectiveType(target))
              case Done(Some(o)) => r == Ok(Some(o))
              case Done(None) =>
                (r.Success() <==> IsNullableTargetType(target))
                && (r.Success() ==> r.Value() == None)
                && (!r.Success() ==> r.ErrorCode() == ErrorCodes.ConversionFailed)
              case Raised(f) => r == CreateFailureFromException(StrV(j.raw), target, f, lib)
  {
    var eff := EffectiveType(target);
    if !IsComplexType(eff) then
      Fail(NonComplexMessage(j, target), ErrorCodes.UnsupportedSourceType)
    else
      match lib.deserialize(j.raw, eff)
      case Raised(f) => CreateFailureFromException(StrV(j.raw), target, f, lib)
      case Done(None) =>
        if IsNullableTargetType(target) then Ok(None)
        else Fail(DeserializedNullMessage(j, target), ErrorCodes.ConversionFailed)
      case Done(Some(o)) => Ok(Some(o))
  }

  function NonComplexMessage(j: JsonElement, target: TypeTag): string
    requires j.JObject? || j.JArray?
  {
    "Cannot convert JSON " + JsonLowerKind(j) + " to non-complex type '" + TypeName(target) + "'."
  }

  function DeserializedNullMessage(j: JsonElement, target: TypeTag): string
    requires j.JObject? || j.JArray?
  {
    "Cannot deserialize JSON " + JsonLowerKind(j) + " to non-nullable type '" + TypeName(target) + "'."
  }

  // ---------------------------------------------------------------------------
  // Dispatch

  /** The exhaustion failure. */
  function NoCoercerFound(v: Obj, eff: TypeTag): (r: CoercionResult)
    ensures !r.Success() && r.ErrorCode() == ErrorCodes.ConversionFailed
  {
    Fail("No coercer found for source type '" + TypeName(TypeOf(v)) + "' and target type '" + TypeName(eff) + "'.",
         ErrorCodes.ConversionFailed)
  }

  /** Whether the scan passes over a coercer: an enum coercer for a non-enum type, or one that declines. */
  predicate PassesOver(c: Coercer, v: Obj, eff: TypeTag, decl: TypeTag, culture: Culture, lib: Library)
  {
    (c == EnumTypeCoercer && !IsEnum(eff)) || Declines(Coercers.TryCoerce(c, v, eff, decl, culture, lib))
  }

  /**
   * `DispatchToCoercer`: an enum type goes straight to the first enum coercer, if there is
   * one; otherwise the list is scanned in order.
   */
  function Dispatch(v: Obj, eff: TypeTag, decl: TypeTag, cs: seq<Coercer>, culture: Culture, lib: Library): (r: CoercionResult)
    ensures IsEnum(eff) && EnumTypeCoercer in cs ==> r == Coercers.TryCoerce(EnumTypeCoercer, v, eff, decl, culture, lib)
    ensures !(IsEnum(eff) && EnumTypeCoercer in cs) ==> r == Scan(v, eff, decl, cs, culture, lib)
  {
    if IsEnum(eff) && EnumTypeCoercer in cs then Coercers.TryCoerce(EnumTypeCoercer, v, eff, decl, culture, lib)
    else Scan(v, eff, decl, cs, culture, lib)
  }

  /**
   * The ordered scan: the first coercer the scan does not pass over decides — its success or
   * its failure is the result; when every coercer is passed over, no coercer was found.
   */
  function Scan(v: Obj, eff: TypeTag, decl: TypeTag, cs: seq<Coercer>, culture: Culture, lib: Library): (r: CoercionResult)
    ensures !Declines(r)
    ensures (forall i :: 0 <= i < |cs| ==> PassesOver(cs[i], v, eff, decl, culture, lib)) ==> r == NoCoercerFound(v, eff)
    decreases |cs|
  {
    if |cs| == 0 then NoCoercerFound(v, eff)
    else if cs[0] == EnumTypeCoercer && !IsEnum(eff) then
      Scan(v, eff, decl, cs[1..], culture, lib)
    else
      var r := Coercers.TryCoerce(cs[0], v, eff, decl, culture, lib);
      if r.Success() then r
      else if r.ErrorCode() != ErrorCodes.UnsupportedSourceType then r
      else Scan(v, eff, decl, cs[1..], culture, lib)
  }

  // ---------------------------------------------------------------------------
  // Coerce

  /** The outcome of the throwing entry point: a value, or the exception thrown. */
  datatype CoerceOutcome = Returned(value: Option<Obj>) | Threw(exception: TypeCoercionException)

  /** `Coerce(value, targetType, options)`: the value on success, else a TypeCoercionException built from the failure. */
  function Coerce(value: Option<Obj>, target: TypeTag, cs: seq<Coercer>, culture: Culture, lib: Library): (o: CoerceOutcome)
    ensures o.Returned? <==> TryCoerce(value, target, cs, culture, lib).Success()
    ensures o.Returned? ==> o.value == TryCoerce(value, target, cs, culture, lib).Value()
    ensures o.Threw? ==>
              var r := TryCoerce(value, target, cs, culture, lib);
              o.exception.message == r.Error() && o.exception.errorCode == r.ErrorCode()
              && o.exception.inner == r.OriginalException()
  {
    var r := TryCoerce(value, target, cs, culture, lib);
    if r.Success() then Returned(r.Value())
    else match r.OriginalException()
      case Some(f) => Threw(NewTypeCoercionExceptionWithInner(r.Error(), r.ErrorCode(), f))
      case None => Threw(NewTypeCoercionException(r.Error(), r.ErrorCode()))
  }

  // ---------------------------------------------------------------------------
  // The default coercer list

  /** The built-in coercers in the order the static constructor adds them; four of them share the fallback. */
  function DefaultCoercers(): (cs: seq<Coercer>)
    ensures |cs| == 11 && cs[|cs| - 1] == FallbackTypeCoercer
    ensures forall i :: 0 <= i < |cs| ==> BuiltIn(cs[i])
  {
    [ StringTypeCoercer, BoolTypeCoercer, GuidTypeCoercer(FallbackTypeCoercer), EnumTypeCoercer,
      DateTimeTypeCoercer, DateTimeOffsetTypeCoercer, DateOnlyTypeCoercer(FallbackTypeCoercer),
      TimeOnlyTypeCoercer(FallbackTypeCoercer), TimeSpanTypeCoercer(FallbackTypeCoercer),
      NumericTypeCoercer, FallbackTypeCoercer ]
  }
}

=== FILE: error_codes.dfy ===
/**
 * The closed error taxonomy shared by every coercer (TypeCoercion/CoercionErrorCode.cs).
 */
module ErrorCodes {

  /** The six codes, in declaration order. */
  datatype CoercionErrorCode =
    | None                   // no error: the code of successful results
    | UnsupportedSourceType  // this coercer does not own the source/target combination
    | InvalidFormat          // recognised target, unparsable text
    | Overflow               // outside the target's range
    | ConversionFailed       // any other failure, including null into a non-nullable target
    | InvalidEnumMember      // not (the name of) a member of the target enum

  /** The underlying integer of each member: `None = 0`, the others consecutive. */
  function Ordinal(c: CoercionErrorCode): (n: nat)
    ensures n < 6
    ensures n == 0 <==> c == None
  {
    match c
    case None => 0
    case UnsupportedSourceType => 1
    case InvalidFormat => 2
    case Overflow => 3
    case ConversionFailed => 4
    case InvalidEnumMember => 5
  }

  /** The member with a given underlying integer (a cast from int to the enum). */
  function FromOrdinal(n: nat): (c: CoercionErrorCode)
    requires n < 6
    ensures Ordinal(c) == n
  {
    if n == 0 then None
    else if n == 1 then UnsupportedSourceType
    else if n == 2 then InvalidFormat
    else if n == 3 then Overflow
    else if n == 4 then ConversionFailed
    else InvalidEnumMember
  }

  /** The code of zero-initialised storage, as in `default(CoercionResult)`. */
  function ZeroCode(): (c: CoercionErrorCode)
    ensures c == None
  {
    FromOrdinal(0)
  }

  /** Ordinals identify members: the enum has exactly six distinct members. */
  lemma OrdinalRoundTrip(c: CoercionErrorCode)
    ensures FromOrdinal(Ordinal(c)) == c
  {
  }

  /** Declaration order: the codes are numbered 0..5 in the order they are listed. */
  lemma DeclarationOrder()
    ensures Ordinal(None) < Ordinal(UnsupportedSourceType) < Ordinal(InvalidFormat)
            < Ordinal(Overflow) < Ordinal(ConversionFailed) < Ordinal(InvalidEnumMember)
  {
  }
}

=== FILE: faults.dfy ===
/**
 * Exceptions: the faults raised by .NET conversions, and the exception thrown by the
 * throwing entry point (TypeCoercion/TypeCoercionException.cs).
 */
module Faults {
  import opened Wrappers
  import ErrorCodes

  /** The exception classes the classification distinguishes, plus the ones the conversions raise. */
  datatype FaultKind =
    | FormatFault              // System.FormatException
    | JsonFault                // System.Text.Json.JsonException
    | OverflowFault            // System.OverflowException
    | NotSupportedFault        // System.NotSupportedException
    | InvalidCastFault         // System.InvalidCastException
    | ArgumentOutOfRangeFault  // System.ArgumentOutOfRangeException
    | InvalidOperationFault    // System.InvalidOperationException
    | OtherFault               // any other exception class

  /** A raised exception: its class and its message. */
  datatype Fault = Fault(kind: FaultKind, message: string)

  /** The outcome of a call that may throw. */
  datatype Attempt<+T> = Done(value: T) | Raised(fault: Fault)

  /** `TypeCoercionException`: a message, the categorised code, and an optional inner exception. */
  datatype TypeCoercionException =
    TypeCoercionException(message: string, errorCode: ErrorCodes.CoercionErrorCode, inner: Option<Fault>)

  /** The two-argument constructor: no inner exception. */
  function NewTypeCoercionException(message: string, errorCode: ErrorCodes.CoercionErrorCode)
    : (e: TypeCoercionException)
    ensures e.message == message && e.errorCode == errorCode
    ensures e.inner == None
  {
    TypeCoercionException(message, errorCode, None)
  }

  /** The three-argument constructor: keeps the exception that caused the failure. */
  function NewTypeCoercionExceptionWithInner(message: string, errorCode: ErrorCodes.CoercionErrorCode,
                                             innerException: Fault)
    : (e: TypeCoercionException)
    ensures e.message == message && e.errorCode == errorCode
    ensures e.inner == Some(innerException)
  {
    TypeCoercionException(message, errorCode, Some(innerException))
  }

  /** `TypeCoercionException` derives from `InvalidOperationException`: seen through its base class. */
  function AsInvalidOperation(e: TypeCoercionException): (f: Fault)
    ensures f.kind == InvalidOperationFault
    ensures f.message == e.message
  {
    Fault(InvalidOperationFault, e.message)
  }
}

=== FILE: json_properties.dfy ===
/**
 * The JSON half of `TryCoerce`: a `JsonElement` bound for any other type is unwrapped into the
 * CLR value it denotes and coerced again, numbers are read at the target's own width first,
 * and objects and arrays go to the deserializer only for complex types.
 */
module JsonProperties {
  import opened Wrappers
  import opened ClrTypes
  import opened Text
  import ErrorCodes
  import opened Results
  import opened Platform
  import opened Coercers
  import opened CoercionSpec
  import Properties

  // ---------------------------------------------------------------------------
  // Unwrapping, for any coercer list

  /**
   * A JSON string is coerced as its text, `true` and `false` as the booleans, `null` by the null
   * rule; an undefined element is declined.
   */
  lemma JsonScalarsUnwrap(j: JsonElement, target: TypeTag, cs: seq<Coercer>, culture: Culture, lib: Library)
    requires target != JsonElementT
    ensures var r := CoercionSpec.TryCoerce(Some(JsonV(j)), target, cs, culture, lib);
            (j.JString? ==> r == CoercionSpec.TryCoerce(Some(StrV(j.text)), target, cs, culture, lib))
            && (j == JTrue ==> r == CoercionSpec.TryCoerce(Some(BoolV(true)), target, cs, culture, lib))
            && (j == JFalse ==> r == CoercionSpec.TryCoerce(Some(BoolV(false)), target, cs, culture, lib))
            && (j == JNull ==> r == NullResult(target))
            && (j == JUndefined ==> Declines(r))
  {
  }

  /** A `JsonElement` asked for as a `JsonElement` is returned as it is. */
  lemma JsonElementTargetKeepsElement(j: JsonElement, cs: seq<Coercer>, culture: Culture, lib: Library)
    ensures CoercionSpec.TryCoerce(Some(JsonV(j)), JsonElementT, cs, culture, lib) == Ok(Some(JsonV(j)))
  {
  }

  /**
   * A JSON number: when the typed extraction for the effective type succeeds, that value is the
   * result, untouched by the coercers; otherwise the raw text is coerced.
   */
  lemma JsonNumberExtraction(raw: string, target: TypeTag, cs: seq<Coercer>, culture: Culture, lib: Library)
    requires target != JsonElementT
    ensures var r := CoercionSpec.TryCoerce(Some(JsonV(JNumber(raw))), target, cs, culture, lib);
            var x := JsonNumberValue(raw, EffectiveType(target), lib);
            (x.Some? ==> r == Ok(x))
            && (x.None? ==> r == CoercionSpec.TryCoerce(Some(StrV(raw)), target, cs, culture, lib))
  {
    var x := JsonNumberValue(raw, EffectiveType(target), lib);
    assert CoercionSpec.TryCoerce(Some(JsonV(JNumber(raw))), target, cs, culture, lib) == TryCoerceJsonNumber(raw, target, cs, culture, lib);
    if x.Some? {
      Properties.NumericTypeShape(EffectiveType(target));
      assert !x.value.JsonV?;
      assert IsInstanceOfType(EffectiveType(target), x.value);
    }
  }

  /**
   * A JSON integer that fits the target's integral width is that integer, whatever the coercers,
   * except a negative zero ("-0", "-00", …) bound for an unsigned type: its accessor refuses the
   * sign, so the literal goes through the coercers as text.
   */
  lemma JsonIntegerFits(raw: string, n: int, target: TypeTag, cs: seq<Coercer>, culture: Culture, lib: Library)
    requires EffectiveType(target).IntT? && JsonIntegerText(raw) == Some(n) && InRange(n, EffectiveType(target).kind)
    ensures var k := EffectiveType(target).kind;
            var r := CoercionSpec.TryCoerce(Some(JsonV(JNumber(raw))), target, cs, culture, lib);
            (IsSigned(k) || raw[0] != '-' ==> r == Ok(Some(IntV(k, n))))
            && (!IsSigned(k) && raw[0] == '-' ==>
                  n == 0 && r == CoercionSpec.TryCoerce(Some(StrV(raw)), target, cs, culture, lib))
  {
    JsonNumberExtraction(raw, target, cs, culture, lib);
    if raw[0] == '-' && !IsSigned(EffectiveType(target).kind) {
      assert MinValue(EffectiveType(target).kind) == 0;
      NonNegativeMinus(raw);
    }
  }

  /** A literal with a minus reads as zero or less. */
  lemma NonNegativeMinus(raw: string)
    requires JsonIntegerText(raw).Some? && raw[0] == '-'
    ensures JsonIntegerText(raw).value <= 0
  {
  }

  /**
   * On the built-in list every JSON integer that fits the target comes back as that integer; a
   * negative zero bound for an unsigned type gets there by way of the integer text parser.
   */
  lemma JsonIntegerFitsDefault(raw: string, n: int, target: TypeTag, culture: Culture, lib: Library)
    requires EffectiveType(target).IntT? && JsonIntegerText(raw) == Some(n) && InRange(n, EffectiveType(target).kind)
    ensures CoercionSpec.TryCoerce(Some(JsonV(JNumber(raw))), target, DefaultCoercers(), culture, lib)
            == Ok(Some(IntV(EffectiveType(target).kind, n)))
  {
    JsonIntegerFits(raw, n, target, DefaultCoercers(), culture, lib);
    JsonIntegerIsIntegerText(raw);
    if !IsSigned(EffectiveType(target).kind) && raw[0] == '-' {
      Properties.DefaultIntegerText(raw, target, culture, lib);
    }
  }

  /** A JSON integer too wide for the target falls back to its text, which the built-in list reports as Overflow. */
  lemma JsonIntegerOverflows(raw: string, n: int, target: TypeTag, culture: Culture, lib: Library)
    requires EffectiveType(target).IntT? && JsonIntegerText(raw) == Some(n) && !InRange(n, EffectiveType(target).kind)
    ensures var r := CoercionSpec.TryCoerce(Some(JsonV(JNumber(raw))), target, DefaultCoercers(), culture, lib);
            !r.Success() && r.ErrorCode() == ErrorCodes.Overflow
  {
    JsonNumberExtraction(raw, target, DefaultCoercers(), culture, lib);
    JsonIntegerIsIntegerText(raw);
    Properties.DefaultIntegerText(raw, target, culture, lib);
  }

  /** A JSON number bound for `decimal` is the library's decimal reading of it, when there is one. */
  lemma JsonNumberToDecimal(raw: string, x: real, target: TypeTag, cs: seq<Coercer>, culture: Culture, lib: Library)
    requires EffectiveType(target) == DecimalT && lib.jsonReal(raw, DecimalT) == Some(x)
    ensures CoercionSpec.TryCoerce(Some(JsonV(JNumber(raw))), target, cs, culture, lib) == Ok(Some(DecimalV(x)))
  {
    JsonNumberExtraction(raw, target, cs, culture, lib);
  }

  /**
   * Objects and arrays: declined for a type that is not complex; for a complex type, the
   * deserializer's object is the result.
   */
  lemma JsonObjectsAndArrays(j: JsonElement, target: TypeTag, cs: seq<Coercer>, culture: Culture, lib: Library)
    requires (j.JObject? || j.JArray?) && target != JsonElementT
    ensures var r := CoercionSpec.TryCoerce(Some(JsonV(j)), target, cs, culture, lib);
            var eff := EffectiveType(target);
            r == TryDeserializeComplexJson(j, target, lib)
            && (!IsComplexType(eff) ==> Declines(r))
            && (IsComplexType(eff) && lib.deserialize(j.raw, eff).Done? && lib.deserialize(j.raw, eff).value.Some?
                ==> r == Ok(lib.deserialize(j.raw, eff).value))
  {
  }

  // ---------------------------------------------------------------------------
  // JSON integer text

  /** What `FormatInteger` writes is a JSON integer literal of the same value. */
  lemma JsonIntegerTextRoundTrip(n: int)
    ensures JsonIntegerText(FormatInteger(n)) == Some(n)
  {
    if n < 0 {
      NegativeRoundTrip(n);
    } else {
      NaturalRoundTrip(n);
    }
  }

  lemma NegativeRoundTrip(n: int)
    requires n < 0
    ensures JsonIntegerText(FormatInteger(n)) == Some(n)
  {
    var d := FormatNat(-n);
    FormatNatValue(-n);
    NegativeJsonInteger(d);
  }

  lemma NaturalRoundTrip(n: nat)
    ensures JsonIntegerText(FormatInteger(n)) == Some(n)
  {
    var d := FormatNat(n);
    FormatNatValue(n);
    NaturalJsonInteger(d);
  }

  /** A run of digits is a JSON integer literal of its value. */
  lemma NaturalJsonInteger(d: string)
    requires |d| > 0 && AllDigits(d)
    ensures JsonIntegerText(d) == Some(DigitsValue(d))
  {
    assert IsDigit(d[0]);
  }

  /** A minus and a run of digits is a JSON integer literal of the negated value. */
  lemma NegativeJsonInteger(d: string)
    requires |d| > 0 && AllDigits(d)
    ensures JsonIntegerText("-" + d) == Some(-(DigitsValue(d) as int))
  {
    var s := ['-'] + d;
    assert s[1..] == d;
    NegativeLiteral(s);
  }

  lemma NegativeLiteral(raw: string)
    requires |raw| > 1 && raw[0] == '-' && AllDigits(raw[1..])
    ensures JsonIntegerText(raw) == Some(-(DigitsValue(raw[1..]) as int))
  {
  }

  /** Any integer in the target's width, written as a JSON number, comes back as that integer. */
  lemma JsonNumberToInteger(n: int, k: IntKind, cs: seq<Coercer>, culture: Culture, lib: Library)
    requires InRange(n, k)
    ensures CoercionSpec.TryCoerce(Some(JsonV(JNumber(FormatInteger(n)))), IntT(k), cs, culture, lib) == Ok(Some(IntV(k, n)))
  {
    JsonIntegerTextRoundTrip(n);
    assert !IsSigned(k) ==> n >= 0;
    JsonIntegerFits(FormatInteger(n), n, IntT(k), cs, culture, lib);
  }

  // ---------------------------------------------------------------------------
  // The library's own JSON cases, on the built-in list

  /** The JSON string "123" to `int` is 123. */
  lemma JsonStringToInt(culture: Culture, lib: Library)
    ensures CoercionSpec.TryCoerce(Some(JsonV(JString("123"))), IntT(Int32), DefaultCoercers(), culture, lib) == Ok(Some(IntV(Int32, 123)))
  {
    JsonScalarsUnwrap(JString("123"), IntT(Int32), DefaultCoercers(), culture, lib);
    Properties.StringToInt(culture, lib);
  }

  /** The JSON number 42 to `byte` is 42. */
  lemma JsonNumberToByte(culture: Culture, lib: Library)
    ensures CoercionSpec.TryCoerce(Some(JsonV(JNumber("42"))), IntT(Byte), DefaultCoercers(), culture, lib) == Ok(Some(IntV(Byte, 42)))
  {
    assert FormatInteger(42) == "42";
    JsonNumberToInteger(42, Byte, DefaultCoercers(), culture, lib);
  }

  /** JSON `true` to `bool` is true. */
  lemma JsonTrueToBool(cs: seq<Coercer>, culture: Culture, lib: Library)
    ensures CoercionSpec.TryCoerce(Some(JsonV(JTrue)), BoolT, cs, culture, lib) == Ok(Some(BoolV(true)))
  {
    JsonScalarsUnwrap(JTrue, BoolT, cs, culture, lib);
  }

  /** JSON `null` is null for `int?` and ConversionFailed for `int`. */
  lemma JsonNullToInt(cs: seq<Coercer>, culture: Culture, lib: Library)
    ensures CoercionSpec.TryCoerce(Some(JsonV(JNull)), NullableT(IntT(Int32)), cs, culture, lib) == Ok(None)
    ensures var r := CoercionSpec.TryCoerce(Some(JsonV(JNull)), IntT(Int32), cs, culture, lib);
            !r.Success() && r.ErrorCode() == ErrorCodes.ConversionFailed
  {
    JsonScalarsUnwrap(JNull, NullableT(IntT(Int32)), cs, culture, lib);
    JsonScalarsUnwrap(JNull, IntT(Int32), cs, culture, lib);
  }

  /** A JSON object bound for `int`, and a JSON array bound for `string`, are UnsupportedSourceType. */
  lemma JsonCompositesToPrimitives(obj: string, arr: string, cs: seq<Coercer>, culture: Culture, lib: Library)
    ensures var r := CoercionSpec.TryCoerce(Some(JsonV(JObject(obj))), IntT(Int32), cs, culture, lib);
            !r.Success() && r.ErrorCode() == ErrorCodes.UnsupportedSourceType
    ensures var r := CoercionSpec.TryCoerce(Some(JsonV(JArray(arr))), StringT, cs, culture, lib);
            !r.Success() && r.ErrorCode() == ErrorCodes.UnsupportedSourceType
  {
    JsonObjectsAndArrays(JObject(obj), IntT(Int32), cs, culture, lib);
    JsonObjectsAndArrays(JArray(arr), StringT, cs, culture, lib);
  }
}

=== FILE: options.dfy ===
/**
 * `TypeCoercionOptions` (TypeCoercion/TypeCoercionOptions.cs): an ordered, mutable list of
 * coercers and a culture. Of the list operations the library and its callers use `Add` and
 * `Insert`.
 */
module Options {
  import opened ClrTypes
  import opened Coercers

  class TypeCoercionOptions {
    /** `Coercers`, evaluated in order. */
    var coercers: seq<Coercer>
    /** `Culture`. */
    var culture: Culture

    /** A new options object: no coercers, the invariant culture. */
    constructor ()
      ensures coercers == [] && culture == InvariantCulture
    {
      coercers := [];
      culture := InvariantCulture;
    }

    /** `Coercers.Add(c)`: appends, so `c` is consulted after every coercer already present. */
    method Add(c: Coercer)
      modifies this
      ensures coercers == old(coercers) + [c]
      ensures culture == old(culture)
    {
      coercers := coercers + [c];
    }

    /**
     * `Coercers.Insert(index, c)`: places `c` at `index`, shifting the rest back. An index
     * outside 0..Count throws ArgumentOutOfRangeException, reported here as `false` with the
     * list unchanged.
     */
    method Insert(index: int, c: Coercer) returns (inserted: bool)
      modifies this
      ensures inserted <==> 0 <= index <= |old(coercers)|
      ensures inserted ==> coercers == old(coercers)[..index] + [c] + old(coercers)[index..]
      ensures !inserted ==> coercers == old(coercers)
      ensures culture == old(culture)
    {
      if 0 <= index <= |coercers| {
        coercers := coercers[..index] + [c] + coercers[index..];
        inserted := true;
      } else {
        inserted := false;
      }
    }

    /** The `Culture` setter. */
    method SetCulture(value: Culture)
      modifies this
      ensures culture == value && coercers == old(coercers)
    {
      culture := value;
    }
  }
}

=== FILE: platform.dfy ===
/**
 * The .NET runtime services the coercers call. Those whose behaviour the coercion contract
 * depends on are written out (`Convert.ChangeType`, `Convert.ToBoolean`, `bool.Parse`,
 * `Guid.Parse` for the canonical form, integer conversions with their range checks,
 * `Convert.ToString` for the built-in scalar types). Culture-dependent parsing and
 * formatting, floating-point and decimal arithmetic, JSON deserialisation, `ToString()`
 * overrides and user-supplied coercers are parameters: fields of a `Library`.
 */
module Platform {
  import opened Wrappers
  import opened ClrTypes
  import opened Text
  import opened Faults
  import opened Results

  /** Foreign behaviour the model does not define, passed in by the caller. */
  datatype Library = Library(
    /** `DateTime.TryParse(s, culture, out _)`; also what `DateTime.Parse` accepts. */
    parseDateTime: (string, Culture) -> Option<DateTime>,
    /** `DateTimeOffset.TryParse(s, culture, out _)`. */
    parseDateTimeOffset: (string, Culture) -> Option<DateTimeOffset>,
    /** `DateOnly.Parse(s, culture)`. */
    parseDateOnly: (string, Culture) -> Attempt<DateOnly>,
    /** `TimeOnly.Parse(s, culture)`. */
    parseTimeOnly: (string, Culture) -> Attempt<TimeOnly>,
    /** `TimeSpan.Parse(s, culture)`. */
    parseTimeSpan: (string, Culture) -> Attempt<TimeSpan>,
    /** `new DateTimeOffset(dateTime)`: applies the local time zone unless the kind is Utc. */
    toDateTimeOffset: DateTime -> Attempt<DateTimeOffset>,
    /** `Guid.Parse` for the text forms other than "D" (N, B, P and X). */
    parseGuidOther: string -> Option<Guid>,
    /** `Convert.ToDecimal` of a string, single or double. */
    toDecimal: (Obj, Culture) -> Attempt<real>,
    /** `Convert.ToSingle` (when the tag is SingleT) or `Convert.ToDouble` of a string or a number. */
    toFloating: (Obj, TypeTag, Culture) -> Attempt<real>,
    /** `IFormattable.ToString(null, culture)` for the values whose text is culture-dependent. */
    format: (Obj, Culture) -> string,
    /** `object.ToString()` of a value that is not a string; null when an override returns null. */
    display: Obj -> Option<string>,
    /** `JsonElement.TryGetDecimal`, `TryGetDouble` and `TryGetSingle` on a number's raw text. */
    jsonReal: (string, TypeTag) -> Option<real>,
    /** `JsonSerializer.Deserialize(rawText, type, options)`. */
    deserialize: (string, TypeTag) -> Attempt<Option<Obj>>,
    /** The `TryCoerce` of the custom coercer with the given identity. */
    custom: (nat, Obj, TypeTag, TypeTag, Culture) -> CoercionResult
  )

  // ---------------------------------------------------------------------------
  // Text of values

  /** A one-code-unit string; a lone surrogate is shown as U+FFFD (strings here are scalar values). */
  function CharText(unit: int): (s: string)
    ensures |s| == 1
  {
    if 0 <= unit < 0xD800 || 0xE000 <= unit < 0x11_0000 then [unit as char] else "\U{FFFD}"
  }

  function BoolText(b: bool): string
  {
    if b then "True" else "False"
  }

  /**
   * `Convert.ToString(value, culture)`: exact for strings, bools, chars, integers and Guids;
   * through `format` for the other formattable values; `ToString()` for JSON elements and
   * user types, which may yield null.
   */
  function ConvertToString(v: Obj, culture: Culture, lib: Library): (r: Option<string>)
    ensures v.StrV? ==> r == Some(v.s)
    ensures v.IntV? ==> r == Some(FormatInteger(v.n))
    ensures v.GuidV? ==> r == Some(FormatGuid(v.g))
    ensures r.None? ==> v.JsonV? || v.InstanceV?
  {
    match v
    case StrV(s) => Some(s)
    case BoolV(b) => Some(BoolText(b))
    case CharV(u) => Some(CharText(u))
    case IntV(_, n) => Some(FormatInteger(n))
    case GuidV(g) => Some(FormatGuid(g))
    case JsonV(_) => lib.display(v)
    case InstanceV(_, _) => lib.display(v)
    case _ => Some(lib.format(v, culture))
  }

  /** `object.ToString()`: a string is its own text. */
  function DisplayText(v: Obj, lib: Library): (r: Option<string>)
    ensures v.StrV? ==> r == Some(v.s)
  {
    if v.StrV? then Some(v.s) else lib.display(v)
  }

  // ---------------------------------------------------------------------------
  // Parsing

  /** `bool.Parse`: "True" or "False" in any letter case, possibly surrounded by white space and NULs. */
  function ParseBool(s: string): (r: Attempt<bool>)
    ensures r == Done(true) <==> EqualsIgnoreCase(TrimBy(s, IsWhiteOrNul), "True")
    ensures r == Done(false) <==> EqualsIgnoreCase(TrimBy(s, IsWhiteOrNul), "False")
    ensures r.Raised? ==> r.fault.kind == FormatFault
  {
    if EqualsIgnoreCase(s, "True") then
      BareWordUntrimmed(s, "True");
      Done(true)
    else if EqualsIgnoreCase(s, "False") then
      BareWordUntrimmed(s, "False");
      Done(false)
    else
      var t := TrimBy(s, IsWhiteOrNul);
      if EqualsIgnoreCase(t, "True") then Done(true)
      else if EqualsIgnoreCase(t, "False") then Done(false)
      else Raised(Fault(FormatFault, "String '" + s + "' was not recognized as a valid Boolean."))
  }

  /** A string that matches a letter word needs no trimming. */
  lemma BareWordUntrimmed(s: string, word: string)
    requires |word| > 0 && EqualsIgnoreCase(s, word)
    requires forall i :: 0 <= i < |word| ==> 'A' <= word[i] <= 'Z' || 'a' <= word[i] <= 'z'
    ensures TrimBy(s, IsWhiteOrNul) == s
  {
    assert 'a' <= ToLowerAscii(s[0]) <= 'z';
    assert 'a' <= ToLowerAscii(s[|s| - 1]) <= 'z';
    TrimByUntouched(s, IsWhiteOrNul);
  }

  /** `Guid.Parse`: the "D" form exactly, else the other forms; otherwise a FormatException. */
  function ParseGuid(s: string, lib: Library): (r: Attempt<Guid>)
    ensures IsGuidText(Trim(s)) ==> r == Done(ParseGuidD(Trim(s)).value)
    ensures r.Raised? ==> r.fault.kind == FormatFault
  {
    match ParseGuidD(Trim(s))
    case Some(g) => Done(g)
    case None =>
      match lib.parseGuidOther(s)
      case Some(g) => Done(g)
      case None => Raised(Fault(FormatFault, "Unrecognized Guid format."))
  }

  /** Rounding to the nearest integer, ties to even (`Math.Round`, `decimal.Round`). */
  function RoundHalfEven(x: real): (n: int)
    ensures x - 1.0 / 2.0 <= n as real <= x + 1.0 / 2.0
  {
    var f := x.Floor;
    var d := x - f as real;
    if d < 1.0 / 2.0 then f
    else if d > 1.0 / 2.0 then f + 1
    else if f % 2 == 0 then f else f + 1
  }

  // ---------------------------------------------------------------------------
  // Convert.ChangeType

  /** The values that implement `IConvertible`. */
  predicate IsConvertible(v: Obj)
  {
    v.StrV? || v.BoolV? || v.CharV? || v.IntV? || v.SingleV? || v.DoubleV? || v.DecimalV?
    || v.DateTimeV? || v.EnumV?
  }

  function InvalidCast(v: Obj, t: TypeTag): Fault
  {
    Fault(InvalidCastFault, "Invalid cast from '" + TypeName(TypeOf(v)) + "' to '" + TypeName(t) + "'.")
  }

  function OverflowFor(t: TypeTag): Fault
  {
    Fault(OverflowFault, "Value was either too large or too small for " + TypeName(t) + ".")
  }

  /** A number that must fit the integral kind `k`. */
  function CheckRange(n: int, k: IntKind): (r: Attempt<int>)
    ensures r.Done? <==> InRange(n, k)
    ensures r.Done? ==> r.value == n
    ensures r.Raised? ==> r.fault.kind == OverflowFault
  {
    if InRange(n, k) then Done(n) else Raised(OverflowFor(IntT(k)))
  }

  /** `Int32.Parse(s, NumberStyles.Integer, culture)` and its siblings, with invariant signs. */
  function ParseInteger(s: string, k: IntKind): (r: Attempt<int>)
    ensures r.Done? <==> IntegerSyntax(s).Some? && InRange(IntegerSyntax(s).value, k)
    ensures r.Done? ==> r.value == IntegerSyntax(s).value
    ensures r.Raised? && r.fault.kind == OverflowFault <==> IntegerSyntax(s).Some? && !InRange(IntegerSyntax(s).value, k)
    ensures r.Raised? && r.fault.kind == FormatFault <==> IntegerSyntax(s).None?
  {
    match IntegerSyntax(s)
    case None => Raised(Fault(FormatFault, "The input string '" + s + "' was not in a correct format."))
    case Some(n) => CheckRange(n, k)
  }

  /** `Convert.ToBoolean(value, culture)`. */
  function ToBoolean(v: Obj): (r: Attempt<bool>)
    ensures v.StrV? ==> r == ParseBool(v.s)
    ensures v.IntV? ==> r == Done(v.n != 0)
    ensures v.CharV? || v.DateTimeV? || !IsConvertible(v) ==> r.Raised? && r.fault.kind == InvalidCastFault
    ensures r.Raised? ==> r.fault.kind == FormatFault || r.fault.kind == InvalidCastFault
  {
    match v
    case StrV(s) => ParseBool(s)
    case BoolV(b) => Done(b)
    case IntV(_, n) => Done(n != 0)
    case EnumV(_, n) => Done(n != 0)
    case SingleV(x) => Done(x != 0.0)
    case DoubleV(x) => Done(x != 0.0)
    case DecimalV(d) => Done(d != 0.0)
    case _ => Raised(InvalidCast(v, BoolT))
  }

  /** `Convert.ToChar(value, culture)`: a one-unit string, or an integer in the code unit range. */
  function ToChar(v: Obj): (r: Attempt<int>)
    ensures r.Done? ==> 0 <= r.value < 0x1_0000
    ensures v.StrV? ==> (r.Done? <==> |v.s| == 1 && v.s[0] as int < 0x1_0000)
  {
    match v
    case StrV(s) =>
      if |s| == 1 && s[0] as int < 0x1_0000 then Done(s[0] as int)
      else Raised(Fault(FormatFault, "String must be exactly one character long."))
    case CharV(u) => if 0 <= u < 0x1_0000 then Done(u) else Raised(OverflowFor(CharT))
    case IntV(_, n) => if 0 <= n < 0x1_0000 then Done(n) else Raised(OverflowFor(CharT))
    case EnumV(_, n) => if 0 <= n < 0x1_0000 then Done(n) else Raised(OverflowFor(CharT))
    case _ => Raised(InvalidCast(v, CharT))
  }

  /** The integral conversion of a `float` or `double`. */
  function FloatingToInteger(x: real, k: IntKind): Attempt<int>
  {
    if k == UInt32 && -1.0 < x < 0.0 then Done(0) else CheckRange(RoundHalfEven(x), k)
  }

  /**
   * `Convert.ToInt32(value, culture)` and its siblings: parse, round or widen, then check the range.
   * A floating value is rounded half to even, except that `Convert.ToUInt32(double)` (which
   * `ToUInt32(float)` calls) accepts every value above -1.0 and truncates it before rounding,
   * so a value in (-1.0, 0.0) gives 0 there rather than overflowing.
   */
  function ToInteger(v: Obj, k: IntKind): (r: Attempt<int>)
    ensures r.Done? ==> InRange(r.value, k)
    ensures v.StrV? ==> r == ParseInteger(v.s, k)
    ensures v.IntV? ==> r == CheckRange(v.n, k)
    ensures (v.SingleV? || v.DoubleV?) && k == UInt32 && -1.0 < v.x < 0.0 ==> r == Done(0)
    ensures (v.SingleV? || v.DoubleV?) && r.Done? && !(k == UInt32 && -1.0 < v.x < 0.0) ==>
              -0.5 <= r.value as real - v.x <= 0.5
    ensures (v.SingleV? || v.DoubleV?) ==>
              (r.Done? <==> InRange(RoundHalfEven(v.x), k) || (k == UInt32 && -1.0 < v.x < 0.0))
    ensures r.Raised? ==> r.fault.kind in {FormatFault, OverflowFault, InvalidCastFault}
  {
    match v
    case StrV(s) => ParseInteger(s, k)
    case BoolV(b) => Done(if b then 1 else 0)
    case CharV(u) => CheckRange(u, k)
    case IntV(_, n) => CheckRange(n, k)
    case EnumV(_, n) => CheckRange(n, k)
    case SingleV(x) => FloatingToInteger(x, k)
    case DoubleV(x) => FloatingToInteger(x, k)
    case DecimalV(d) => CheckRange(RoundHalfEven(d), k)
    case _ => Raised(InvalidCast(v, IntT(k)))
  }

  /** A number in (-1.0, -0.5) rounds to -1. */
  lemma RoundsToMinusOne(x: real)
    requires -1.0 < x < -0.5
    ensures RoundHalfEven(x) == -1
  {
    assert x.Floor == -1;
  }

  /**
   * A double just below zero converts to `uint` as 0, while every other unsigned kind rounds it
   * to -1 and overflows.
   */
  lemma UInt32TruncatesNearZero(x: real)
    requires -1.0 < x < -0.5
    ensures ToInteger(DoubleV(x), UInt32) == Done(0)
    ensures ToInteger(DoubleV(x), Byte).Raised? && ToInteger(DoubleV(x), Byte).fault.kind == OverflowFault
    ensures ToInteger(DoubleV(x), UInt16).Raised? && ToInteger(DoubleV(x), UInt16).fault.kind == OverflowFault
    ensures ToInteger(DoubleV(x), UInt64).Raised? && ToInteger(DoubleV(x), UInt64).fault.kind == OverflowFault
    ensures ToInteger(DoubleV(x), Int32) == Done(-1)
  {
    var n := RoundHalfEven(x);
    RoundsToMinusOne(x);
    assert ToInteger(DoubleV(x), UInt32) == FloatingToInteger(x, UInt32);
    assert ToInteger(DoubleV(x), Byte) == CheckRange(n, Byte);
    assert ToInteger(DoubleV(x), UInt16) == CheckRange(n, UInt16);
    assert ToInteger(DoubleV(x), UInt64) == CheckRange(n, UInt64);
    assert ToInteger(DoubleV(x), Int32) == CheckRange(n, Int32);
  }

  /** `Convert.ToDecimal(value, culture)`: exact from integers and bools. */
  function ToDecimal(v: Obj, culture: Culture, lib: Library): (r: Attempt<real>)
    ensures v.IntV? ==> r == Done(v.n as real)
  {
    match v
    case BoolV(b) => Done(if b then 1.0 else 0.0)
    case IntV(_, n) => Done(n as real)
    case EnumV(_, n) => Done(n as real)
    case DecimalV(d) => Done(d)
    case StrV(_) => lib.toDecimal(v, culture)
    case SingleV(_) => lib.toDecimal(v, culture)
    case DoubleV(_) => lib.toDecimal(v, culture)
    case _ => Raised(InvalidCast(v, DecimalT))
  }

  /**
   * `Convert.ToSingle` / `Convert.ToDouble`: chars and dates are refused; a single is exact in
   * both widths and a double in its own.
   */
  function ToFloating(v: Obj, t: TypeTag, culture: Culture, lib: Library): (r: Attempt<real>)
    ensures v.CharV? || v.DateTimeV? ==> r.Raised?
    ensures v.SingleV? || (v.DoubleV? && t == DoubleT) ==> r == Done(v.x)
  {
    match v
    case BoolV(b) => Done(if b then 1.0 else 0.0)
    case StrV(_) => lib.toFloating(v, t, culture)
    case IntV(_, _) => lib.toFloating(v, t, culture)
    case EnumV(_, _) => lib.toFloating(v, t, culture)
    case SingleV(x) => Done(x)
    case DoubleV(x) => if t == DoubleT then Done(x) else lib.toFloating(v, t, culture)
    case DecimalV(_) => lib.toFloating(v, t, culture)
    case _ => Raised(InvalidCast(v, t))
  }

  /** `Convert.ToDateTime(value, culture)`: parses strings, keeps DateTimes. */
  function ToDateTime(v: Obj, culture: Culture, lib: Library): (r: Attempt<DateTime>)
    ensures v.DateTimeV? ==> r == Done(v.dt)
  {
    match v
    case StrV(s) =>
      (match lib.parseDateTime(s, culture)
       case Some(dt) => Done(dt)
       case None => Raised(Fault(FormatFault, "String '" + s + "' was not recognized as a valid DateTime.")))
    case DateTimeV(dt) => Done(dt)
    case _ => Raised(InvalidCast(v, DateTimeT))
  }

  /**
   * `Convert.ChangeType(value, type, culture)`. A value that is not `IConvertible` converts
   * only to its own type; an `IConvertible` one goes through the conversion for the target's
   * type code, and to any other type only when it already has that type.
   */
  function ChangeType(v: Obj, t: TypeTag, culture: Culture, lib: Library): (r: Attempt<Obj>)
    ensures r.Done? ==> IsInstanceOfType(t, r.value)
    ensures WellFormed(v) && TypeOf(v) == t ==> r.Done? && r.value == v
    ensures !IsConvertible(v) ==> (r.Done? <==> TypeOf(v) == t)
    ensures t.IntT? ==> (r.Done? <==> ToInteger(v, t.kind).Done?)
    ensures t.IntT? && r.Done? ==> r.value == IntV(t.kind, ToInteger(v, t.kind).value)
    ensures t.IntT? && r.Raised? ==> r.fault == ToInteger(v, t.kind).fault
    ensures r.Done? && WellFormed(v) ==> WellFormed(r.value)
  {
    if !IsConvertible(v) then
      if TypeOf(v) == t then Done(v) else Raised(InvalidCast(v, t))
    else
      match t
      case BoolT => (match ToBoolean(v) case Done(b) => Done(BoolV(b)) case Raised(f) => Raised(f))
      case CharT => (match ToChar(v) case Done(u) => Done(CharV(u)) case Raised(f) => Raised(f))
      case IntT(k) => (match ToInteger(v, k) case Done(n) => Done(IntV(k, n)) case Raised(f) => Raised(f))
      case SingleT => (match ToFloating(v, t, culture, lib) case Done(x) => Done(SingleV(x)) case Raised(f) => Raised(f))
      case DoubleT => (match ToFloating(v, t, culture, lib) case Done(x) => Done(DoubleV(x)) case Raised(f) => Raised(f))
      case DecimalT => (match ToDecimal(v, culture, lib) case Done(d) => Done(DecimalV(d)) case Raised(f) => Raised(f))
      case DateTimeT => (match ToDateTime(v, culture, lib) case Done(dt) => Done(DateTimeV(dt)) case Raised(f) => Raised(f))
      case StringT =>
        (match ConvertToString(v, culture, lib)
         case Some(s) => Done(StrV(s))
         case None => Raised(InvalidCast(v, t)))
      case ObjectT => Done(v)
      case _ => if TypeOf(v) == t then Done(v) else Raised(InvalidCast(v, t))
  }
}

=== FILE: properties.dfy ===
/**
 * What the coercion pipeline promises across calls: the ordered scan, a user coercer placed
 * first, enum routing, the JSON unwrapping rules, and the behaviour of the built-in list on the
 * inputs the library's own tests use.
 */
module Properties {
  import opened Wrappers
  import opened ClrTypes
  import opened Text
  import ErrorCodes
  import opened Faults
  import opened Results
  import opened Platform
  import opened Classification
  import opened Coercers
  import opened CoercionSpec

  // ---------------------------------------------------------------------------
  // The ordered scan

  /** Coercers the scan passes over can be dropped from the front of the list. */
  lemma {:induction false} ScanSkipsPassedOver(v: Obj, eff: TypeTag, decl: TypeTag, cs: seq<Coercer>, culture: Culture, lib: Library, k: nat)
    requires k <= |cs|
    requires forall j :: 0 <= j < k ==> PassesOver(cs[j], v, eff, decl, culture, lib)
    ensures Scan(v, eff, decl, cs, culture, lib) == Scan(v, eff, decl, cs[k..], culture, lib)
    decreases k
  {
    if k > 0 {
      ScanPassesFirst(v, eff, decl, cs, culture, lib);
      forall j | 0 <= j < k - 1
        ensures PassesOver(cs[1..][j], v, eff, decl, culture, lib)
      {
        assert cs[1..][j] == cs[j + 1];
      }
      ScanSkipsPassedOver(v, eff, decl, cs[1..], culture, lib, k - 1);
      assert cs[1..][k - 1..] == cs[k..];
    }
  }

  /** A first coercer the scan passes over leaves the rest of the list to decide. */
  lemma ScanPassesFirst(v: Obj, eff: TypeTag, decl: TypeTag, cs: seq<Coercer>, culture: Culture, lib: Library)
    requires |cs| > 0 && PassesOver(cs[0], v, eff, decl, culture, lib)
    ensures Scan(v, eff, decl, cs, culture, lib) == Scan(v, eff, decl, cs[1..], culture, lib)
  {
  }

  /**
   * The first coercer the scan does not pass over decides: its result, success or failure, is
   * the scan's result, and no later coercer is consulted.
   */
  lemma ScanFirstDecides(v: Obj, eff: TypeTag, decl: TypeTag, cs: seq<Coercer>, culture: Culture, lib: Library, k: nat)
    requires k < |cs|
    requires forall j :: 0 <= j < k ==> PassesOver(cs[j], v, eff, decl, culture, lib)
    requires !PassesOver(cs[k], v, eff, decl, culture, lib)
    ensures Scan(v, eff, decl, cs, culture, lib) == Coercers.TryCoerce(cs[k], v, eff, decl, culture, lib)
  {
    ScanSkipsPassedOver(v, eff, decl, cs, culture, lib, k);
    assert cs[k..][0] == cs[k];
  }

  /** An empty coercer list finds no coercer, whatever the value and type. */
  lemma EmptyListFindsNothing(v: Obj, eff: TypeTag, decl: TypeTag, culture: Culture, lib: Library)
    ensures Dispatch(v, eff, decl, [], culture, lib) == NoCoercerFound(v, eff)
    ensures !Dispatch(v, eff, decl, [], culture, lib).Success()
    ensures Dispatch(v, eff, decl, [], culture, lib).ErrorCode() == ErrorCodes.ConversionFailed
  {
  }

  /**
   * A user coercer inserted at index 0 is consulted first: for a value that needs converting to a
   * non-enum type, its result is final unless it declines.
   */
  lemma CustomFirstWins(id: nat, v: Obj, target: TypeTag, cs: seq<Coercer>, culture: Culture, lib: Library)
    requires !v.JsonV? && !IsInstanceOfType(EffectiveType(target), v) && !IsEnum(EffectiveType(target))
    requires !Declines(lib.custom(id, v, EffectiveType(target), target, culture))
    ensures CoercionSpec.TryCoerce(Some(v), target, [CustomCoercer(id)] + cs, culture, lib) == lib.custom(id, v, EffectiveType(target), target, culture)
  {
    var eff := EffectiveType(target);
    ScanFirstDecides(v, eff, target, [CustomCoercer(id)] + cs, culture, lib, 0);
  }

  /**
   * Options holding a single user coercer: its answer is the result, and when it declines no
   * coercer is found.
   */
  lemma CustomCoercerAlone(id: nat, v: Obj, target: TypeTag, culture: Culture, lib: Library)
    requires !v.JsonV? && !IsInstanceOfType(EffectiveType(target), v) && !IsEnum(EffectiveType(target))
    ensures var c := lib.custom(id, v, EffectiveType(target), target, culture);
            var r := CoercionSpec.TryCoerce(Some(v), target, [CustomCoercer(id)], culture, lib);
            (!Declines(c) ==> r == c) && (Declines(c) ==> r == NoCoercerFound(v, EffectiveType(target)))
  {
    var eff := EffectiveType(target);
    assert Dispatch(v, eff, target, [CustomCoercer(id)], culture, lib) == Scan(v, eff, target, [CustomCoercer(id)], culture, lib);
    if !Declines(lib.custom(id, v, eff, target, culture)) {
      assert [CustomCoercer(id)] + [] == [CustomCoercer(id)];
      CustomFirstWins(id, v, target, [], culture, lib);
    }
  }

  /**
   * Enum routing: for an enum type the first enum coercer answers alone, even when it declines and
   * even when a user coercer stands before it in the list.
   */
  lemma EnumRouting(v: Obj, eff: TypeTag, decl: TypeTag, cs: seq<Coercer>, culture: Culture, lib: Library)
    requires IsEnum(eff) && EnumTypeCoercer in cs
    ensures Dispatch(v, eff, decl, cs, culture, lib) == CoerceEnum(v, eff, lib)
    ensures !v.StrV? ==> Declines(Dispatch(v, eff, decl, cs, culture, lib))
  {
    InterfaceRoutes(EnumTypeCoercer, v, eff, decl, culture, lib);
  }

  /** Without an enum coercer an enum type is scanned like any other, so a declining result cannot come back. */
  lemma EnumWithoutEnumCoercer(v: Obj, eff: TypeTag, decl: TypeTag, cs: seq<Coercer>, culture: Culture, lib: Library)
    requires IsEnum(eff) && EnumTypeCoercer !in cs
    ensures Dispatch(v, eff, decl, cs, culture, lib) == Scan(v, eff, decl, cs, culture, lib)
    ensures !Declines(Dispatch(v, eff, decl, cs, culture, lib))
  {
  }

  /** Only enum routing can hand a declining result back: for other types dispatch never yields UnsupportedSourceType. */
  lemma DispatchDeclinesOnlyForEnums(v: Obj, eff: TypeTag, decl: TypeTag, cs: seq<Coercer>, culture: Culture, lib: Library)
    requires Declines(Dispatch(v, eff, decl, cs, culture, lib))
    ensures IsEnum(eff) && EnumTypeCoercer in cs
  {
  }

  // ---------------------------------------------------------------------------
  // The built-in list

  /** Coercers that do not own the effective type decline it, so the scan passes over them. */
  lemma NonOwnersPassedOver(v: Obj, eff: TypeTag, decl: TypeTag, cs: seq<Coercer>, culture: Culture, lib: Library, k: nat)
    requires k <= |cs|
    requires forall j :: 0 <= j < k ==> !Owns(cs[j], eff)
    ensures Scan(v, eff, decl, cs, culture, lib) == Scan(v, eff, decl, cs[k..], culture, lib)
  {
    forall j | 0 <= j < k
      ensures PassesOver(cs[j], v, eff, decl, culture, lib)
    {
      assert Declines(Coercers.TryCoerce(cs[j], v, eff, decl, culture, lib));
    }
    ScanSkipsPassedOver(v, eff, decl, cs, culture, lib, k);
  }

  /**
   * For a non-enum type, the first coercer that owns it decides, provided it does not decline:
   * every coercer before it declines the type outright.
   */
  lemma FirstOwnerDecides(v: Obj, eff: TypeTag, decl: TypeTag, cs: seq<Coercer>, culture: Culture, lib: Library, k: nat)
    requires k < |cs| && !IsEnum(eff)
    requires forall j :: 0 <= j < k ==> !Owns(cs[j], eff)
    requires !Declines(Coercers.TryCoerce(cs[k], v, eff, decl, culture, lib))
    ensures Dispatch(v, eff, decl, cs, culture, lib) == Coercers.TryCoerce(cs[k], v, eff, decl, culture, lib)
  {
    NonOwnersPassedOver(v, eff, decl, cs, culture, lib, k);
    assert cs[k..][0] == cs[k];
  }

  /**
   * With the built-in list, a value bound for one of the eleven numeric types reaches the numeric
   * coercer, the first that owns those types, and its result stands unless it declines.
   */
  lemma DefaultNumericDispatch(v: Obj, eff: TypeTag, decl: TypeTag, culture: Culture, lib: Library)
    requires IsNumericType(eff)
    requires !Declines(CoerceNumeric(v, eff, decl, culture, lib))
    ensures Dispatch(v, eff, decl, DefaultCoercers(), culture, lib) == CoerceNumeric(v, eff, decl, culture, lib)
  {
    var cs := DefaultCoercers();
    NoOwnerBeforeNumeric(eff);
    InterfaceRoutes(cs[9], v, eff, decl, culture, lib);
    FirstOwnerDecides(v, eff, decl, cs, culture, lib, 9);
  }

  /** In the built-in list, the numeric coercer at index 9 is the first to own a numeric type. */
  lemma NoOwnerBeforeNumeric(eff: TypeTag)
    requires IsNumericType(eff)
    ensures var cs := DefaultCoercers();
            |cs| == 11 && cs[9] == NumericTypeCoercer && !IsEnum(eff)
            && forall j :: 0 <= j < 9 ==> !Owns(cs[j], eff)
  {
    var cs := DefaultCoercers();
    DefaultLayout();
    NumericTypeShape(eff);
    forall j | 0 <= j < 9
      ensures !Owns(cs[j], eff)
    {
    }
  }

  /** The eleven numeric types are the integral kinds, `float`, `double` and `decimal`. */
  lemma NumericTypeShape(t: TypeTag)
    ensures IsNumericType(t) <==> t.IntT? || t == SingleT || t == DoubleT || t == DecimalT
  {
    if t.IntT? {
      assert t == NumericTypes[IntKindIndex(t.kind)];
    }
  }

  function IntKindIndex(k: IntKind): (i: nat)
    ensures i < 8 && NumericTypes[i] == IntT(k)
  {
    match k
    case Byte => 0
    case SByte => 1
    case Int16 => 2
    case UInt16 => 3
    case Int32 => 4
    case UInt32 => 5
    case Int64 => 6
    case UInt64 => 7
  }

  /**
   * With the built-in list, an integral target gets exactly `Convert.ChangeType`'s answer: the
   * converted value when it fits, otherwise the classified conversion fault, exception kept.
   */
  lemma DefaultIntegerTarget(v: Obj, target: TypeTag, culture: Culture, lib: Library)
    requires EffectiveType(target).IntT? && !v.JsonV? && TypeOf(v) != EffectiveType(target)
    ensures var r := CoercionSpec.TryCoerce(Some(v), target, DefaultCoercers(), culture, lib);
            var a := ToInteger(v, EffectiveType(target).kind);
            (r.Success() <==> a.Done?)
            && (a.Done? ==> r.Value() == Some(IntV(EffectiveType(target).kind, a.value)))
            && (a.Raised? ==> r.ErrorCode() == GetErrorCode(a.fault) && r.OriginalException() == Some(a.fault))
  {
    var eff := EffectiveType(target);
    NumericOnIntegers(v, eff, target, culture, lib);
    DefaultNumericDispatch(v, eff, target, culture, lib);
    assert !IsInstanceOfType(eff, v);
  }

  /** The numeric coercer on an integral type is `Convert.ChangeType`'s integer conversion, and never declines. */
  lemma NumericOnIntegers(v: Obj, eff: TypeTag, decl: TypeTag, culture: Culture, lib: Library)
    requires eff.IntT?
    ensures var r := CoerceNumeric(v, eff, decl, culture, lib);
            var a := ToInteger(v, eff.kind);
            !Declines(r) && IsNumericType(eff)
            && (r.Success() <==> a.Done?)
            && (a.Done? ==> r.Value() == Some(IntV(eff.kind, a.value)))
            && (a.Raised? ==> r.ErrorCode() == GetErrorCode(a.fault) && r.OriginalException() == Some(a.fault))
  {
    NumericTypeShape(eff);
    var a := ToInteger(v, eff.kind);
    var c := ChangeType(v, eff, culture, lib);
    assert CoerceNumeric(v, eff, decl, culture, lib) == FromAttempt(c, v, decl, lib);
    if a.Done? {
      assert c == Done(IntV(eff.kind, a.value));
    } else {
      assert c.Raised? && c.fault == a.fault;
      assert GetErrorCode(a.fault) != ErrorCodes.UnsupportedSourceType;
    }
  }

  /**
   * Integer text to an integral target: success with the number exactly when the text is an
   * integer in range, Overflow when it is an integer out of range, InvalidFormat otherwise.
   */
  lemma DefaultIntegerText(s: string, target: TypeTag, culture: Culture, lib: Library)
    requires EffectiveType(target).IntT?
    ensures var r := CoercionSpec.TryCoerce(Some(StrV(s)), target, DefaultCoercers(), culture, lib);
            var k := EffectiveType(target).kind;
            (r.Success() <==> IntegerSyntax(s).Some? && InRange(IntegerSyntax(s).value, k))
            && (r.Success() ==> r.Value() == Some(IntV(k, IntegerSyntax(s).value)))
            && (!r.Success() && r.ErrorCode() == ErrorCodes.Overflow <==> IntegerSyntax(s).Some? && !InRange(IntegerSyntax(s).value, k))
            && (!r.Success() && r.ErrorCode() == ErrorCodes.InvalidFormat <==> IntegerSyntax(s).None?)
  {
    DefaultIntegerTarget(StrV(s), target, culture, lib);
  }

  /** Integer text in range reads as that integer. */
  lemma IntegerTextAccepted(s: string, n: int, k: IntKind, culture: Culture, lib: Library)
    requires IntegerSyntax(s) == Some(n) && InRange(n, k)
    ensures CoercionSpec.TryCoerce(Some(StrV(s)), IntT(k), DefaultCoercers(), culture, lib) == Ok(Some(IntV(k, n)))
  {
    DefaultIntegerText(s, IntT(k), culture, lib);
  }

  /** Integer text out of range overflows. */
  lemma IntegerTextOverflows(s: string, k: IntKind, culture: Culture, lib: Library)
    requires IntegerSyntax(s).Some? && !InRange(IntegerSyntax(s).value, k)
    ensures var r := CoercionSpec.TryCoerce(Some(StrV(s)), IntT(k), DefaultCoercers(), culture, lib);
            !r.Success() && r.ErrorCode() == ErrorCodes.Overflow
  {
    DefaultIntegerText(s, IntT(k), culture, lib);
  }

  /** Any non-string value bound for `string` is formatted by the string coercer, the first in the list. */
  lemma DefaultStringTarget(v: Obj, target: TypeTag, culture: Culture, lib: Library)
    requires EffectiveType(target) == StringT && !v.JsonV? && !v.StrV?
    ensures var r := CoercionSpec.TryCoerce(Some(v), target, DefaultCoercers(), culture, lib);
            r.Success()
            && r.Value() == (match ConvertToString(v, culture, lib) case Some(t) => Some(StrV(t)) case None => None)
  {
    var cs := DefaultCoercers();
    DefaultLayout();
    TypeOfTags(v);
    InterfaceRoutes(cs[0], v, StringT, target, culture, lib);
    OwnerDecides(v, target, cs, culture, lib, 0);
  }

  /**
   * A non-bool value bound for `bool` reaches the bool coercer: the value `Convert.ToBoolean`
   * gives, or InvalidFormat for text it does not accept.
   */
  lemma DefaultBoolTarget(v: Obj, target: TypeTag, culture: Culture, lib: Library)
    requires EffectiveType(target) == BoolT && !v.JsonV? && !v.BoolV?
    ensures var r := CoercionSpec.TryCoerce(Some(v), target, DefaultCoercers(), culture, lib);
            (r.Success() <==> ToBoolean(v).Done?)
            && (r.Success() ==> r.Value() == Some(BoolV(ToBoolean(v).value)))
            && (v.StrV? && !r.Success() ==> r.ErrorCode() == ErrorCodes.InvalidFormat)
  {
    DefaultBoolDispatch(v, target, culture, lib);
  }

  lemma DefaultBoolDispatch(v: Obj, target: TypeTag, culture: Culture, lib: Library)
    requires EffectiveType(target) == BoolT && !v.JsonV? && !v.BoolV?
    ensures CoercionSpec.TryCoerce(Some(v), target, DefaultCoercers(), culture, lib) == CoerceBool(v, BoolT, target, lib)
  {
    BoolDispatchAt(v, target, DefaultCoercers(), culture, lib);
  }

  /** A list that starts with the string and the bool coercers hands a non-bool value for `bool` to the second. */
  lemma BoolDispatchAt(v: Obj, target: TypeTag, cs: seq<Coercer>, culture: Culture, lib: Library)
    requires EffectiveType(target) == BoolT && !v.JsonV? && !v.BoolV?
    requires |cs| > 1 && cs[0] == StringTypeCoercer && cs[1] == BoolTypeCoercer
    ensures CoercionSpec.TryCoerce(Some(v), target, cs, culture, lib) == CoerceBool(v, BoolT, target, lib)
  {
    TypeOfTags(v);
    BoolCoercerDecides(v, target, lib);
    InterfaceRoutes(cs[1], v, BoolT, target, culture, lib);
    assert !Owns(cs[0], BoolT);
    OwnerDecides(v, target, cs, culture, lib, 1);
  }

  /** The bool coercer never declines `bool`: `Convert.ToBoolean` fails only with format or cast faults. */
  lemma BoolCoercerDecides(v: Obj, decl: TypeTag, lib: Library)
    ensures !Declines(CoerceBool(v, BoolT, decl, lib))
  {
    if ToBoolean(v).Raised? {
      assert GetErrorCode(ToBoolean(v).fault) != ErrorCodes.UnsupportedSourceType;
    }
  }

  /**
   * A value that needs converting to a non-enum type reaches the first coercer that owns the
   * type, and that coercer's result is the answer unless it declines.
   */
  lemma OwnerDecides(v: Obj, target: TypeTag, cs: seq<Coercer>, culture: Culture, lib: Library, k: nat)
    requires !v.JsonV? && !IsInstanceOfType(EffectiveType(target), v) && !IsEnum(EffectiveType(target))
    requires k < |cs| && forall j :: 0 <= j < k ==> !Owns(cs[j], EffectiveType(target))
    requires !Declines(Coercers.TryCoerce(cs[k], v, EffectiveType(target), target, culture, lib))
    ensures CoercionSpec.TryCoerce(Some(v), target, cs, culture, lib)
            == Coercers.TryCoerce(cs[k], v, EffectiveType(target), target, culture, lib)
  {
    FirstOwnerDecides(v, EffectiveType(target), target, cs, culture, lib, k);
  }

  /** The interface call runs the coercer's own function. */
  lemma InterfaceRoutes(c: Coercer, v: Obj, eff: TypeTag, decl: TypeTag, culture: Culture, lib: Library)
    ensures c == StringTypeCoercer ==> Coercers.TryCoerce(c, v, eff, decl, culture, lib) == CoerceString(v, eff, culture, lib)
    ensures c == BoolTypeCoercer ==> Coercers.TryCoerce(c, v, eff, decl, culture, lib) == CoerceBool(v, eff, decl, lib)
    ensures c.GuidTypeCoercer? ==> Coercers.TryCoerce(c, v, eff, decl, culture, lib) == CoerceGuid(c.fallback, v, eff, decl, culture, lib)
    ensures c == EnumTypeCoercer ==> Coercers.TryCoerce(c, v, eff, decl, culture, lib) == CoerceEnum(v, eff, lib)
    ensures c == NumericTypeCoercer ==> Coercers.TryCoerce(c, v, eff, decl, culture, lib) == CoerceNumeric(v, eff, decl, culture, lib)
    ensures c == FallbackTypeCoercer ==> Coercers.TryCoerce(c, v, eff, decl, culture, lib) == CoerceFallback(v, eff, decl, culture, lib)
  {
  }

  /** The runtime types of the value kinds the built-in list is exercised with. */
  lemma TypeOfTags(v: Obj)
    ensures TypeOf(v) == StringT <==> v.StrV?
    ensures TypeOf(v) == BoolT <==> v.BoolV?
    ensures TypeOf(v) == GuidT <==> v.GuidV?
    ensures TypeOf(v) == CharT <==> v.CharV?
    ensures TypeOf(v).IntT? <==> v.IntV?
  {
  }

  /** The Guid coercer reads a Guid's canonical text back to that Guid. */
  lemma GuidCoercerReadsCanonical(g: Guid, fallback: Coercer, decl: TypeTag, culture: Culture, lib: Library)
    ensures CoerceGuid(fallback, StrV(FormatGuid(g)), GuidT, decl, culture, lib) == Ok(Some(GuidV(g)))
  {
    var s := FormatGuid(g);
    GuidRoundTrip(g);
    assert HexValue(s[0]).Some? && HexValue(s[35]).Some? by {
      assert s[0] != '-' && s[35] != '-';
    }
    TrimByUntouched(s, IsWhiteSpace);
  }

  /** A Guid's canonical text coerces back to that Guid. */
  lemma DefaultGuidRoundTrip(g: Guid, target: TypeTag, culture: Culture, lib: Library)
    requires EffectiveType(target) == GuidT
    ensures CoercionSpec.TryCoerce(Some(StrV(FormatGuid(g))), target, DefaultCoercers(), culture, lib) == Ok(Some(GuidV(g)))
  {
    DefaultLayout();
    GuidCoercerReadsCanonical(g, FallbackTypeCoercer, target, culture, lib);
    GuidOwnerAt(StrV(FormatGuid(g)), target, DefaultCoercers(), culture, lib);
  }

  /** A list whose third coercer is the first to own `Guid` hands text bound for `Guid` to it, unless it declines. */
  lemma GuidOwnerAt(v: Obj, target: TypeTag, cs: seq<Coercer>, culture: Culture, lib: Library)
    requires EffectiveType(target) == GuidT && v.StrV?
    requires |cs| > 2 && !Owns(cs[0], GuidT) && !Owns(cs[1], GuidT) && cs[2].GuidTypeCoercer?
    requires !Declines(CoerceGuid(cs[2].fallback, v, GuidT, target, culture, lib))
    ensures CoercionSpec.TryCoerce(Some(v), target, cs, culture, lib) == CoerceGuid(cs[2].fallback, v, GuidT, target, culture, lib)
  {
    InterfaceRoutes(cs[2], v, GuidT, target, culture, lib);
    OwnerDecides(v, target, cs, culture, lib, 2);
  }

  /** The Guid coercer reports text that is no Guid as InvalidFormat and keeps the FormatException. */
  lemma GuidCoercerRefuses(s: string, fallback: Coercer, decl: TypeTag, culture: Culture, lib: Library)
    requires !IsGuidText(Trim(s)) && lib.parseGuidOther(s).None?
    ensures var r := CoerceGuid(fallback, StrV(s), GuidT, decl, culture, lib);
            !r.Success() && r.ErrorCode() == ErrorCodes.InvalidFormat
            && r.OriginalException().Some? && r.OriginalException().value.kind == FormatFault
  {
    assert ParseGuidD(Trim(s)).None?;
    assert ParseGuid(s, lib).Raised?;
  }

  /**
   * Text that is not a Guid in any form makes `Coerce` throw: code InvalidFormat, with the
   * parser's FormatException as the inner exception.
   */
  lemma DefaultCoerceBadGuid(s: string, target: TypeTag, culture: Culture, lib: Library)
    requires EffectiveType(target) == GuidT && !IsGuidText(Trim(s)) && lib.parseGuidOther(s).None?
    ensures var o := CoercionSpec.Coerce(Some(StrV(s)), target, DefaultCoercers(), culture, lib);
            o.Threw? && o.exception.errorCode == ErrorCodes.InvalidFormat
            && o.exception.inner.Some? && o.exception.inner.value.kind == FormatFault
  {
    DefaultLayout();
    GuidCoercerRefuses(s, FallbackTypeCoercer, target, culture, lib);
    GuidOwnerAt(StrV(s), target, DefaultCoercers(), culture, lib);
  }

  /** A value of no convertible kind, such as a plain `object`, to an integral type fails with ConversionFailed. */
  lemma DefaultInstanceToInteger(u: UserType, id: nat, target: TypeTag, culture: Culture, lib: Library)
    requires EffectiveType(target).IntT?
    ensures var r := CoercionSpec.TryCoerce(Some(InstanceV(u, id)), target, DefaultCoercers(), culture, lib);
            !r.Success() && r.ErrorCode() == ErrorCodes.ConversionFailed
  {
    DefaultIntegerTarget(InstanceV(u, id), target, culture, lib);
  }

  /**
   * `char` has no coercer of its own: text reaches the fallback, last in the list, which accepts
   * exactly a one-unit string and otherwise reports InvalidFormat.
   */
  lemma DefaultCharTarget(s: string, target: TypeTag, culture: Culture, lib: Library)
    requires EffectiveType(target) == CharT
    ensures var r := CoercionSpec.TryCoerce(Some(StrV(s)), target, DefaultCoercers(), culture, lib);
            (r.Success() <==> |s| == 1 && s[0] as int < 0x1_0000)
            && (r.Success() ==> r.Value() == Some(CharV(s[0] as int)))
            && (!r.Success() ==> r.ErrorCode() == ErrorCodes.InvalidFormat)
  {
    var cs := DefaultCoercers();
    DefaultLayout();
    NumericTypeShape(CharT);
    forall j | 0 <= j < 10
      ensures !Owns(cs[j], CharT)
    {
    }
    FallbackReadsChar(s, target, culture, lib);
    InterfaceRoutes(cs[10], StrV(s), CharT, target, culture, lib);
    OwnerDecides(StrV(s), target, cs, culture, lib, 10);
  }

  lemma FallbackReadsChar(s: string, decl: TypeTag, culture: Culture, lib: Library)
    ensures var r := CoerceFallback(StrV(s), CharT, decl, culture, lib);
            (r.Success() <==> |s| == 1 && s[0] as int < 0x1_0000)
            && (r.Success() ==> r.Value() == Some(CharV(s[0] as int)))
            && (!r.Success() ==> r.ErrorCode() == ErrorCodes.InvalidFormat)
  {
  }

  // ---------------------------------------------------------------------------
  // Enums

  /** `DayOfWeek`, the enum the library's tests use. */
  const DayOfWeek: EnumDecl := EnumDecl("DayOfWeek", Int32,
    [ EnumMember("Sunday", 0), EnumMember("Monday", 1), EnumMember("Tuesday", 2), EnumMember("Wednesday", 3),
      EnumMember("Thursday", 4), EnumMember("Friday", 5), EnumMember("Saturday", 6) ])

  /** A value that needs converting to an enum type goes to the enum coercer alone. */
  lemma EnumReaches(v: Obj, target: TypeTag, cs: seq<Coercer>, culture: Culture, lib: Library)
    requires IsEnum(EffectiveType(target)) && EnumTypeCoercer in cs
    requires !v.JsonV? && TypeOf(v) != EffectiveType(target)
    ensures CoercionSpec.TryCoerce(Some(v), target, cs, culture, lib) == CoerceEnum(v, EffectiveType(target), lib)
  {
    var eff := EffectiveType(target);
    assert !IsInstanceOfType(eff, v);
    InterfaceRoutes(EnumTypeCoercer, v, eff, target, culture, lib);
  }

  /**
   * Text for an enum that is not blank and not integer text resolves by name alone: it succeeds
   * exactly when some member's name matches it, trimmed and ignoring letter case, with that
   * member's value; every failure is InvalidEnumMember.
   */
  lemma EnumNameResolution(s: string, target: TypeTag, cs: seq<Coercer>, culture: Culture, lib: Library)
    requires IsEnum(EffectiveType(target)) && EnumTypeCoercer in cs
    requires !IsNullOrWhiteSpace(s) && IntegerSyntax(Trim(s)).None?
    ensures var r := CoercionSpec.TryCoerce(Some(StrV(s)), target, cs, culture, lib);
            var decl := EffectiveType(target).decl;
            (r.Success() <==> exists m :: m in decl.members && EqualsIgnoreCase(m.name, Trim(s)))
            && (r.Success() ==> exists m :: m in decl.members && EqualsIgnoreCase(m.name, Trim(s))
                                            && r.Value() == Some(EnumV(decl, m.value)))
            && (!r.Success() ==> r.ErrorCode() == ErrorCodes.InvalidEnumMember)
  {
    EnumReaches(StrV(s), target, cs, culture, lib);
    TrimmedNotBlank(s);
    NameCandidate(Trim(s), EffectiveType(target));
  }

  lemma TrimmedNotBlank(s: string)
    requires !IsNullOrWhiteSpace(s)
    ensures !IsNullOrWhiteSpace(Trim(s))
  {
    TrimEmptyIffWhiteSpace(s);
    assert !IsWhiteSpace(Trim(s)[0]);
  }

  lemma NameCandidate(t: string, eff: TypeTag)
    requires IsEnum(eff) && !IsNullOrWhiteSpace(t) && IntegerSyntax(t).None?
    ensures var r := CoerceEnumName(t, eff);
            (r.Success() <==> exists m :: m in eff.decl.members && EqualsIgnoreCase(m.name, t))
            && (r.Success() ==> exists m :: m in eff.decl.members && EqualsIgnoreCase(m.name, t)
                                            && r.Value() == Some(EnumV(eff.decl, m.value)))
            && (!r.Success() ==> r.ErrorCode() == ErrorCodes.InvalidEnumMember)
  {
  }

  /** Integer text in the 64-bit range is refused for an enum even when a member has that value. */
  lemma EnumIntegerTextRefused(s: string, target: TypeTag, cs: seq<Coercer>, culture: Culture, lib: Library)
    requires IsEnum(EffectiveType(target)) && EnumTypeCoercer in cs
    requires IntegerSyntax(Trim(s)).Some? && InRange(IntegerSyntax(Trim(s)).value, Int64)
    ensures var r := CoercionSpec.TryCoerce(Some(StrV(s)), target, cs, culture, lib);
            !r.Success() && r.ErrorCode() == ErrorCodes.InvalidEnumMember && StartsWith(r.Error(), NamesOnly)
  {
    EnumReaches(StrV(s), target, cs, culture, lib);
  }

  /** A value that is not text is declined for an enum with the names-only message, and dispatch returns that. */
  lemma EnumNonTextDeclined(v: Obj, target: TypeTag, cs: seq<Coercer>, culture: Culture, lib: Library)
    requires IsEnum(EffectiveType(target)) && EnumTypeCoercer in cs
    requires !v.StrV? && !v.JsonV? && TypeOf(v) != EffectiveType(target)
    ensures var r := CoercionSpec.TryCoerce(Some(v), target, cs, culture, lib);
            Declines(r) && StartsWith(r.Error(), NamesOnly)
  {
    EnumReaches(v, target, cs, culture, lib);
  }

  /** The first member matching a name is the one found. */
  lemma {:induction false} LookupFirst(members: seq<EnumMember>, name: string, n: nat)
    requires n < |members| && EqualsIgnoreCase(members[n].name, name)
    requires forall j :: 0 <= j < n ==> !EqualsIgnoreCase(members[j].name, name)
    ensures LookupName(members, name) == Some(members[n])
    decreases n
  {
    if n > 0 {
      LookupFirst(members[1..], name, n - 1);
    }
  }

  /** A bare letter word that names a DayOfWeek member, and no earlier one, coerces to that member. */
  lemma DayOfWeekName(s: string, n: nat, target: TypeTag, cs: seq<Coercer>, culture: Culture, lib: Library)
    requires EffectiveType(target) == EnumT(DayOfWeek) && EnumTypeCoercer in cs && n < 7
    requires |s| > 0 && forall i :: 0 <= i < |s| ==> 'A' <= s[i] <= 'Z' || 'a' <= s[i] <= 'z'
    requires EqualsIgnoreCase(DayOfWeek.members[n].name, s)
    requires forall j :: 0 <= j < n ==> !EqualsIgnoreCase(DayOfWeek.members[j].name, s)
    ensures CoercionSpec.TryCoerce(Some(StrV(s)), target, cs, culture, lib)
            == Ok(Some(EnumV(DayOfWeek, DayOfWeek.members[n].value)))
  {
    EnumReaches(StrV(s), target, cs, culture, lib);
    LookupFirst(DayOfWeek.members, s, n);
    LetterWordPlain(s);
    PlainNameResolves(s, EnumT(DayOfWeek), lib);
  }

  /** The enum coercer resolves text that needs no trimming and is neither blank nor integer text by name lookup alone. */
  lemma PlainNameResolves(s: string, eff: TypeTag, lib: Library)
    requires IsEnum(eff) && LookupName(eff.decl.members, s).Some?
    requires Trim(s) == s && !IsNullOrWhiteSpace(s) && IntegerSyntax(s).None?
    ensures CoerceEnum(StrV(s), eff, lib) == Ok(Some(EnumV(eff.decl, LookupName(eff.decl.members, s).value.value)))
  {
    var n := LookupName(eff.decl.members, s).value.value;
    assert EnumTryParse(eff.decl, s) == Some(n);
    assert CoerceEnumName(s, eff) == Ok(Some(EnumV(eff.decl, n)));
  }

  /** A bare letter word is its own trimmed text, is not blank and is not integer text. */
  lemma LetterWordPlain(s: string)
    requires |s| > 0 && forall i :: 0 <= i < |s| ==> 'A' <= s[i] <= 'Z' || 'a' <= s[i] <= 'z'
    ensures Trim(s) == s && !IsNullOrWhiteSpace(s) && IntegerSyntax(s).None?
  {
    var first, last := s[0], s[|s| - 1];
    assert 'A' <= first <= 'Z' || 'a' <= first <= 'z';
    assert 'A' <= last <= 'Z' || 'a' <= last <= 'z';
    assert !IsWhiteSpace(first) && !IsWhiteSpace(last);
    TrimByUntouched(s, IsWhiteSpace);
    LetterWordNotInteger(s);
  }

  lemma LetterWordNotInteger(s: string)
    requires |s| > 0 && forall i :: 0 <= i < |s| ==> 'A' <= s[i] <= 'Z' || 'a' <= s[i] <= 'z'
    ensures IntegerSyntax(s).None?
  {
    TrimByUntouched(s, IsNumberWhite);
    assert !IsDigit(s[0]) && s[0] != '+' && s[0] != '-';
  }

  /** The built-in list, position by position. */
  lemma DefaultLayout()
    ensures var cs := DefaultCoercers();
            |cs| == 11 && cs[0] == StringTypeCoercer && cs[1] == BoolTypeCoercer
            && cs[2] == GuidTypeCoercer(FallbackTypeCoercer) && cs[3] == EnumTypeCoercer
            && cs[4] == DateTimeTypeCoercer && cs[5] == DateTimeOffsetTypeCoercer
            && cs[6] == DateOnlyTypeCoercer(FallbackTypeCoercer) && cs[7] == TimeOnlyTypeCoercer(FallbackTypeCoercer)
            && cs[8] == TimeSpanTypeCoercer(FallbackTypeCoercer) && cs[9] == NumericTypeCoercer
            && cs[10] == FallbackTypeCoercer
  {
  }

  /** The built-in list routes enums to its enum coercer. */
  lemma DefaultHasEnumCoercer()
    ensures EnumTypeCoercer in DefaultCoercers()
  {
    assert DefaultCoercers()[3] == EnumTypeCoercer;
  }

  /** "tuesday" is DayOfWeek.Tuesday. */
  lemma DayOfWeekTuesday(culture: Culture, lib: Library)
    ensures CoercionSpec.TryCoerce(Some(StrV("tuesday")), EnumT(DayOfWeek), DefaultCoercers(), culture, lib)
            == Ok(Some(EnumV(DayOfWeek, 2)))
  {
    DefaultHasEnumCoercer();
    DayOfWeekName("tuesday", 2, EnumT(DayOfWeek), DefaultCoercers(), culture, lib);
  }

  /** "FRIDAY" is DayOfWeek.Friday. */
  lemma DayOfWeekFriday(culture: Culture, lib: Library)
    ensures CoercionSpec.TryCoerce(Some(StrV("FRIDAY")), EnumT(DayOfWeek), DefaultCoercers(), culture, lib)
            == Ok(Some(EnumV(DayOfWeek, 5)))
  {
    var m := DayOfWeek.members;
    assert ToLowerAscii(m[0].name[0]) != ToLowerAscii("FRIDAY"[0]);
    assert ToLowerAscii(m[1].name[0]) != ToLowerAscii("FRIDAY"[0]);
    DefaultHasEnumCoercer();
    DayOfWeekName("FRIDAY", 5, EnumT(DayOfWeek), DefaultCoercers(), culture, lib);
  }

  /** "Monday" is DayOfWeek.Monday. */
  lemma DayOfWeekMonday(culture: Culture, lib: Library)
    ensures CoercionSpec.TryCoerce(Some(StrV("Monday")), EnumT(DayOfWeek), DefaultCoercers(), culture, lib)
            == Ok(Some(EnumV(DayOfWeek, 1)))
  {
    assert ToLowerAscii(DayOfWeek.members[0].name[0]) != ToLowerAscii("Monday"[0]);
    DefaultHasEnumCoercer();
    DayOfWeekName("Monday", 1, EnumT(DayOfWeek), DefaultCoercers(), culture, lib);
  }

  /** "Tuesday" is DayOfWeek.Tuesday for the nullable `DayOfWeek?` as well. */
  lemma NullableDayOfWeekTuesday(culture: Culture, lib: Library)
    ensures CoercionSpec.TryCoerce(Some(StrV("Tuesday")), NullableT(EnumT(DayOfWeek)), DefaultCoercers(), culture, lib)
            == Ok(Some(EnumV(DayOfWeek, 2)))
  {
    DefaultHasEnumCoercer();
    DayOfWeekName("Tuesday", 2, NullableT(EnumT(DayOfWeek)), DefaultCoercers(), culture, lib);
  }

  /** "1" is refused for DayOfWeek although Monday has the value 1. */
  lemma DayOfWeekNumericText(culture: Culture, lib: Library)
    ensures var r := CoercionSpec.TryCoerce(Some(StrV("1")), EnumT(DayOfWeek), DefaultCoercers(), culture, lib);
            !r.Success() && r.ErrorCode() == ErrorCodes.InvalidEnumMember && StartsWith(r.Error(), NamesOnly)
  {
    DefaultHasEnumCoercer();
    NumericTextAt("1", EnumT(DayOfWeek), DefaultCoercers(), culture, lib);
  }

  lemma NumericTextAt(s: string, target: TypeTag, cs: seq<Coercer>, culture: Culture, lib: Library)
    requires |s| == 1 && s[0] == '1' && IsEnum(EffectiveType(target)) && EnumTypeCoercer in cs
    ensures var r := CoercionSpec.TryCoerce(Some(StrV(s)), target, cs, culture, lib);
            !r.Success() && r.ErrorCode() == ErrorCodes.InvalidEnumMember && StartsWith(r.Error(), NamesOnly)
  {
    OneIsInt64Text(s);
    EnumIntegerTextRefused(s, target, cs, culture, lib);
  }

  lemma OneIsInt64Text(s: string)
    requires |s| == 1 && s[0] == '1'
    ensures IntegerSyntax(Trim(s)).Some? && InRange(IntegerSyntax(Trim(s)).value, Int64)
  {
    OneIsIntegerText(s);
  }

  lemma OneIsIntegerText(s: string)
    requires |s| == 1 && s[0] == '1'
    ensures IntegerSyntax(Trim(s)) == Some(1)
  {
    TrimByUntouched(s, IsNumberWhite);
    TrimByUntouched(s, IsWhiteSpace);
    assert s[0..] == s;
    assert DigitsValue(s) == 1;
  }

  /** The number 1 is declined for DayOfWeek with the names-only message. */
  lemma DayOfWeekNumber(culture: Culture, lib: Library)
    ensures var r := CoercionSpec.TryCoerce(Some(IntV(Int32, 1)), EnumT(DayOfWeek), DefaultCoercers(), culture, lib);
            !r.Success() && r.ErrorCode() == ErrorCodes.UnsupportedSourceType && StartsWith(r.Error(), NamesOnly)
  {
    DefaultHasEnumCoercer();
    EnumNonTextDeclined(IntV(Int32, 1), EnumT(DayOfWeek), DefaultCoercers(), culture, lib);
  }

  /** "NotADay" names no DayOfWeek member. */
  lemma DayOfWeekUnknown(culture: Culture, lib: Library)
    ensures var r := CoercionSpec.TryCoerce(Some(StrV("NotADay")), EnumT(DayOfWeek), DefaultCoercers(), culture, lib);
            !r.Success() && r.ErrorCode() == ErrorCodes.InvalidEnumMember
  {
    var t := "NotADay";
    LetterWordPlain(t);
    NoDayCalled(t);
    DefaultHasEnumCoercer();
    EnumNameResolution(t, EnumT(DayOfWeek), DefaultCoercers(), culture, lib);
  }

  lemma NoDayCalled(t: string)
    requires t == "NotADay"
    ensures forall m :: m in DayOfWeek.members ==> !EqualsIgnoreCase(m.name, t)
  {
    forall m | m in DayOfWeek.members
      ensures !EqualsIgnoreCase(m.name, t)
    {
      if |m.name| == |t| {
        assert ToLowerAscii(m.name[0]) != ToLowerAscii(t[0]);
      }
    }
  }

  // ---------------------------------------------------------------------------
  // Numbers, text and bools through the built-in list

  /** "123" is the integer 123. */
  lemma Text123()
    ensures IntegerSyntax("123") == Some(123)
  {
    FormatIntegerRoundTrip(123);
    assert FormatInteger(123) == "123";
  }

  /** "123" to `int` is 123. */
  lemma StringToInt(culture: Culture, lib: Library)
    ensures CoercionSpec.TryCoerce(Some(StrV("123")), IntT(Int32), DefaultCoercers(), culture, lib) == Ok(Some(IntV(Int32, 123)))
  {
    Text123();
    IntegerTextAccepted("123", 123, Int32, culture, lib);
  }

  function Pow10(n: nat): (p: nat)
    ensures p >= 1
  {
    if n == 0 then 1 else 10 * Pow10(n - 1)
  }

  lemma {:induction false} Pow10Add(a: nat, b: nat)
    ensures Pow10(a + b) == Pow10(a) * Pow10(b)
    decreases a
  {
    if a > 0 {
      Pow10Add(a - 1, b);
    }
  }

  /** A run of `n` nines. */
  function Nines(n: nat): (s: string)
    ensures |s| == n && AllDigits(s)
  {
    seq(n, _ => '9')
  }

  lemma {:induction false} NinesValue(n: nat)
    ensures DigitsValue(Nines(n)) == Pow10(n) - 1
  {
    if n > 0 {
      assert Nines(n)[..n - 1] == Nines(n - 1);
      NinesValue(n - 1);
    }
  }

  /** A run of nines is integer text. */
  lemma NinesText(n: nat)
    requires n > 0
    ensures IntegerSyntax(Nines(n)) == Some(Pow10(n) - 1)
  {
    TrimByUntouched(Nines(n), IsNumberWhite);
    NinesValue(n);
  }

  /** A run of nines too large for an integral kind overflows it. */
  lemma NinesOverflow(n: nat, k: IntKind, culture: Culture, lib: Library)
    requires n > 0 && Pow10(n) - 1 > MaxValue(k)
    ensures var r := CoercionSpec.TryCoerce(Some(StrV(Nines(n))), IntT(k), DefaultCoercers(), culture, lib);
            !r.Success() && r.ErrorCode() == ErrorCodes.Overflow
  {
    NinesText(n);
    IntegerTextOverflows(Nines(n), k, culture, lib);
  }

  /** Twenty nines, "99999999999999999999", to `int` overflow. */
  lemma StringToIntOverflow(culture: Culture, lib: Library)
    ensures var r := CoercionSpec.TryCoerce(Some(StrV(Nines(20))), IntT(Int32), DefaultCoercers(), culture, lib);
            !r.Success() && r.ErrorCode() == ErrorCodes.Overflow
  {
    assert Pow10(5) == 100000;
    Pow10Add(5, 5);
    Pow10Add(10, 10);
    NinesOverflow(20, Int32, culture, lib);
  }

  /** "not-a-number" to `int` is InvalidFormat. */
  lemma StringToIntInvalid(culture: Culture, lib: Library)
    ensures var r := CoercionSpec.TryCoerce(Some(StrV("not-a-number")), IntT(Int32), DefaultCoercers(), culture, lib);
            !r.Success() && r.ErrorCode() == ErrorCodes.InvalidFormat
  {
    LetterInitialNotInteger("not-a-number");
    DefaultIntegerText("not-a-number", IntT(Int32), culture, lib);
  }

  lemma LetterInitialNotInteger(s: string)
    requires |s| > 0 && 'a' <= s[0] <= 'z'
    ensures IntegerSyntax(s).None?
  {
    assert !IsNumberWhite(s[0]);
    assert TrimBy(s, IsNumberWhite)[0] == s[0];
  }

  /**
   * The text of an integral kind's extreme value coerces back to it at that kind: int.MaxValue's
   * text to `int`, long.MaxValue's to `long`.
   */
  lemma ExtremeTextFits(n: int, k: IntKind, culture: Culture, lib: Library)
    requires n == MinValue(k) || n == MaxValue(k)
    ensures CoercionSpec.TryCoerce(Some(StrV(FormatInteger(n))), IntT(k), DefaultCoercers(), culture, lib) == Ok(Some(IntV(k, n)))
  {
    FormatIntegerRoundTrip(n);
    IntegerTextAccepted(FormatInteger(n), n, k, culture, lib);
  }

  /**
   * The text of an integer outside an integral kind's range overflows that kind: long.MaxValue's
   * text to `int`, int.MinValue's to `uint`.
   */
  lemma TextOverflows(n: int, k: IntKind, culture: Culture, lib: Library)
    requires !InRange(n, k)
    ensures var r := CoercionSpec.TryCoerce(Some(StrV(FormatInteger(n))), IntT(k), DefaultCoercers(), culture, lib);
            !r.Success() && r.ErrorCode() == ErrorCodes.Overflow
  {
    FormatIntegerRoundTrip(n);
    IntegerTextOverflows(FormatInteger(n), k, culture, lib);
  }

  /** An integer to `string` is its decimal text, which reads back as the same integer. */
  lemma IntegerToString(n: int, k: IntKind, culture: Culture, lib: Library)
    ensures CoercionSpec.TryCoerce(Some(IntV(k, n)), StringT, DefaultCoercers(), culture, lib) == Ok(Some(StrV(FormatInteger(n))))
    ensures IntegerSyntax(FormatInteger(n)) == Some(n)
  {
    DefaultStringTarget(IntV(k, n), StringT, culture, lib);
    FormatIntegerRoundTrip(n);
  }

  /** The integer 42 to `string` is "42". */
  lemma IntToString(culture: Culture, lib: Library)
    ensures CoercionSpec.TryCoerce(Some(IntV(Int32, 42)), StringT, DefaultCoercers(), culture, lib) == Ok(Some(StrV("42")))
  {
    FortyTwoText();
    IntegerToString(42, Int32, culture, lib);
  }

  /** The invariant text of 42. */
  lemma FortyTwoText()
    ensures FormatInteger(42) == "42"
  {
  }

  /** The integer 42 to `decimal` is exactly 42. */
  lemma IntToDecimal(culture: Culture, lib: Library)
    ensures CoercionSpec.TryCoerce(Some(IntV(Int32, 42)), DecimalT, DefaultCoercers(), culture, lib) == Ok(Some(DecimalV(42.0)))
  {
    assert CoerceNumeric(IntV(Int32, 42), DecimalT, DecimalT, culture, lib) == Ok(Some(DecimalV(42.0)));
    DefaultNumericDispatch(IntV(Int32, 42), DecimalT, DecimalT, culture, lib);
  }

  /**
   * "True" and "False" in any letter case, such as "true", "TRUE" or "False", are the bools they
   * name.
   */
  lemma BoolWord(s: string, b: bool, culture: Culture, lib: Library)
    requires EqualsIgnoreCase(s, if b then "True" else "False")
    ensures CoercionSpec.TryCoerce(Some(StrV(s)), BoolT, DefaultCoercers(), culture, lib) == Ok(Some(BoolV(b)))
  {
    BareWordUntrimmed(s, if b then "True" else "False");
    DefaultBoolTarget(StrV(s), BoolT, culture, lib);
  }

  /** "not-a-bool" is InvalidFormat. */
  lemma OtherToBool(culture: Culture, lib: Library)
    ensures var r := CoercionSpec.TryCoerce(Some(StrV("not-a-bool")), BoolT, DefaultCoercers(), culture, lib);
            !r.Success() && r.ErrorCode() == ErrorCodes.InvalidFormat
  {
    var s := "not-a-bool";
    assert !IsWhiteOrNul(s[0]) && !IsWhiteOrNul(s[|s| - 1]);
    TrimByUntouched(s, IsWhiteOrNul);
    DefaultBoolTarget(StrV(s), BoolT, culture, lib);
  }

  /** The numbers 1 and 0 are true and false. */
  lemma NumberToBool(culture: Culture, lib: Library)
    ensures CoercionSpec.TryCoerce(Some(IntV(Int32, 1)), BoolT, DefaultCoercers(), culture, lib) == Ok(Some(BoolV(true)))
    ensures CoercionSpec.TryCoerce(Some(IntV(Int32, 0)), BoolT, DefaultCoercers(), culture, lib) == Ok(Some(BoolV(false)))
  {
    DefaultBoolTarget(IntV(Int32, 1), BoolT, culture, lib);
    DefaultBoolTarget(IntV(Int32, 0), BoolT, culture, lib);
  }

  /** "A" to `char` is 'A', by way of the fallback. */
  lemma StringToChar(culture: Culture, lib: Library)
    ensures CoercionSpec.TryCoerce(Some(StrV("A")), CharT, DefaultCoercers(), culture, lib) == Ok(Some(CharV('A' as int)))
  {
    DefaultCharTarget("A", CharT, culture, lib);
  }
}

=== FILE: results.dfy ===
/**
 * `CoercionResult` (TypeCoercion/CoercionResult.cs) and `CoercionResult<T>`
 * (TypeCoercion/CoercionResultOfT.cs). The private five-field constructor is only ever
 * reached through `Ok` and `Fail`, so the struct is modelled by those two shapes and its
 * properties become member functions.
 */
module Results {
  import opened Wrappers
  import opened ClrTypes
  import ErrorCodes
  import opened Faults

  /** The outcome of one coercion: a (possibly null) value, or a message, a code and an optional exception. */
  datatype CoercionResult =
    | Succeeded(val: Option<Obj>)
    | Failed(message: string, code: ErrorCodes.CoercionErrorCode, cause: Option<Fault>)
  {
    /** `Success`. */
    predicate Success()
    {
      Succeeded?
    }

    /** `Value`: null on failure. */
    function Value(): (v: Option<Obj>)
      ensures Failed? ==> v == None
    {
      if Succeeded? then val else None
    }

    /** `Error`: the empty string on success. */
    function Error(): (e: string)
      ensures Succeeded? ==> e == ""
    {
      if Succeeded? then "" else message
    }

    /** `ErrorCode`: `None` on success. */
    function ErrorCode(): (c: ErrorCodes.CoercionErrorCode)
      ensures Succeeded? ==> c == ErrorCodes.None
    {
      if Succeeded? then ErrorCodes.None else code
    }

    /** `OriginalException`: only a failure built with an exception carries one. */
    function OriginalException(): (x: Option<Fault>)
      ensures Succeeded? ==> x == None
    {
      if Succeeded? then None else cause
    }
  }

  /** `CoercionResult.Ok(value)`. */
  function Ok(value: Option<Obj>): (r: CoercionResult)
    ensures r.Success() && r.Value() == value
    ensures r.Error() == "" && r.ErrorCode() == ErrorCodes.None && r.OriginalException() == None
  {
    Succeeded(value)
  }

  /** `CoercionResult.Fail(error, errorCode)`. */
  function Fail(error: string, errorCode: ErrorCodes.CoercionErrorCode): (r: CoercionResult)
    ensures !r.Success() && r.Value() == None
    ensures r.Error() == error && r.ErrorCode() == errorCode && r.OriginalException() == None
  {
    Failed(error, errorCode, None)
  }

  /** `CoercionResult.Fail(error, errorCode, originalException)`. */
  function FailWith(error: string, errorCode: ErrorCodes.CoercionErrorCode, originalException: Fault): (r: CoercionResult)
    ensures !r.Success() && r.Value() == None
    ensures r.Error() == error && r.ErrorCode() == errorCode
    ensures r.OriginalException() == Some(originalException)
  {
    Failed(error, errorCode, Some(originalException))
  }

  /**
   * `default(CoercionResult)`: every field zero-initialised, so a failure that carries the code
   * of success. (Its `Error` is null in C#; the model shows that as the empty string.)
   */
  function DefaultResult(): (r: CoercionResult)
    ensures !r.Success() && r.Value() == None && r.OriginalException() == None
    ensures r.ErrorCode() == ErrorCodes.None
  {
    Failed("", ErrorCodes.ZeroCode(), None)
  }

  /** `IEquatable<CoercionResult>.Equals`: success, value, message and code; the exception is ignored. */
  predicate Equals(a: CoercionResult, b: CoercionResult)
  {
    a.Success() == b.Success() && a.Value() == b.Value() && a.Error() == b.Error()
    && a.ErrorCode() == b.ErrorCode()
  }

  /** `operator ==`. */
  predicate OpEquals(a: CoercionResult, b: CoercionResult)
  {
    Equals(a, b)
  }

  /** `operator !=`. */
  predicate OpNotEquals(a: CoercionResult, b: CoercionResult)
  {
    !Equals(a, b)
  }

  /**
   * `GetHashCode`: `HashCode.Combine` of the four compared properties. `combine` stands for
   * `HashCode.Combine`, whose seed is chosen per process.
   */
  function Hash(r: CoercionResult, combine: (bool, Option<Obj>, string, ErrorCodes.CoercionErrorCode) -> int): int
  {
    combine(r.Success(), r.Value(), r.Error(), r.ErrorCode())
  }

  /** Two failures that differ only in their exception are equal. */
  lemma EqualsIgnoresException(message: string, code: ErrorCodes.CoercionErrorCode, f: Fault)
    ensures Equals(FailWith(message, code, f), Fail(message, code))
    ensures FailWith(message, code, f) != Fail(message, code)
  {
  }

  /** `Equals` is an equivalence that agrees with equality of the four projections. */
  lemma EqualsIsEquivalence(a: CoercionResult, b: CoercionResult, c: CoercionResult)
    ensures Equals(a, a)
    ensures Equals(a, b) ==> Equals(b, a)
    ensures Equals(a, b) && Equals(b, c) ==> Equals(a, c)
    ensures OpEquals(a, b) != OpNotEquals(a, b)
  {
  }

  /** Equal results hash alike, whatever the combining function. */
  lemma EqualsHashAlike(a: CoercionResult, b: CoercionResult,
                        combine: (bool, Option<Obj>, string, ErrorCodes.CoercionErrorCode) -> int)
    requires Equals(a, b)
    ensures Hash(a, combine) == Hash(b, combine)
  {
  }

  /** Equality of results forgets only the exception: equal results with the same exception are identical. */
  lemma EqualsDeterminesResult(a: CoercionResult, b: CoercionResult)
    requires Equals(a, b) && a.OriginalException() == b.OriginalException()
    ensures a == b
  {
  }

  // ---------------------------------------------------------------------------
  // CoercionResult<T>

  /** `CoercionResult<T>`: the typed counterpart, with the same two shapes. */
  datatype TypedResult<T> =
    | TypedSucceeded(value: T)
    | TypedFailed(message: string, code: ErrorCodes.CoercionErrorCode, cause: Option<Fault>)
  {
    predicate Success()
    {
      TypedSucceeded?
    }

    /** `Value`: `default(T)` on failure, passed in as `zero`. */
    function Value(zero: T): (v: T)
      ensures TypedFailed? ==> v == zero
    {
      if TypedSucceeded? then value else zero
    }

    function Error(): (e: string)
      ensures TypedSucceeded? ==> e == ""
    {
      if TypedSucceeded? then "" else message
    }

    function ErrorCode(): (c: ErrorCodes.CoercionErrorCode)
      ensures TypedSucceeded? ==> c == ErrorCodes.None
    {
      if TypedSucceeded? then ErrorCodes.None else code
    }

    function OriginalException(): (x: Option<Fault>)
      ensures TypedSucceeded? ==> x == None
    {
      if TypedSucceeded? then None else cause
    }
  }

  /** `CoercionResult<T>.Ok(value)`. */
  function TypedOk<T>(value: T): (r: TypedResult<T>)
    ensures r.Success() && r.Value(value) == value
    ensures r.Error() == "" && r.ErrorCode() == ErrorCodes.None && r.OriginalException() == None
  {
    TypedSucceeded(value)
  }

  /** `CoercionResult<T>.Fail(error, errorCode, originalException = null)`. */
  function TypedFail<T>(error: string, errorCode: ErrorCodes.CoercionErrorCode, originalException: Option<Fault>): (r: TypedResult<T>)
    ensures !r.Success()
    ensures r.Error() == error && r.ErrorCode() == errorCode && r.OriginalException() == originalException
  {
    TypedFailed(error, errorCode, originalException)
  }

  /**
   * The implicit conversion to the untyped result. `box` is the boxing of a `T`, which
   * yields null for a null `T`.
   */
  function Widen<T>(r: TypedResult<T>, box: T -> Option<Obj>): (w: CoercionResult)
    ensures w.Success() == r.Success()
    ensures r.Success() ==> w.Value() == box(r.value)
    ensures w.Error() == r.Error() && w.ErrorCode() == r.ErrorCode()
    ensures w.OriginalException() == r.OriginalException()
  {
    if r.TypedSucceeded? then Ok(box(r.value))
    else Failed(r.message, r.code, r.cause)
  }

  /**
   * `IEquatable<CoercionResult<T>>.Equals`, with `EqualityComparer<T>.Default` as plain equality:
   * two successes are equal when their values are, two failures when their messages and codes
   * are, whatever `default(T)` is and whatever exceptions they carry.
   */
  predicate TypedEquals<T(==)>(a: TypedResult<T>, b: TypedResult<T>, zero: T)
    ensures TypedEquals(a, b, zero) <==>
              (a.TypedSucceeded? && b.TypedSucceeded? && a.value == b.value)
              || (a.TypedFailed? && b.TypedFailed? && a.message == b.message && a.code == b.code)
  {
    a.Success() == b.Success() && a.Value(zero) == b.Value(zero) && a.Error() == b.Error()
    && a.ErrorCode() == b.ErrorCode()
  }

  /** `CoercionResult<T>.operator ==`. */
  predicate TypedOpEquals<T(==)>(a: TypedResult<T>, b: TypedResult<T>, zero: T)
  {
    TypedEquals(a, b, zero)
  }

  /** `CoercionResult<T>.operator !=`. */
  predicate TypedOpNotEquals<T(==)>(a: TypedResult<T>, b: TypedResult<T>, zero: T)
  {
    !TypedEquals(a, b, zero)
  }

  /** `CoercionResult<T>.GetHashCode`: `HashCode.Combine` of the four compared properties. */
  function TypedHash<T>(r: TypedResult<T>, zero: T, combine: (bool, T, string, ErrorCodes.CoercionErrorCode) -> int): int
  {
    combine(r.Success(), r.Value(zero), r.Error(), r.ErrorCode())
  }

  /** Two typed failures that differ only in their exception are equal. */
  lemma TypedEqualsIgnoresException<T>(message: string, code: ErrorCodes.CoercionErrorCode, f: Fault, zero: T)
    ensures TypedEquals(TypedFail<T>(message, code, Some(f)), TypedFail<T>(message, code, None), zero)
    ensures TypedFail<T>(message, code, Some(f)) != TypedFail<T>(message, code, None)
  {
  }

  /** Typed `Equals` is an equivalence, and `!=` is the negation of `==`. */
  lemma TypedEqualsIsEquivalence<T>(a: TypedResult<T>, b: TypedResult<T>, c: TypedResult<T>, zero: T)
    ensures TypedEquals(a, a, zero)
    ensures TypedEquals(a, b, zero) ==> TypedEquals(b, a, zero)
    ensures TypedEquals(a, b, zero) && TypedEquals(b, c, zero) ==> TypedEquals(a, c, zero)
    ensures TypedOpEquals(a, b, zero) != TypedOpNotEquals(a, b, zero)
  {
  }

  /** Equal typed results hash alike, whatever the combining function. */
  lemma TypedEqualsHashAlike<T>(a: TypedResult<T>, b: TypedResult<T>, zero: T,
                                    combine: (bool, T, string, ErrorCodes.CoercionErrorCode) -> int)
    requires TypedEquals(a, b, zero)
    ensures TypedHash(a, zero, combine) == TypedHash(b, zero, combine)
  {
  }

  /** Typed equality forgets only the exception: equal results with the same exception are identical. */
  lemma TypedEqualsDeterminesResult<T>(a: TypedResult<T>, b: TypedResult<T>, zero: T)
    requires TypedEquals(a, b, zero) && a.OriginalException() == b.OriginalException()
    ensures a == b
  {
  }

  /** Widening keeps equality when boxing is injective. */
  lemma WidenPreservesEquals<T>(a: TypedResult<T>, b: TypedResult<T>, zero: T, box: T -> Option<Obj>)
    requires forall x, y :: box(x) == box(y) ==> x == y
    ensures TypedEquals(a, b, zero) <==> Equals(Widen(a, box), Widen(b, box))
  {
  }
}

=== FILE: text.dfy ===
/**
 * The pieces of .NET text handling the coercers rely on and whose behaviour the model
 * states exactly: `Char.IsWhiteSpace` and `String.Trim`, ordinal case-insensitive
 * comparison, integer parsing under `NumberStyles.Integer` with invariant signs, decimal
 * integer formatting, and the canonical ("D") text form of a `Guid`.
 */
module Text {
  import opened Wrappers
  import opened ClrTypes

  // ---------------------------------------------------------------------------
  // White space and trimming

  /** `Char.IsWhiteSpace`: the Unicode space separators, line/paragraph separators and the C0/C1 controls it lists. */
  predicate IsWhiteSpace(c: char)
  {
    ('\U{9}' <= c <= '\U{D}') || c == '\U{20}' || c == '\U{85}' || c == '\U{A0}' || c == '\U{1680}'
    || ('\U{2000}' <= c <= '\U{200A}') || c == '\U{2028}' || c == '\U{2029}' || c == '\U{202F}'
    || c == '\U{205F}' || c == '\U{3000}'
  }

  /** White space accepted around numbers by `NumberStyles.AllowLeadingWhite | AllowTrailingWhite`. */
  predicate IsNumberWhite(c: char)
  {
    ('\U{9}' <= c <= '\U{D}') || c == '\U{20}'
  }

  /** What `bool.Parse` strips before its second comparison: white space and NUL. */
  predicate IsWhiteOrNul(c: char)
  {
    IsWhiteSpace(c) || c == '\U{0}'
  }

  /** The number of leading characters satisfying `p`. */
  function LeadingCount(s: string, p: char -> bool): (n: nat)
    ensures n <= |s|
    ensures forall i :: 0 <= i < n ==> p(s[i])
    ensures n < |s| ==> !p(s[n])
  {
    if |s| == 0 || !p(s[0]) then 0 else 1 + LeadingCount(s[1..], p)
  }

  /** The number of trailing characters satisfying `p`. */
  function TrailingCount(s: string, p: char -> bool): (n: nat)
    ensures n <= |s|
    ensures forall i :: |s| - n <= i < |s| ==> p(s[i])
    ensures n < |s| ==> !p(s[|s| - n - 1])
  {
    if |s| == 0 || !p(s[|s| - 1]) then 0 else 1 + TrailingCount(s[..|s| - 1], p)
  }

  /** Removes every leading and trailing character satisfying `p`. */
  function TrimBy(s: string, p: char -> bool): (r: string)
    ensures |r| <= |s|
    ensures |r| > 0 ==> !p(r[0]) && !p(r[|r| - 1])
    ensures (forall i :: 0 <= i < |s| ==> p(s[i])) <==> r == []
  {
    var lead := LeadingCount(s, p);
    if lead == |s| then [] else
      var rest := s[lead..];
      var trail := TrailingCount(rest, p);
      assert trail < |rest| by { assert !p(rest[0]); }
      assert !p(s[lead]);
      rest[..|rest| - trail]
  }

  /** Trimming changes nothing when neither end satisfies `p`. */
  lemma TrimByUntouched(s: string, p: char -> bool)
    requires |s| > 0 ==> !p(s[0]) && !p(s[|s| - 1])
    ensures TrimBy(s, p) == s
  {
    if |s| > 0 {
      assert LeadingCount(s, p) == 0;
      assert TrailingCount(s, p) == 0;
    }
  }

  /** `String.Trim()`. */
  function Trim(s: string): (r: string)
    ensures |r| > 0 ==> !IsWhiteSpace(r[0]) && !IsWhiteSpace(r[|r| - 1])
  {
    TrimBy(s, IsWhiteSpace)
  }

  /** `String.IsNullOrWhiteSpace` on a non-null string. */
  predicate IsNullOrWhiteSpace(s: string)
  {
    forall i :: 0 <= i < |s| ==> IsWhiteSpace(s[i])
  }

  lemma TrimEmptyIffWhiteSpace(s: string)
    ensures Trim(s) == [] <==> IsNullOrWhiteSpace(s)
  {
  }

  // ---------------------------------------------------------------------------
  // Ordinal case-insensitive comparison (ASCII letters folded)

  function ToLowerAscii(c: char): (d: char)
    ensures 'A' <= c <= 'Z' ==> 'a' <= d <= 'z'
    ensures !('A' <= c <= 'Z') ==> d == c
  {
    if 'A' <= c <= 'Z' then (c as int + 32) as char else c
  }

  predicate EqualsIgnoreCase(a: string, b: string)
  {
    |a| == |b| && forall i :: 0 <= i < |a| ==> ToLowerAscii(a[i]) == ToLowerAscii(b[i])
  }

  // ---------------------------------------------------------------------------
  // Decimal integers

  predicate IsDigit(c: char)
  {
    '0' <= c <= '9'
  }

  predicate AllDigits(s: string)
  {
    forall i :: 0 <= i < |s| ==> IsDigit(s[i])
  }

  function DigitValue(c: char): (d: nat)
    requires IsDigit(c)
    ensures d < 10
  {
    c as int - '0' as int
  }

  function DigitChar(d: nat): (c: char)
    requires d < 10
    ensures IsDigit(c) && DigitValue(c) == d
  {
    ('0' as int + d) as char
  }

  /** The value of a string of decimal digits, most significant first. */
  function DigitsValue(s: string): nat
    requires AllDigits(s)
  {
    if |s| == 0 then 0 else 10 * DigitsValue(s[..|s| - 1]) + DigitValue(s[|s| - 1])
  }

  /** The shortest decimal representation of `n`. */
  function FormatNat(n: nat): (s: string)
    ensures |s| > 0 && AllDigits(s)
    ensures |s| > 1 ==> s[0] != '0'
    decreases n
  {
    if n < 10 then [DigitChar(n)] else FormatNat(n / 10) + [DigitChar(n % 10)]
  }

  lemma {:induction false} FormatNatValue(n: nat)
    ensures DigitsValue(FormatNat(n)) == n
    decreases n
  {
    if n >= 10 {
      var s := FormatNat(n);
      assert s[..|s| - 1] == FormatNat(n / 10);
      FormatNatValue(n / 10);
    }
  }

  /** `Int64.ToString()` under the invariant culture: a minus sign for negatives, then the digits. */
  function FormatInteger(n: int): (s: string)
    ensures |s| > 0 && !IsNumberWhite(s[0]) && !IsNumberWhite(s[|s| - 1])
    ensures n < 0 <==> s[0] == '-'
  {
    if n < 0 then "-" + FormatNat(-n) else FormatNat(n)
  }

  /** The text without the run of NUL characters at its end, which number parsing ignores. */
  function DropTrailingNuls(s: string): (r: string)
    ensures r <= s
    ensures |r| == 0 || r[|r| - 1] != '\0'
    ensures forall i :: |r| <= i < |s| ==> s[i] == '\0'
  {
    if |s| > 0 && s[|s| - 1] == '\0' then DropTrailingNuls(s[..|s| - 1]) else s
  }

  /**
   * The syntax of `NumberStyles.Integer` with the invariant culture's signs: optional white
   * space, an optional `+` or `-`, one or more ASCII digits, optional white space, and then any
   * number of NUL characters, which .NET's parser accepts at the very end. The result is the
   * mathematical value; whether it fits a given width is decided by the caller.
   */
  function IntegerSyntax(s: string): (r: Option<int>)
    ensures r.Some? ==> exists i :: 0 <= i < |s| && IsDigit(s[i])
  {
    var t := TrimBy(DropTrailingNuls(s), IsNumberWhite);
    var r := SignedDigits(t);
    if r.Some? then
      WitnessDigit(s, t);
      r
    else r
  }

  /** An optional `+` or `-` followed by one or more ASCII digits, and nothing else. */
  function SignedDigits(t: string): (r: Option<int>)
    ensures r.Some? ==> exists i :: 0 <= i < |t| && IsDigit(t[i])
  {
    if |t| == 0 then None
    else
      var signed := t[0] == '+' || t[0] == '-';
      var body := if signed then t[1..] else t;
      if |body| == 0 || !AllDigits(body) then None
      else
        assert t[|t| - 1] == body[|body| - 1];
        Some(if t[0] == '-' then -(DigitsValue(body) as int) else DigitsValue(body))
  }

  lemma WitnessDigit(s: string, t: string)
    requires t == TrimBy(DropTrailingNuls(s), IsNumberWhite) && exists i :: 0 <= i < |t| && IsDigit(t[i])
    ensures exists i :: 0 <= i < |s| && IsDigit(s[i])
  {
    var u := DropTrailingNuls(s);
    var k :| 0 <= k < |t| && IsDigit(t[k]);
    var i := WitnessTrimmed(u, t, k);
    assert s[i] == u[i];
  }

  lemma WitnessTrimmed(s: string, t: string, k: nat) returns (i: nat)
    requires t == TrimBy(s, IsNumberWhite) && k < |t|
    ensures i < |s| && s[i] == t[k]
  {
    i := LeadingCount(s, IsNumberWhite) + k;
  }

  /** A NUL at the end of integer text changes nothing: `"12\0"` reads as 12. */
  lemma TrailingNulIgnored(u: string)
    requires |u| > 0 && u[|u| - 1] == '\0'
    ensures IntegerSyntax(u) == IntegerSyntax(u[..|u| - 1])
  {
    assert DropTrailingNuls(u) == DropTrailingNuls(u[..|u| - 1]);
  }

  /** An integer's text followed by a NUL reads back as the integer. */
  lemma NulTerminatedRoundTrip(n: int)
    ensures IntegerSyntax(FormatInteger(n) + "\0") == Some(n)
  {
    var u := FormatInteger(n) + "\0";
    TrailingNulIgnored(u);
    assert u[..|u| - 1] == FormatInteger(n);
    FormatIntegerRoundTrip(n);
  }

  /** NULs are accepted only at the very end: white space after a NUL is refused. */
  lemma NulThenWhiteRefused()
    ensures IntegerSyntax("12\0 ") == None
  {
    var u := "12\0 ";
    assert DropTrailingNuls(u) == u;
    assert LeadingCount(u, IsNumberWhite) == 0;
    assert TrailingCount(u, IsNumberWhite) == 1;
    var t := TrimBy(u, IsNumberWhite);
    assert t == "12\0";
    assert !IsDigit(t[2]);
  }

  /** Integer text round-trips: what `FormatInteger` writes, `IntegerSyntax` reads back. */
  lemma FormatIntegerRoundTrip(n: int)
    ensures IntegerSyntax(FormatInteger(n)) == Some(n)
  {
    var s := FormatInteger(n);
    assert DropTrailingNuls(s) == s;
    TrimByUntouched(s, IsNumberWhite);
    if n < 0 {
      assert s[1..] == FormatNat(-n);
      FormatNatValue(-n);
    } else {
      FormatNatValue(n);
    }
  }

  // ---------------------------------------------------------------------------
  // Guid text, format "D": 8-4-4-4-12 lower-case hexadecimal digits

  function HexValue(c: char): (r: Option<Nibble>)
  {
    if '0' <= c <= '9' then Some(c as int - '0' as int)
    else if 'a' <= c <= 'f' then Some(c as int - 'a' as int + 10)
    else if 'A' <= c <= 'F' then Some(c as int - 'A' as int + 10)
    else None
  }

  function HexChar(n: Nibble): (c: char)
    ensures HexValue(c) == Some(n)
    ensures !('A' <= c <= 'Z')
  {
    if n < 10 then ('0' as int + n) as char else ('a' as int + n - 10) as char
  }

  /** The positions of the four hyphens in a 36-character "D" Guid. */
  predicate IsHyphenPosition(p: int)
  {
    p == 8 || p == 13 || p == 18 || p == 23
  }

  /** The text position of the `i`-th hexadecimal digit. */
  function DigitPosition(i: int): (p: int)
    requires 0 <= i < 32
    ensures 0 <= p < 36 && !IsHyphenPosition(p)
  {
    if i < 8 then i else if i < 12 then i + 1 else if i < 16 then i + 2 else if i < 20 then i + 3 else i + 4
  }

  /** The digit shown at a non-hyphen text position. */
  function DigitIndex(p: int): (i: int)
    requires 0 <= p < 36 && !IsHyphenPosition(p)
    ensures 0 <= i < 32 && DigitPosition(i) == p
  {
    if p < 8 then p else if p < 13 then p - 1 else if p < 18 then p - 2 else if p < 23 then p - 3 else p - 4
  }

  /** `Guid.ToString()`: the "D" format. */
  function FormatGuid(g: Guid): (s: string)
    ensures |s| == 36
    ensures forall p :: 0 <= p < 36 ==> (s[p] == '-' <==> IsHyphenPosition(p))
  {
    seq(36, p requires 0 <= p < 36 => if IsHyphenPosition(p) then '-' else HexChar(g.digits[DigitIndex(p)]))
  }

  /** Exactly 36 characters: hyphens at the four hyphen positions, hexadecimal digits elsewhere. */
  predicate IsGuidText(s: string)
  {
    |s| == 36
    && (forall p :: 0 <= p < 36 && IsHyphenPosition(p) ==> s[p] == '-')
    && (forall i :: 0 <= i < 32 ==> HexValue(s[DigitPosition(i)]).Some?)
  }

  /** Reads the "D" format, either letter case. */
  function ParseGuidD(s: string): (r: Option<Guid>)
    ensures r.Some? <==> IsGuidText(s)
  {
    if IsGuidText(s) then
      Some(Guid(seq(32, i requires 0 <= i < 32 => HexValue(s[DigitPosition(i)]).value)))
    else None
  }

  lemma GuidRoundTrip(g: Guid)
    ensures ParseGuidD(FormatGuid(g)) == Some(g)
  {
    var s := FormatGuid(g);
    forall i | 0 <= i < 32
      ensures HexValue(s[DigitPosition(i)]) == Some(g.digits[i])
    {
      assert DigitIndex(DigitPosition(i)) == i;
    }
    assert IsGuidText(s);
    var h := ParseGuidD(s).value;
    assert h.digits == g.digits;
  }

  /** The "D" text of a Guid determines the Guid. */
  lemma FormatGuidInjective(g: Guid, h: Guid)
    requires FormatGuid(g) == FormatGuid(h)
    ensures g == h
  {
    GuidRoundTrip(g);
    GuidRoundTrip(h);
  }

  // ---------------------------------------------------------------------------
  // Substrings

  predicate StartsWith(s: string, prefix: string)
  {
    |prefix| <= |s| && s[..|prefix|] == prefix
  }
}

=== FILE: type_coercion.dfy ===
/**
 * The entry points of TypeCoercion/TypeCoercion.cs over a mutable options object: the
 * dispatch loops, `TryCoerce` with its JSON handling, `Coerce`, the static constructor's
 * registration of the built-in coercers and the default-options overloads. Each is proved to
 * compute what the functions of `CoercionSpec` describe, on the options' current state.
 */
module TypeCoercion {
  import opened Wrappers
  import opened ClrTypes
  import ErrorCodes
  import opened Results
  import opened Platform
  import opened Coercers
  import opened Options
  import Spec = CoercionSpec

  /**
   * `DispatchToCoercer`: for an enum type, the first enum coercer in the list decides; otherwise
   * the list is walked in order, skipping the enum coercer for non-enum types, until a coercer
   * succeeds or fails with a code other than UnsupportedSourceType.
   */
  method DispatchToCoercer(value: Obj, eff: TypeTag, decl: TypeTag, options: TypeCoercionOptions, lib: Library)
    returns (r: CoercionResult)
    ensures r == Spec.Dispatch(value, eff, decl, options.coercers, options.culture, lib)
  {
    var cs := options.coercers;
    if IsEnum(eff) {
      for i := 0 to |cs|
        invariant forall j :: 0 <= j < i ==> cs[j] != EnumTypeCoercer
      {
        if cs[i] == EnumTypeCoercer {
          r := Coercers.TryCoerce(cs[i], value, eff, decl, options.culture, lib);
          return;
        }
      }
      assert EnumTypeCoercer !in cs;
    }
    assert Spec.Dispatch(value, eff, decl, cs, options.culture, lib) == Spec.Scan(value, eff, decl, cs, options.culture, lib);
    r := ScanCoercers(value, eff, decl, options, lib);
  }

  /**
   * The second loop of `DispatchToCoercer`: every coercer in order, the enum coercer skipped for
   * a non-enum type; a success or a failure other than UnsupportedSourceType ends the walk.
   */
  method ScanCoercers(value: Obj, eff: TypeTag, decl: TypeTag, options: TypeCoercionOptions, lib: Library)
    returns (r: CoercionResult)
    ensures r == Spec.Scan(value, eff, decl, options.coercers, options.culture, lib)
  {
    var cs, culture := options.coercers, options.culture;
    var i := 0;
    while i < |cs|
      invariant 0 <= i <= |cs|
      invariant Spec.Scan(value, eff, decl, cs, culture, lib) == Spec.Scan(value, eff, decl, cs[i..], culture, lib)
    {
      var coercer := cs[i];
      assert cs[i..][0] == coercer && cs[i..][1..] == cs[i + 1..];
      if !(coercer == EnumTypeCoercer && !IsEnum(eff)) {
        var result := Coercers.TryCoerce(coercer, value, eff, decl, culture, lib);
        if result.Success() {
          return result;
        }
        if result.ErrorCode() != ErrorCodes.UnsupportedSourceType {
          return result;
        }
      }
      i := i + 1;
    }
    r := Spec.NoCoercerFound(value, eff);
  }

  /** `TryCoerce(value, targetType, options)`. */
  method TryCoerce(value: Option<Obj>, target: TypeTag, options: TypeCoercionOptions, lib: Library)
    returns (r: CoercionResult)
    ensures r == Spec.TryCoerce(value, target, options.coercers, options.culture, lib)
    decreases Spec.JsonRank(value), 2
  {
    if value.Some? && value.value.JsonV? && target != JsonElementT {
      r := TryCoerceJsonElement(value.value.json, target, options, lib);
      return;
    }
    if value.None? {
      if Spec.IsNullableTargetType(target) {
        return Ok(None);
      }
      return Fail(Spec.NullMessage(target), ErrorCodes.ConversionFailed);
    }
    var declaredType := target;
    var effectiveType := EffectiveType(target);
    if IsInstanceOfType(effectiveType, value.value) {
      return Ok(value);
    }
    r := DispatchToCoercer(value.value, effectiveType, declaredType, options, lib);
  }

  /** `TryCoerceJsonElement`: a switch on the value kind. */
  method TryCoerceJsonElement(j: JsonElement, target: TypeTag, options: TypeCoercionOptions, lib: Library)
    returns (r: CoercionResult)
    ensures r == Spec.TryCoerceJsonElement(j, target, options.coercers, options.culture, lib)
    decreases 1, 1
  {
    match j
    case JString(text) => r := TryCoerce(Some(StrV(text)), target, options, lib);
    case JNumber(raw) => r := TryCoerceJsonNumber(raw, target, options, lib);
    case JTrue => r := TryCoerce(Some(BoolV(true)), target, options, lib);
    case JFalse => r := TryCoerce(Some(BoolV(false)), target, options, lib);
    case JNull => r := TryCoerce(None, target, options, lib);
    case JObject(_) => r := Spec.TryDeserializeComplexJson(j, target, lib);
    case JArray(_) => r := Spec.TryDeserializeComplexJson(j, target, lib);
    case JUndefined => r := Fail(Spec.JsonKindMessage(j, target), ErrorCodes.UnsupportedSourceType);
  }

  /** `TryCoerceJsonNumber`: try the extraction for the effective type, else coerce the raw text. */
  method TryCoerceJsonNumber(raw: string, target: TypeTag, options: TypeCoercionOptions, lib: Library)
    returns (r: CoercionResult)
    ensures r == Spec.TryCoerceJsonNumber(raw, target, options.coercers, options.culture, lib)
    decreases 1, 0
  {
    var effectiveType := EffectiveType(target);
    var extracted := Spec.JsonNumberValue(raw, effectiveType, lib);
    if extracted.Some? {
      r := TryCoerce(extracted, target, options, lib);
    } else {
      r := TryCoerce(Some(StrV(raw)), target, options, lib);
    }
  }

  /** `Coerce(value, targetType, options)`: the value, or the TypeCoercionException built from the failure. */
  method Coerce(value: Option<Obj>, target: TypeTag, options: TypeCoercionOptions, lib: Library)
    returns (o: Spec.CoerceOutcome)
    ensures o == Spec.Coerce(value, target, options.coercers, options.culture, lib)
  {
    var result := TryCoerce(value, target, options, lib);
    if result.Success() {
      return Spec.Returned(result.Value());
    }
    if result.OriginalException().Some? {
      return Spec.Threw(Faults.NewTypeCoercionExceptionWithInner(result.Error(), result.ErrorCode(), result.OriginalException().value));
    }
    return Spec.Threw(Faults.NewTypeCoercionException(result.Error(), result.ErrorCode()));
  }

  /** The static constructor's registrations: the built-ins appended in order, four of them sharing one fallback. */
  method RegisterBuiltIns(options: TypeCoercionOptions)
    modifies options
    ensures options.coercers == old(options.coercers) + Spec.DefaultCoercers()
    ensures options.culture == old(options.culture)
  {
    var fallbackCoercer := FallbackTypeCoercer;
    options.Add(StringTypeCoercer);
    options.Add(BoolTypeCoercer);
    options.Add(GuidTypeCoercer(fallbackCoercer));
    options.Add(EnumTypeCoercer);
    options.Add(DateTimeTypeCoercer);
    options.Add(DateTimeOffsetTypeCoercer);
    options.Add(DateOnlyTypeCoercer(fallbackCoercer));
    options.Add(TimeOnlyTypeCoercer(fallbackCoercer));
    options.Add(TimeSpanTypeCoercer(fallbackCoercer));
    options.Add(NumericTypeCoercer);
    options.Add(fallbackCoercer);
  }

  /**
   * The process-wide state. `TypeCoercionOptions.Default` is created empty by that class's own
   * static initialiser; the built-ins are appended only when `TypeCoercion`'s static constructor
   * runs, on first use of `TypeCoercion`. Anything a caller added to `Default` before then stays
   * in front of the built-ins.
   */
  class Statics {
    const Default: TypeCoercionOptions
    /** Whether `TypeCoercion`'s static constructor has run. */
    var initialised: bool

    /** `TypeCoercionOptions.Default`'s static initialiser: a fresh, empty options object. */
    constructor ()
      ensures fresh(Default)
      ensures Default.coercers == [] && Default.culture == InvariantCulture
      ensures !initialised
    {
      Default := new TypeCoercionOptions();
      initialised := false;
    }

    /** First use of `TypeCoercion`: its static constructor runs once and appends the built-ins. */
    method EnsureInitialised()
      modifies this, Default
      ensures initialised
      ensures Default.coercers ==
        if old(initialised) then old(Default.coercers) else old(Default.coercers) + Spec.DefaultCoercers()
      ensures Default.culture == old(Default.culture)
    {
      if !initialised {
        RegisterBuiltIns(Default);
        initialised := true;
      }
    }
  }

  /** `TryCoerce(value, targetType)`: triggers static initialisation, then uses the shared default options. */
  method TryCoerceDefault(value: Option<Obj>, target: TypeTag, statics: Statics, lib: Library)
    returns (r: CoercionResult)
    modifies statics, statics.Default
    ensures statics.initialised
    ensures statics.Default.coercers ==
      if old(statics.initialised) then old(statics.Default.coercers)
      else old(statics.Default.coercers) + Spec.DefaultCoercers()
    ensures statics.Default.culture == old(statics.Default.culture)
    ensures r == Spec.TryCoerce(value, target, statics.Default.coercers, statics.Default.culture, lib)
  {
    statics.EnsureInitialised();
    r := TryCoerce(value, target, statics.Default, lib);
  }

  /** `Coerce(value, targetType)`: triggers static initialisation, then uses the shared default options. */
  method CoerceDefault(value: Option<Obj>, target: TypeTag, statics: Statics, lib: Library)
    returns (o: Spec.CoerceOutcome)
    modifies statics, statics.Default
    ensures statics.initialised
    ensures statics.Default.coercers ==
      if old(statics.initialised) then old(statics.Default.coercers)
      else old(statics.Default.coercers) + Spec.DefaultCoercers()
    ensures statics.Default.culture == old(statics.Default.culture)
    ensures o == Spec.Coerce(value, target, statics.Default.coercers, statics.Default.culture, lib)
  {
    statics.EnsureInitialised();
    o := Coerce(value, target, statics.Default, lib);
  }
}

=== FILE: wrappers.dfy ===
/** Optional values: `None` stands for a C# `null` reference or an absent value. */
module Wrappers {

  datatype Option<+T> = None | Some(value: T)
}
